=== FILE: README.md ===
# TexMentors mentorship core in Dafny

A model of the core of TexMentors. TexMentors is a mentoring platform: students open mentorship requests, mentors claim and work through them, and the two sides schedule sessions. Administrators manage users, help types and requests. The model covers:

- **Backend controllers**: authentication, help types, mentorship requests and mentorship sessions.
- **Mongoose schemas**: their validators, `trim` setters and enums.
- **The soft-delete convention**: every model's pre-query hook adds `isDeleted: false` to a filter that does not name `isDeleted`.
- **The authentication middleware.**
- **Frontend mirrors of the backend rules**:
  - the mentor and student dashboards;
  - the admin request editor;
  - the profile form's comma-separated lists;
  - the session proposal page;
  - the request form;
  - the client-side route guard.

The frontend modules are connected to the backend handlers by lemmas. Each lemma states that what a page offers is what the handler accepts, or names where the two disagree.

## Modules

Each module corresponds to one source file.

| module | models |
|---|---|
| `Http` | Optional values, error statuses, handler results, and the JSON body field: absent, `null` or a string, with JavaScript truthiness. |
| `Text` | `trim`, `split` on one character, and `join`. |
| `SoftDelete` | The collections as maps of entries that carry the soft-delete flag, the per-model pre-query hook, `findById` and `ObjectId.isValid`. |
| `UserModel` | Roles, the e-mail pattern and normalisation, the save-time password hashing, reset tokens, and the unique index on `email`. |
| `AuthController` | Register, login, forgot-password and reset-password. |
| `AuthMiddleware` | `protect` and `authorize`. |
| `HelpTypeModel`, `HelpTypeController` | The help-type registry and its unique names. |
| `RequestModel`, `RequestController` | Mentorship requests: the status enum, creation, listing, reading, the role-based update rules and soft deletion. |
| `SessionModel`, `SessionController` | Mentorship sessions: proposal, listing, and the confirm, reschedule, cancel and notes updates. |
| `MentorDashboard`, `StudentDashboard`, `AdminRequestsPage`, `ProfilePage`, `CreateSessionPage`, `RequestForm`, `ProtectedRoute` | The frontend pages and components. |

### Abstractions

- **The database** is a `map` from ids to entries. A handler is a pure function from the stores and the request to either a new store or an error status.
- **Values the environment provides** are parameters:
  - the id the database assigns;
  - the clock;
  - the random reset token;
  - whether the mail transport accepted a message;
  - the JWT verification outcome;
  - the browser's date parsing.
- **Cryptographic functions** are injective constructors: bcrypt is `Hashed(p)` and SHA-256 is `Sha256Hex(raw)`.

The request schema's `status` enum is a parameter `Schema`:

- `Written`, the enum as written;
- `Intended`, the same enum plus `cancelada_mentor`.

This parameter makes it possible to state the one discrepancy in the Findings section below, together with its correction.

## Model

| member | source | states |
|---|---|---|
| SoftDelete.FindById | backend/src/models/userModel.js:102-109 | `findById` returns a document exactly when it is stored and not soft-deleted, and then returns that document. |
| SoftDelete.MarkDeleted | backend/src/controllers/helpTypeController.js:145-147 | Soft deletion sets the flag and the timestamp on one entry. It keeps the key set and every other entry. |
| SoftDelete.HookedQueryHidesDeleted | backend/src/models/mentorshipRequestModel.js:72-84 | No hooked query whose filter omits `isDeleted` returns or counts a deleted document. |
| SoftDelete.ExplicitConditionBypassesHook | backend/src/models/helpTypeModel.js:31-37 | A filter that names `isDeleted: true` is not rewritten and selects exactly the deleted documents. |
| SoftDelete.SessionCountIncludesDeleted | backend/src/models/mentorshipSessionModel.js:81-83 | The session model hooks only `find` and `findOne`, so `countDocuments` over sessions counts deleted ones; the request model's does not. |
| SoftDelete.DeletedIsNotFound | backend/src/models/mentorshipRequestModel.js:80-81 | After soft deletion, `findById` finds nothing. |
| UserModel.LowerChar | backend/src/models/userModel.js:22 | The model folds ASCII only: an upper-case ASCII letter becomes its lower-case counterpart, and every other character, non-ASCII capitals included, is left alone. |
| UserModel.LowerAscii | backend/src/models/userModel.js:22 | The model lower-cases a string character by character with `LowerChar`, so the result has the input's length. |
| UserModel.LowerCharKeepsSpaces | backend/src/models/userModel.js:22-23 | Lower-casing produces no upper-case letter and neither creates nor removes a space character. |
| UserModel.NormalizedEmailIsLowerAndTrimmed | backend/src/models/userModel.js:18-25 | A stored address has no upper-case ASCII letter and no space at either end. |
| UserModel.EmailPatternAcceptsAddresses | backend/src/models/userModel.js:24 | The pattern `.+@.+\..+` accepts every `a@b.c` whose three parts are non-empty and hold no line terminator. |
| UserModel.EmailPatternNeedsAtAndDot | backend/src/models/userModel.js:24 | Whatever the pattern accepts has an `@` after its first character and a later dot before its last character, with a character between them. |
| UserModel.HashOnSave | backend/src/models/userModel.js:82-92 | The pre-save hook hashes a modified password and leaves a stored hash unchanged. |
| UserModel.HashOnSaveIdempotent | backend/src/models/userModel.js:82-92 | Saving twice hashes only once. |
| UserModel.SavedPasswordAcceptsOnlyItself | backend/src/models/userModel.js:95-98 | After a save, `comparePassword` accepts exactly the password last assigned. |
| UserModel.CreatePasswordResetToken | backend/src/models/userModel.js:112-128 | Returns the raw token, stores only its SHA-256 digest, sets the expiry to ten minutes after `now`, and changes no other field. |
| UserModel.ActiveWithEmail | backend/src/models/userModel.js:130-131 | `findOne({email})` can return exactly the active users holding that address. |
| UserModel.CreateUser | backend/src/models/userModel.js:7-36 | `User.create` succeeds exactly when the document passes schema validation and no stored user holds the address. A deleted user counts, because the unique index spans all users. On success it adds one active entry with the password hashed. A failure is thrown. |
| UserModel.CreateUserKeepsEmailsUnique | backend/src/models/userModel.js:21 | Creating a user keeps the unique-email invariant. |
| UserModel.PopulateUser | backend/src/models/mentorshipRequestModel.js:89-97 | A populated user reference keeps its id exactly when the user is stored and not deleted; otherwise it is `null`, because populate's lookup goes through the user model's hook. |
| AuthController.NewStudent | backend/src/controllers/authController.js:35-44 | The registered document is an unverified student with the normalised e-mail, the given password and no reset token. |
| AuthController.Register | backend/src/controllers/authController.js:19-67 | Registration fails with 400 when a required field is missing and with 400 when an active user holds the address. Otherwise it runs `User.create`, whose failures are 500. When the body is complete and no active user holds the address, registration succeeds exactly when the new student document validates and no stored user, deleted or not, holds the normalised address. Otherwise the error is 500. |
| AuthController.RegisterAddsUnverifiedStudent | backend/src/controllers/authController.js:35-44 | A successful registration adds exactly one active, unverified student with the normalised address and the hashed password, and changes nothing else. |
| AuthController.RegisterKeepsEmailsUnique | backend/src/controllers/authController.js:30-44 | Registration keeps the unique-email invariant. |
| AuthController.AtMostOneWithEmail | backend/src/models/userModel.js:21 | Under the unique index, at most one active user holds a given address. |
| AuthController.UserWithEmail | backend/src/controllers/authController.js:82 | The active user holding an address, when there is one. |
| AuthController.Login | backend/src/controllers/authController.js:72-115 | Login gives 400 when the e-mail or the password is missing, and 401 when no active user holds the address. It logs in exactly when an active user holds the address and their stored hash accepts the password, and then returns that user's id and role. |
| AuthController.RegisteredStudentCanLogIn | backend/src/controllers/authController.js:19-115 | After a successful registration, logging in with the same e-mail and password yields the new student. |
| AuthController.LoginOfMatchingUser | backend/src/controllers/authController.js:82-104 | Login with an address and password succeeds, as the active user holding the address, whenever that user's stored hash accepts the password. |
| AuthController.ForgotPassword | backend/src/controllers/authController.js:147-195 | With no active user for the address, the reply is 200 and nothing changes. Otherwise only that user changes, and only in the reset fields. The fields hold the digest and the expiry when the mail was sent, and are cleared with a 500 reply when it was not. |
| AuthController.ResetMatches | backend/src/controllers/authController.js:203-213 | The reset lookup matches the active users whose stored digest is the token's and whose expiry is still in the future. |
| AuthController.ApplyReset | backend/src/controllers/authController.js:220-247 | Once the lookup returned a user, the reset succeeds exactly when the new password is a string that makes the document valid. That user then holds the hash of the new password with both reset fields cleared, and no other user changes. Every failure is 400. |
| AuthController.ResetPassword | backend/src/controllers/authController.js:200-250 | Reset gives 400 when no user matches the token or the new password is not a string of at least six characters. Otherwise the result is `ApplyReset` on one matching user, and on that single user when only one matches. It succeeds whenever every matching user would pass validation with the new password, and the token then stops matching that user. |
| AuthController.IssuedTokenLifetime | backend/src/models/userModel.js:123 | A mailed token opens the reset exactly while the clock is before issue time plus 600000 ms. A token whose mail failed never opens it. |
| AuthController.FailedMailLeavesNoToken | backend/src/controllers/authController.js:182-188 | When the mail fails, no user is left with a usable token. |
| AuthController.MailedTokenMatchesOnlyRequester | backend/src/controllers/authController.js:156-181 | After a mailed reset request with a fresh token, the token matches exactly the requesting user until it expires. |
| AuthController.ResetKeepsEmailsUnique | backend/src/controllers/authController.js:220-230 | A successful reset keeps the unique-email invariant. |
| AuthController.ResetFlowLogsIn | backend/src/controllers/authController.js:147-250 | For a fresh token, after a mailed reset request and before ten minutes pass, the token matches exactly the requesting user. A new password of six or more characters then resets that user, and logging in with it succeeds. |
| AuthMiddleware.BearerToken | backend/src/middleware/authMiddleware.js:10-13 | The token is the second space-separated part of a header that starts with `Bearer`. It exists whenever such a header contains a space. |
| AuthMiddleware.BearerTokenOfWellFormedHeader | backend/src/middleware/authMiddleware.js:13 | `Bearer <t>` yields `t` when `t` has no space. |
| AuthMiddleware.Protect | backend/src/middleware/authMiddleware.js:5-49 | Every failure is 401. The caller passes exactly when the header carries a Bearer token that verifies to the id of an active user, and is then that user with their role. |
| AuthMiddleware.DeletedUserIsUnauthorized | backend/src/middleware/authMiddleware.js:20-30 | A soft-deleted account is refused even when its token still verifies. |
| AuthMiddleware.Authorize | backend/src/middleware/authMiddleware.js:52-59 | The request passes exactly when there is a caller whose role is listed. Otherwise the answer is 403. |
| AuthMiddleware.GuardOrder | backend/src/middleware/authMiddleware.js:5-59 | Authentication is decided before the role: a bad token is 401 whatever the roles, and a role mismatch is 403. |
| HelpTypeModel.NewHelpType | backend/src/models/helpTypeModel.js:5-16 | The stored name and description are trimmed, and the name is empty exactly when the given name is all spaces. |
| HelpTypeModel.ActiveWithName | backend/src/controllers/helpTypeController.js:16 | `findOne({name})` can return exactly the active help types whose name is the trimmed query value. |
| HelpTypeModel.ActiveHelpTypes | backend/src/models/helpTypeModel.js:39 | `find({})` returns exactly the active help types. |
| HelpTypeController.SaveHelpType | backend/src/models/helpTypeModel.js:6-11 | A save fails with 400 when the name is empty, and with 500 when another stored help type, deleted or not, holds the name. Otherwise it stores the document. |
| HelpTypeController.SaveKeepsNamesUnique | backend/src/models/helpTypeModel.js:10 | Saving keeps the unique-name invariant. |
| HelpTypeController.CreateHelpType | backend/src/controllers/helpTypeController.js:8-40 | Creation gives 400 without a name and 400 when an active help type has the name. Past those checks, an all-space name is a 400 validation error, a name held by a deleted help type is a 500 from the unique index, and any other name is created. On success it adds one active help type with the trimmed name. |
| HelpTypeController.ListHelpTypes | backend/src/controllers/helpTypeController.js:45-54 | The list holds exactly the active help types. |
| HelpTypeController.GetHelpType | backend/src/controllers/helpTypeController.js:59-80 | A read gives 400 for a malformed id. Otherwise it returns the document exactly when the help type is active, and 404 when it is not. |
| HelpTypeController.UpdateHelpType | backend/src/controllers/helpTypeController.js:85-128 | An update gives 400 for a malformed id and 404 for a missing or deleted help type. A rename onto another active help type's name is 400. An absent description is kept, `null` clears it and a string is stored trimmed. An empty name keeps the old one. A rename that no other active help type blocks succeeds exactly when the trimmed name is not blank and no other stored help type holds it; a blank one is a 400. Keeping the name succeeds exactly when the stored document is valid and its name is its own. |
| HelpTypeController.DeleteHelpType | backend/src/controllers/helpTypeController.js:133-158 | A delete gives 400 for a malformed id. It succeeds exactly for an active help type, marks only that one deleted, and otherwise answers 404. |
| HelpTypeController.HandlersKeepNamesUnique | backend/src/controllers/helpTypeController.js:8-158 | Create, update and delete all keep the unique-name invariant. |
| HelpTypeController.DeleteTwiceIsNotFound | backend/src/controllers/helpTypeController.js:139-143 | A second delete of the same help type is 404. |
| HelpTypeController.DeletedNameBlocksCreate | backend/src/controllers/helpTypeController.js:16-26 | The name of a soft-deleted help type cannot be reused. The lookup does not see it, so the create reaches the unique index and fails with 500. |
| HelpTypeController.KeepingTheNameNeverClashes | backend/src/controllers/helpTypeController.js:100-110 | Sending back an active help type's current name always succeeds. |
| RequestModel.ParseStatus | backend/src/models/mentorshipRequestModel.js:34-46 | A status string names at most one status, and the parse finds it. |
| RequestModel.NewRequest | backend/src/models/mentorshipRequestModel.js:5-57 | A new request is `pendiente` with empty notes and the given references. Its string fields are trimmed, and the title is empty exactly when the given one is all spaces. |
| RequestController.CreateRequest | backend/src/controllers/mentorshipRequestController.js:10-64 | Creation checks in the handler's order: 400 for a missing help type, title or description, 403 for a non-student, 400 for a malformed help-type id, 404 for a missing or deleted help type, 400 for a malformed mentor id and 404 for a mentor who is not an active mentor. Past those checks it succeeds exactly when the trimmed title is non-empty and at most 150 characters and the trimmed description is non-empty, and otherwise answers 400. It then adds exactly one `pendiente` request owned by the caller, with the body's help type, mentor, and trimmed title and description. |
| RequestController.ListRequests | backend/src/controllers/mentorshipRequestController.js:69-96 | The list holds the active requests: for a student, their own; for a mentor, those assigned to them plus the unassigned pending ones; for an admin, all. |
| RequestController.GetRequest | backend/src/controllers/mentorshipRequestController.js:101-132 | A read gives 400 for a malformed id and 404 for a missing or deleted request. When the owning student's account is deleted it is 500 for everyone. Otherwise it returns the request to an admin, its student, or its assigned mentor while that mentor's account is active, and answers 403 to anyone else. |
| RequestController.ListedButNotReadable | backend/src/controllers/mentorshipRequestController.js:77-83 | A mentor is shown every unassigned pending request but gets 403 opening it. |
| RequestController.ReadableIsListed | backend/src/controllers/mentorshipRequestController.js:69-124 | Whatever a caller may read is in their list. |
| RequestController.AdminMentorChange | backend/src/controllers/mentorshipRequestController.js:163-176 | An absent field leaves the mentor alone, and `null`, `"null"` or `""` unassigns. An id is accepted exactly when it names an active mentor; a malformed id is 400 and an unknown one is 404. |
| RequestController.UpdateRequest | backend/src/controllers/mentorshipRequestController.js:137-258 | An update gives 400 for a malformed id and 404 for a missing or deleted request. It gives 500 exactly when the owning student's account is deleted. On success only the target request changes, it stays valid, and its student, help type and title are kept. No error is 401. |
| RequestController.MentorStepMatchesTransitions | backend/src/controllers/mentorshipRequestController.js:180-191 | The assigned mentor's string test accepts a target exactly when it is an allowed name and the move is in the transition relation. |
| RequestController.AssignedMentorFollowsTransitions | backend/src/controllers/mentorshipRequestController.js:182-195 | The active assigned mentor of a request whose student's account exists changes the status only along the relation. An unknown or disallowed target is 400. |
| RequestController.MentorClaim | backend/src/controllers/mentorshipRequestController.js:197-202 | A mentor naming `aceptada_mentor` on a pending request that shows no mentor becomes its mentor and accepts it. A request whose assigned mentor's account was deleted shows no mentor, so it can be claimed too. |
| RequestController.UnassignedMentorOtherwiseForbidden | backend/src/controllers/mentorshipRequestController.js:203-207 | When the owning student's account exists, every other update by a mentor who is not the request's active assigned mentor is 403. |
| RequestController.StudentMayOnlyCancel | backend/src/controllers/mentorshipRequestController.js:209-223 | A student who does not own a request whose owner's account exists is refused with 403. The owner's only successful update is a cancel from `pendiente` or `aceptada_mentor`. |
| RequestController.AdminSetsAnyAdmittedStatus | backend/src/controllers/mentorshipRequestController.js:160-162 | An admin's status update succeeds exactly when the schema admits the status and the owning student's account exists, and then changes only the status. |
| RequestController.UpdateKeepsStoreValid | backend/src/controllers/mentorshipRequestController.js:232-234 | Every successful update leaves every stored request valid against the schema. |
| RequestController.DeleteRequest | backend/src/controllers/mentorshipRequestController.js:260-317 | A delete gives 400 for a malformed id and 404 for a missing or deleted request, and 500 when the owning student's account is deleted. Otherwise it succeeds for an admin, and for the owning student in the six listed statuses, and is 403 for everyone else. It marks only that request deleted. |
| RequestController.DeleteTwiceIsNotFound | backend/src/controllers/mentorshipRequestController.js:268-277 | A second delete is 404: the handler's "already deleted" 400 cannot be reached. |
| RequestController.DeletedRequestIsGone | backend/src/controllers/mentorshipRequestController.js:89-111 | A deleted request leaves every list and every read answers 404. |
| RequestController.DeletedOwnerIsServerError | backend/src/controllers/mentorshipRequestController.js:101-317 | For a live request whose owning student's account is deleted, read, update and delete all answer 500, whoever asks. |
| RequestController.WrittenEnumRefusesMentorCancel | backend/src/models/mentorshipRequestModel.js:37-44 | Under the written enum, the active assigned mentor's `cancelada_mentor` on a request whose student's account exists is always refused with 400. |
| RequestController.IntendedEnumAllowsMentorCancel | backend/src/controllers/mentorshipRequestController.js:186-188 | With `cancelada_mentor` in the enum, the active assigned mentor cancels an accepted or in-progress request whose student's account exists. |
| SessionModel.ParseSessionStatus | backend/src/models/mentorshipSessionModel.js:33-46 | A session status string names at most one status, and the parse finds it. |
| SessionModel.CastSlots | backend/src/models/mentorshipSessionModel.js:25-28 | Body slots cast exactly when every start and end time is a date, slot by slot. |
| SessionController.ProposedSlots | backend/src/controllers/mentorshipSessionController.js:22-33 | The checked slots are stored one for one, each starting before it ends. |
| SessionController.CreateSession | backend/src/controllers/mentorshipSessionController.js:9-118 | Creation gives 400 without a request id or a slot, or for an invalid slot, and then 400 for a malformed request id and 404 for a missing or deleted request. It gives 400 when the request is neither accepted nor in progress, and 403 unless the caller is its active student or active assigned mentor, so always for an admin. A mentor caller on a request whose student's account is deleted gets 500. Past those checks it succeeds exactly when the request has an active assigned mentor, and otherwise answers 400. The new session is `propuesta`, proposed by the caller, with the request's student and mentor, exactly the body's slots, the trimmed location, and nothing confirmed. |
| SessionController.ParentStatusGate | backend/src/controllers/mentorshipSessionController.js:51-54 | Of the four names the handler accepts, only `aceptada_mentor` and `en_progreso` are request statuses. |
| SessionController.ProposalNeedsParticipantAndAcceptedRequest | backend/src/controllers/mentorshipSessionController.js:51-89 | A created session's parent request is accepted or in progress, its student's account and its assigned mentor's account are both active, and the proposer is that student or that mentor, never an admin. |
| SessionController.UnassignedRequestRefusesSessions | backend/src/controllers/mentorshipSessionController.js:92-100 | A request without an active assigned mentor gets no sessions: validation refuses the missing mentor with 400. |
| SessionController.CreateKeepsInvariant | backend/src/controllers/mentorshipSessionController.js:92-100 | Creation keeps every stored session valid, with any confirmed slot among the proposed ones. |
| SessionController.ListSessions | backend/src/controllers/mentorshipSessionController.js:122-202 | A listing gives 400 for a malformed id and 404 for a missing or deleted request. For a live request it succeeds exactly for an admin, the owning student and the assigned mentor, and answers 403 to anyone else. A listing holds exactly the request's non-deleted sessions. |
| SessionController.ListingHidesDeleted | backend/src/controllers/mentorshipSessionController.js:186-190 | A deleted request's sessions cannot be listed, and a deleted session is never listed. |
| SessionController.MatchProposal | backend/src/controllers/mentorshipSessionController.js:241-244 | The proposal check fails with 500 exactly when `toISOString` meets an invalid date before the search ends. Otherwise it holds exactly when both times are dates and that slot was proposed. |
| SessionController.Reschedule | backend/src/controllers/mentorshipSessionController.js:263-270 | A reschedule without new slots is 400. |
| SessionController.Assign | backend/src/models/mentorshipSessionModel.js:25-58 | Assigning passes validation exactly when any new status is in the enum and any new slots cast. It keeps mentor, student and request. New slots are stored as cast. A text field that was set is stored trimmed, or cleared when set to `null`, and one not set is kept. |
| SessionController.UpdateSession | backend/src/controllers/mentorshipSessionController.js:208-332 | An update gives 400 for a malformed id and 404 for a missing or deleted session. On success only that session changes. The success direction for participants is stated by `NonProposerCanConfirm` and `ParticipantCanTakeStep`. |
| SessionController.CollectShape | backend/src/controllers/mentorshipSessionController.js:233-304 | A confirmation always sets the `confirmada` status, and new slots always come with a cleared confirmation and the caller as proposer. |
| SessionController.UpdateKeepsInvariant | backend/src/controllers/mentorshipSessionController.js:307-316 | Every successful update keeps the store invariant: a status in the enum, and a confirmed slot among the proposed ones. |
| SessionController.ConfirmedByNonProposer | backend/src/controllers/mentorshipSessionController.js:238-254 | A confirmation happens only on a proposed session, by its student or mentor who did not propose it, and picks a proposed slot. |
| SessionController.NonProposerCanConfirm | backend/src/controllers/mentorshipSessionController.js:238-254 | Conversely, that participant confirming a proposed slot succeeds. |
| SessionController.NotesOnlyAfterSession | backend/src/controllers/mentorshipSessionController.js:272-296 | The mentor's summary and the student's feedback change only on a held session, by the session's mentor and student respectively. |
| SessionController.RescheduleResetsConfirmation | backend/src/controllers/mentorshipSessionController.js:263-291 | New slots clear the confirmation and make the caller the proposer. |
| SessionController.ParticipantStatusFollowsSteps | backend/src/controllers/mentorshipSessionController.js:238-297 | When a successful update by a student or a mentor changes a session's status, the change is one of the participant steps allowed to the caller's role. |
| SessionController.ParticipantCanTakeStep | backend/src/controllers/mentorshipSessionController.js:256-297 | Conversely, the session's own mentor or student who asks for any step other than confirmation that is allowed to their role from the current status gets it, given new proposals for a reschedule. A reschedule stores the cast proposals, clears the confirmation and makes the caller the proposer. |
| SessionController.RescheduledIsNeverConfirmed | backend/src/controllers/mentorshipSessionController.js:238-297 | A session waiting to be rescheduled never returns to `propuesta` or `confirmada` by its participants' hands. |
| SessionController.AdminSetsEnumStatuses | backend/src/controllers/mentorshipSessionController.js:300-301 | An admin sets exactly the enum's statuses; `en_progreso` and `cancelada_admin` are refused with 400. |
| SessionController.OutsiderIsRefused | backend/src/controllers/mentorshipSessionController.js:307-313 | Someone who is neither an admin nor a participant is always refused. Outside a confirmation attempt, a non-empty body gets 400 and an empty one gets 403. |
| MentorDashboard.ButtonsByStatus | frontend/src/pages/MentorDashboardPage.jsx:78-142 | A row shows a button exactly when the mentor is assigned and the status allows it, or, for Take, when the request is pending and unassigned. |
| MentorDashboard.Click | frontend/src/pages/MentorDashboardPage.jsx:37-50 | Accept, Reject and Take wait for confirmation. A click sends just the button's target status. |
| MentorDashboard.ShownButtonIsAccepted | frontend/src/pages/MentorDashboardPage.jsx:125-142 | For a signed-in mentor and a request whose student's account exists, every shown button except two is accepted by the handler and sets its target status. The two exceptions are Complete on an accepted request and Cancel under the written enum. |
| MentorDashboard.CompleteOnAcceptedIsRefused | frontend/src/pages/MentorDashboardPage.jsx:80 | Complete is offered on an accepted request, but the handler refuses it with 400. |
| MentorDashboard.CancelIsRefusedAsWritten | frontend/src/pages/MentorDashboardPage.jsx:136-137 | Cancel is offered, but under the written enum the handler refuses it with 400. |
| StudentDashboard.FindRow | frontend/src/pages/StudentDashboardPage.jsx:34 | `find` returns the first row with the id, or nothing when no row has it. |
| StudentDashboard.HandleCancel | frontend/src/pages/StudentDashboardPage.jsx:32-53 | The page refuses locally unless the row exists and is pending or accepted. It then waits for confirmation and sends only the `cancelada_estudiante` status. |
| StudentDashboard.ShownCancelIsSent | frontend/src/pages/StudentDashboardPage.jsx:107 | A shown Cancel button, once confirmed, sends the request. |
| StudentDashboard.SentCancelSucceeds | frontend/src/pages/StudentDashboardPage.jsx:44 | When the row's status is current, the sent cancel succeeds for the signed-in owner and sets `cancelada_estudiante`. |
| AdminRequestsPage.MentorChoices | frontend/src/pages/AdminMentorshipRequestsPage.jsx:55-65 | The mentor options are exactly the active users with role mentor. |
| AdminRequestsPage.Prefill | frontend/src/pages/AdminMentorshipRequestsPage.jsx:78-85 | The editor starts from the current status, the stored mentor's id and the stored internal notes, with `""` for no mentor and for no notes. |
| AdminRequestsPage.BuildDiff | frontend/src/pages/AdminMentorshipRequestsPage.jsx:94-126 | The diff holds a status exactly when a different one was chosen. It holds a mentor exactly when the choice differs from the current one, with `null` for none. It holds notes exactly when they differ. |
| AdminRequestsPage.Submit | frontend/src/pages/AdminMentorshipRequestsPage.jsx:130-134 | An empty diff sends nothing. Otherwise the body carries exactly the diff's keys. |
| AdminRequestsPage.UntouchedFormSendsNothing | frontend/src/pages/AdminMentorshipRequestsPage.jsx:78-134 | Saving the editor unchanged sends nothing, when the request has stored notes and any assigned mentor id is well formed. |
| AdminRequestsPage.OfferedChoicesAreAccepted | frontend/src/pages/AdminMentorshipRequestsPage.jsx:33-40 | On a request whose student's account exists, every offered status and mentor choice is accepted by the handler, which applies exactly the diff. |
| AdminRequestsPage.SavedFormHasEmptyDiff | frontend/src/pages/AdminMentorshipRequestsPage.jsx:94-134 | After a save, the same form with trimmed notes has nothing left to send. |
| ProfilePage.Clean | frontend/src/pages/ProfilePage.jsx:65-66 | Trimming and dropping empty parts yields non-empty, trimmed items. |
| ProfilePage.CleanAppend | frontend/src/pages/ProfilePage.jsx:65-66 | Cleaning distributes over concatenation. |
| ProfilePage.TrimKeepsCommaOut | frontend/src/pages/ProfilePage.jsx:65 | Trimming never introduces a comma. |
| ProfilePage.CleanKeepsCommaOut | frontend/src/pages/ProfilePage.jsx:65-66 | Cleaning comma-free parts yields comma-free items. |
| ProfilePage.ParseList | frontend/src/pages/ProfilePage.jsx:65-66 | Every item read from a list field is non-empty, trimmed and comma-free. |
| ProfilePage.CleanAfterSpace | frontend/src/pages/ProfilePage.jsx:47-65 | The space after a `", "` separator does not change the cleaned parts. |
| ProfilePage.CleanSplitJoin | frontend/src/pages/ProfilePage.jsx:47-65 | Cleaning the split of a `", "`-joined list of items gives the list back. |
| ProfilePage.FormatThenParse | frontend/src/pages/ProfilePage.jsx:47-66 | Round trip: showing a list of items and reading it back gives the list. |
| ProfilePage.ParseIsIdempotent | frontend/src/pages/ProfilePage.jsx:47-66 | What parsing yields shows and parses back to itself. |
| ProfilePage.ParseSingle | frontend/src/pages/ProfilePage.jsx:65 | Comma-free text parses to its trimmed self, or to nothing when it is blank. |
| CreateSessionPage.AddSlot | frontend/src/pages/CreateMentorshipSessionPage.jsx:23-25 | Adding appends one empty slot and keeps the others. |
| CreateSessionPage.RemoveSlot | frontend/src/pages/CreateMentorshipSessionPage.jsx:27-30 | Removing drops exactly the slot at the index and keeps the others in order. |
| CreateSessionPage.ChangeSlot | frontend/src/pages/CreateMentorshipSessionPage.jsx:17-21 | Editing changes one field of one slot. |
| CreateSessionPage.RunKeepsSlots | frontend/src/pages/CreateMentorshipSessionPage.jsx:105-110 | As long as Remove is only offered with more than one slot, the list never becomes empty. |
| CreateSessionPage.Submit | frontend/src/pages/CreateMentorshipSessionPage.jsx:37-66 | The page posts exactly when every slot has both times and every time reads as a valid date. Otherwise `toISOString` throws, the error is caught, and nothing is posted. A posted body carries the request id, the location and every slot in order. |
| CreateSessionPage.SubmittedBodyPassesInputChecks | frontend/src/pages/CreateMentorshipSessionPage.jsx:11-53 | A posted body always carries at least one slot, whatever the user did. It passes the handler's input checks exactly when the request id is non-empty and every slot starts before it ends. |
| RequestForm.HelpTypeOptions | frontend/src/components/ui/MentorshipRequestForm.jsx:22 | The selector offers exactly the non-deleted help types, and every row when none is deleted. |
| RequestForm.HelpTypeOptionsAppend | frontend/src/components/ui/MentorshipRequestForm.jsx:22 | Filtering keeps the rows' order: the options of two lists in sequence are the options of each, in sequence. |
| RequestForm.Prefill | frontend/src/components/ui/MentorshipRequestForm.jsx:36-48 | Create mode clears the form. Edit mode with data copies the help-type and mentor ids and the title, description and availability, with `""` for a missing one. Edit mode without data keeps the form. |
| RequestForm.PrefillIgnoresPopulation | frontend/src/components/ui/MentorshipRequestForm.jsx:39-43 | A populated reference and a bare id prefill alike. |
| RequestForm.Submit | frontend/src/components/ui/MentorshipRequestForm.jsx:58-72 | Submission is refused exactly when the help type, title or description is empty. Otherwise the fields go out as typed, with an empty mentor left out. |
| RequestForm.LocalCheckMatchesHandler | frontend/src/components/ui/MentorshipRequestForm.jsx:60-63 | The form refuses exactly the bodies the handler's missing-field check would refuse. |
| RequestForm.BlankTitlePassesFormOnly | frontend/src/components/ui/MentorshipRequestForm.jsx:60 | A title of only spaces passes the form, which does not trim, but the handler refuses the request. |
| RequestForm.SubmittedFormIsCreated | frontend/src/components/ui/MentorshipRequestForm.jsx:58-72 | A student's submitted form creates a request exactly when its help type is active, its mentor is empty or an active mentor, and its trimmed title and description pass validation. The new request is pending, owned by the student, and carries the form's choices. |
| ProtectedRoute.Guard | frontend/src/components/auth/ProtectedRoute.jsx:6-30 | The guard shows a placeholder exactly while loading, and redirects to `/login` exactly when nobody is signed in. It redirects home exactly when a non-empty role list omits the user's role. Otherwise it shows the route's content: the children if given, else the outlet. |
| ProtectedRoute.GuardAgreesWithAuthorize | frontend/src/components/auth/ProtectedRoute.jsx:18-25 | For a non-empty role list, the client shows the content exactly to the callers the server's `authorize` lets through. |
| ProtectedRoute.EmptyRoleListDiffers | frontend/src/components/auth/ProtectedRoute.jsx:18 | An empty role list opens the route to every signed-in user on the client, while `authorize` with no roles refuses everyone. |
| Text.Trim | backend/src/models/mentorshipRequestModel.js:26 | `trim` yields a string with no space at either end and no longer than the input. |
| Text.TrimIsInfix | backend/src/models/mentorshipRequestModel.js:26 | `trim` removes only space characters, from the two ends. |
| Text.TrimEmptyIff | backend/src/models/mentorshipRequestModel.js:23-27 | `trim` yields the empty string exactly for all-space input. |
| Text.Split | frontend/src/pages/ProfilePage.jsx:65 | `split` on one character yields at least one part, and no part contains the separator. |
| Text.JoinSplit | frontend/src/pages/ProfilePage.jsx:47-65 | Joining the parts of a split restores the string. |
| Text.SplitJoin | frontend/src/pages/ProfilePage.jsx:47-65 | Separator-free parts survive a join followed by a split. |

## Left out

- **Outside the model**: I/O, HTTP framing and response bodies, logging, and concurrency between requests. A handler runs atomically on the stores.
- **Stand-ins**: JWT signing and verification, bcrypt and SHA-256 are abstract. Verification is the parameter `verify`, and the hashes are injective constructors.
- **Parameters**: the clock, the random token, the mail transport's outcome and the ids the database assigns are all parameters.
- **Identifiers**: an id is a string. `ObjectId.isValid` is modelled only on 24-hex-digit strings; the 12-character form is left out. Ids are compared as strings, which assumes the canonical lower-case form.
- **Dates**: a date is an integer of milliseconds, and an unparsable date is `NoTime`. `toISOString` equality is equality of the integers. On the session page, the browser's reading of an input value is the parameter `parse`.
- **Title length**: the 150-character limit counts Dafny characters, which equal UTF-16 code units only for text outside the astral planes.
- **Populate in session listing and update**: `populate` is modelled in the session create handler and the request read, update and delete handlers. In session listing and update it only changes the outcome for a caller whose own account was deleted, and `protect` already refuses such a caller.
- **Frontend populated references**: the admin editor and the mentor dashboard read a populated `mentorUser`. The model uses the stored id, so a request whose mentor was deleted, shown as `null`, is not modelled.
- RequestForm.Prefill: a populated reference whose `_id` is empty falls back to the whole object in the source; the model takes the empty id.
- UserModel.LowerChar: folds ASCII letters only. The `lowercase` setter calls JavaScript's `toLowerCase`, which folds every Unicode capital, so two addresses that differ only in a non-ASCII capital, such as `ÉL@x.com` and `él@x.com`, are one address in the source and two in the model.
- UserModel.LowerAscii: keeps the length because it folds one character at a time. JavaScript's full case mapping can lengthen a string (U+0130 becomes two code units), which the model does not reproduce.
- **Email transport**: mail sending (`backend/src/utils/email.js`) is a boolean outcome, and the contents of the mail are not part of this model.
- **`getMe`**: the handler, `backend/src/controllers/authController.js:121-145`, is a plain read and is not part of this model.
- **Unmodelled catch branches**: the 500 answers of the catch-all branches that only a database failure can reach. The `CastError` branches, which `ObjectId.isValid` already rules out, are left out too.
- **`forgotPassword` without an e-mail**: a missing `email` in the body is the empty string here.
- **Auth and user management screens**: the user-management pages, the help-type pages, the services and `AuthContext` are not part of this model.

## Findings

| source | as written | input that shows it | evidently intended | confidence | as-written member | corrected member |
|---|---|---|---|---|---|---|
| backend/src/models/mentorshipRequestModel.js:37-44 | The `status` enum omits `cancelada_mentor`, which the update handler offers to the assigned mentor (mentorshipRequestController.js:180-187) and the mentor dashboard sends. | The assigned mentor of an `aceptada_mentor` request sends `{status: "cancelada_mentor"}`. The transition check passes, the save fails validation, and the answer is 400. | The enum lists `cancelada_mentor`, so the mentor can cancel an accepted or in-progress request. | high; not executed | RequestController.WrittenEnumRefusesMentorCancel | RequestController.IntendedEnumAllowsMentorCancel |

=== FILE: admin_requests_page.dfy ===
/** The admin's request editor: the mentor and status choices it offers, the
    form it prefills from a request, and the diff it sends, which holds only
    the fields that changed. */
module AdminRequestsPage {
  import opened Http
  import opened Text
  import opened SoftDelete
  import opened UserModel
  import opened RequestModel
  import opened RequestController

  /** The status selector's values; `""` keeps the current status. */
  const StatusChoices: seq<string> := ["", "pendiente", "rechazada_admin", "en_progreso", "completada", "cancelada_admin"]

  /** The mentor selector's options besides "unassigned": the users with role
      mentor that are not deleted. */
  function MentorChoices(users: Store<User>): (ids: set<Id>)
    ensures forall id :: id in ids <==> id in users && users[id].doc.rol == Mentor && !users[id].isDeleted
  {
    set id | id in users && users[id].doc.rol == Mentor && !users[id].isDeleted
  }

  /** The editor's state: selected mentor (`""` for none), selected status and
      the notes text. */
  datatype Form = Form(selectedMentor: string, newStatus: string, internalNotes: string)

  /** `openEditModal`: the current mentor, status and notes, with `""` for a
      missing one. */
  function Prefill(r: Request): (f: Form)
    ensures f.selectedMentor == "" <==> r.mentorUser.None? || r.mentorUser == Some("")
    ensures r.mentorUser.Some? ==> f.selectedMentor == r.mentorUser.value
    ensures f.newStatus == r.status.Name()
    ensures r.internalNotes.Some? ==> f.internalNotes == r.internalNotes.value
    ensures r.internalNotes.None? ==> f.internalNotes == ""
  {
    Form(if r.mentorUser.Some? then r.mentorUser.value else "",
         r.status.Name(),
         if r.internalNotes.Some? then r.internalNotes.value else "")
  }

  /** The diff: `None` is a key not sent; the mentor entry `Some(None)` is
      `null`. */
  datatype Diff = Diff(status: Option<string>, mentorUser: Option<Option<Id>>, internalNotes: Option<string>) {
    predicate IsEmpty() {
      status.None? && mentorUser.None? && internalNotes.None?
    }
  }

  /** `handleUpdateRequest`'s diff of the form against the request. */
  function BuildDiff(r: Request, f: Form): (d: Diff)
    ensures d.status.Some? <==> f.newStatus != "" && f.newStatus != r.status.Name()
    ensures d.status.Some? ==> d.status.value == f.newStatus
    ensures d.mentorUser.Some? <==> (if f.selectedMentor == "" then None else Some(f.selectedMentor)) != r.mentorUser
    ensures d.mentorUser.Some? ==> (d.mentorUser.value.None? <==> f.selectedMentor == "")
    ensures d.mentorUser.Some? && d.mentorUser.value.Some? ==> d.mentorUser.value.value == f.selectedMentor
    ensures d.internalNotes.Some? <==> r.internalNotes != Some(f.internalNotes)
    ensures d.internalNotes.Some? ==> d.internalNotes.value == f.internalNotes
  {
    var newMentor := if f.selectedMentor == "" then None else Some(f.selectedMentor);
    Diff(if f.newStatus != "" && f.newStatus != r.status.Name() then Some(f.newStatus) else None,
         if newMentor != r.mentorUser then Some(newMentor) else None,
         if r.internalNotes != Some(f.internalNotes) then Some(f.internalNotes) else None)
  }

  /** The body the diff becomes; an empty diff sends nothing. */
  function Submit(d: Diff): (b: Option<UpdateBody>)
    ensures b.None? <==> d.IsEmpty()
    ensures b.Some? ==> && (b.value.status.Present() <==> d.status.Some?)
                        && (b.value.mentorUser.Present() <==> d.mentorUser.Some?)
                        && (b.value.internalNotes.Present() <==> d.internalNotes.Some?)
  {
    if d.IsEmpty() then None
    else Some(UpdateBody(
      if d.status.Some? then Text(d.status.value) else Absent,
      match d.mentorUser
      case None => Absent
      case Some(None) => Null
      case Some(Some(m)) => Text(m),
      if d.internalNotes.Some? then Text(d.internalNotes.value) else Absent,
      false))
  }

  /** Opening the editor and saving without touching it sends nothing,
      unless the stored notes are `null`, which the form shows as `""`. */
  lemma UntouchedFormSendsNothing(r: Request)
    requires r.internalNotes.Some?
    requires r.mentorUser.Some? ==> IsObjectId(r.mentorUser.value)
    ensures Submit(BuildDiff(r, Prefill(r))).None?
  {
  }

  /** A form whose status is one of the offered choices (or the current
      one) and whose mentor is one of the offered mentors (or none) is
      accepted by the handler, which applies exactly the diff. */
  lemma OfferedChoicesAreAccepted(requests: Store<Request>, users: Store<User>, admin: Id, id: Id, f: Form)
    requires ValidStore(Written, requests)
    requires IsObjectId(id) && id in requests && !requests[id].isDeleted
    requires !OwnerGone(users, requests[id].doc)
    requires f.newStatus in StatusChoices || f.newStatus == requests[id].doc.status.Name()
    requires f.selectedMentor == "" || (IsObjectId(f.selectedMentor) && f.selectedMentor in MentorChoices(users))
    requires Submit(BuildDiff(requests[id].doc, f)).Some?
    ensures var before := requests[id].doc;
            var r := UpdateRequest(Written, requests, users, Caller(admin, Admin), id, Submit(BuildDiff(before, f)).value);
            && r.Ok?
            && r.value[id].doc.status == (if f.newStatus == "" then before.status else ParseStatus(f.newStatus).value)
            && r.value[id].doc.mentorUser == (if f.selectedMentor == "" then None else Some(f.selectedMentor))
            && r.value[id].doc.internalNotes
               == (if before.internalNotes == Some(f.internalNotes) then before.internalNotes else Some(Trim(f.internalNotes)))
            && r.value[id].doc.title == before.title
  {
    var before := requests[id].doc;
    if f.newStatus != "" && f.newStatus != before.status.Name() {
      assert f.newStatus in StatusChoices;
      assert f.newStatus in {"pendiente", "rechazada_admin", "en_progreso", "completada", "cancelada_admin"};
    } else if f.newStatus != "" {
      assert ParseStatus(before.status.Name()) == Some(before.status);
    }
  }

  /** After a save, the same form, if its notes are already trimmed, has
      nothing left to send: the diff is idempotent. */
  lemma SavedFormHasEmptyDiff(requests: Store<Request>, users: Store<User>, admin: Id, id: Id, f: Form)
    requires ValidStore(Written, requests)
    requires IsObjectId(id) && id in requests && !requests[id].isDeleted
    requires !OwnerGone(users, requests[id].doc)
    requires f.newStatus in StatusChoices || f.newStatus == requests[id].doc.status.Name()
    requires f.selectedMentor == "" || (IsObjectId(f.selectedMentor) && f.selectedMentor in MentorChoices(users))
    requires IsTrimmed(f.internalNotes)
    requires Submit(BuildDiff(requests[id].doc, f)).Some?
    ensures var r := UpdateRequest(Written, requests, users, Caller(admin, Admin), id, Submit(BuildDiff(requests[id].doc, f)).value);
            r.Ok? && Submit(BuildDiff(r.value[id].doc, f)).None?
  {
    OfferedChoicesAreAccepted(requests, users, admin, id, f);
    TrimOfTrimmed(f.internalNotes);
    if f.newStatus != "" && f.newStatus != requests[id].doc.status.Name() {
      assert f.newStatus in {"pendiente", "rechazada_admin", "en_progreso", "completada", "cancelada_admin"};
    }
  }
}

=== FILE: auth_controller.dfy ===
/** The public authentication handlers: self-registration of students, login,
    and the password-reset token lifecycle (issue, mail, consume). The e-mail
    filter of every lookup goes through the schema's setters, so lookups
    compare normalized addresses. */
module AuthController {
  import opened Http
  import opened Text
  import opened SoftDelete
  import opened UserModel

  /** The fields `registerUser` reads from the request body. */
  datatype RegisterBody = RegisterBody(
    nombre: Field, apellido: Field, email: Field, password: Field,
    carrera: Field, cicloActual: Field)

  predicate HasRequiredRegisterFields(b: RegisterBody) {
    b.nombre.Truthy() && b.apellido.Truthy() && b.email.Truthy() && b.password.Truthy()
  }

  /** The document `User.create` builds from a complete body, after the
      schema's `trim` and `lowercase` setters. */
  function NewStudent(b: RegisterBody): (u: User)
    requires HasRequiredRegisterFields(b)
    ensures u.rol == Estudiante && !u.isVerified
    ensures u.email == NormalizeEmail(b.email.s)
    ensures u.password == Plain(b.password.s)
    ensures u.passwordResetToken.None? && u.passwordResetExpires.None?
  {
    User(Trim(b.nombre.s), Trim(b.apellido.s), NormalizeEmail(b.email.s), Plain(b.password.s),
         Estudiante, Trim(OrEmpty(b.carrera)), Trim(OrEmpty(b.cicloActual)), false, None, None)
  }

  /** `registerUser`, with `newId` the id the database assigns. A missing
      field or an address already held by an active user is a 400; a document
      that fails schema validation, or an address held by a deleted user (the
      unique index), surfaces from `User.create` as a 500. */
  function Register(users: Store<User>, b: RegisterBody, newId: Id): (r: Result<Store<User>>)
    requires newId !in users
    ensures !HasRequiredRegisterFields(b) ==> r == Err(BadRequest)
    ensures HasRequiredRegisterFields(b) ==>
              (r == Err(BadRequest) <==> ActiveWithEmail(users, NormalizeEmail(b.email.s)) != {})
    ensures r.Err? ==> r.status == BadRequest || r.status == ServerError
    ensures r.Ok? ==> HasRequiredRegisterFields(b) && !EmailTaken(users, NormalizeEmail(b.email.s))
    ensures HasRequiredRegisterFields(b) && ActiveWithEmail(users, NormalizeEmail(b.email.s)) == {} ==>
              (r.Ok? <==> ValidUser(NewStudent(b)) && !EmailTaken(users, NormalizeEmail(b.email.s)))
  {
    if !HasRequiredRegisterFields(b) then Err(BadRequest)
    else if ActiveWithEmail(users, NormalizeEmail(b.email.s)) != {} then Err(BadRequest)
    else
      CreateUser(users, NewStudent(b), newId)
  }

  /** A successful registration adds one active student, unverified, whose
      stored credential is the hash of the submitted password, whatever role
      the body asked for; no other user changes. */
  lemma RegisterAddsUnverifiedStudent(users: Store<User>, b: RegisterBody, newId: Id)
    requires newId !in users
    requires Register(users, b, newId).Ok?
    ensures var s := Register(users, b, newId).value;
            && s.Keys == users.Keys + {newId}
            && (forall id :: id in users ==> s[id] == users[id])
            && !s[newId].isDeleted
            && s[newId].doc.rol == Estudiante
            && !s[newId].doc.isVerified
            && s[newId].doc.email == NormalizeEmail(b.email.s)
            && s[newId].doc.password == Hashed(b.password.s)
  {
  }

  /** Registration keeps the unique-email invariant of the user collection. */
  lemma RegisterKeepsEmailsUnique(users: Store<User>, b: RegisterBody, newId: Id)
    requires newId !in users && EmailsUnique(users)
    ensures Register(users, b, newId).Ok? ==> EmailsUnique(Register(users, b, newId).value)
  {
    if Register(users, b, newId).Ok? {
      CreateUserKeepsEmailsUnique(users, NewStudent(b), newId);
    }
  }

  /** Under the unique index, at most one user holds a given address. */
  lemma AtMostOneWithEmail(users: Store<User>, email: string, a: Id, b: Id)
    requires EmailsUnique(users)
    requires a in ActiveWithEmail(users, email) && b in ActiveWithEmail(users, email)
    ensures a == b
  {
  }

  /** The one active user holding `email`. */
  function UserWithEmail(users: Store<User>, email: string): (id: Id)
    requires EmailsUnique(users) && ActiveWithEmail(users, email) != {}
    ensures id in users && !users[id].isDeleted && users[id].doc.email == email
  {
    var ids := ActiveWithEmail(users, email);
    assert forall a, b :: a in ids && b in ids ==> a == b by {
      forall a, b | a in ids && b in ids ensures a == b {
        AtMostOneWithEmail(users, email, a, b);
      }
    }
    var id :| id in ids;
    id
  }

  datatype LoginFailure = MissingCredentials | UnknownEmail | WrongPassword {
    function Status(): Status {
      if this == MissingCredentials then BadRequest else Unauthorized
    }
  }

  datatype LoginOutcome = LoggedIn(id: Id, rol: Role) | Refused(why: LoginFailure)

  /** `loginUser`: a token is issued for the active user holding the address
      whose stored hash accepts the password. */
  function Login(users: Store<User>, email: Field, password: Field): (r: LoginOutcome)
    requires EmailsUnique(users)
    ensures !(email.Truthy() && password.Truthy()) <==> r == Refused(MissingCredentials)
    ensures email.Truthy() && password.Truthy() ==>
              (r == Refused(UnknownEmail) <==> ActiveWithEmail(users, NormalizeEmail(email.s)) == {})
    ensures r.LoggedIn? <==>
              && email.Truthy() && password.Truthy()
              && exists id :: id in ActiveWithEmail(users, NormalizeEmail(email.s))
                              && ComparePassword(users[id].doc, password.s)
    ensures r.LoggedIn? ==> && r.id in users && !users[r.id].isDeleted
                            && users[r.id].doc.email == NormalizeEmail(email.s)
                            && r.rol == users[r.id].doc.rol
  {
    if !email.Truthy() || !password.Truthy() then Refused(MissingCredentials)
    else
      var e := NormalizeEmail(email.s);
      if ActiveWithEmail(users, e) == {} then Refused(UnknownEmail)
      else
        var id := UserWithEmail(users, e);
        assert forall other :: other in ActiveWithEmail(users, e) ==> other == id;
        if ComparePassword(users[id].doc, password.s) then LoggedIn(id, users[id].doc.rol)
        else Refused(WrongPassword)
  }

  /** A registered student can log in with the password they registered with. */
  lemma RegisteredStudentCanLogIn(users: Store<User>, b: RegisterBody, newId: Id)
    requires newId !in users && EmailsUnique(users)
    requires Register(users, b, newId).Ok?
    ensures EmailsUnique(Register(users, b, newId).value)
    ensures Login(Register(users, b, newId).value, b.email, b.password) == LoggedIn(newId, Estudiante)
  {
    RegisterKeepsEmailsUnique(users, b, newId);
    RegisterAddsUnverifiedStudent(users, b, newId);
    var s := Register(users, b, newId).value;
    var e := NormalizeEmail(b.email.s);
    assert newId in ActiveWithEmail(s, e);
    assert ComparePassword(s[newId].doc, b.password.s);
    var r := Login(s, b.email, b.password);
    assert r.LoggedIn?;
    AtMostOneWithEmail(s, e, r.id, newId);
  }

  /** A reply that commits a store state along with its HTTP status code. */
  datatype Reply = Reply(code: int, users: Store<User>)

  /** `forgotPassword` with the random token `raw`, the clock `now`, and
      whether the mail transport accepted the message. The save skips
      validation and leaves the stored hash as it is. */
  function ForgotPassword(users: Store<User>, email: string, raw: string, now: int, mailSent: bool): (r: Reply)
    requires EmailsUnique(users)
    ensures ActiveWithEmail(users, NormalizeEmail(email)) == {} ==> r == Reply(200, users)
    ensures r.code == 200 || r.code == 500
    ensures r.users.Keys == users.Keys
    ensures r.code == 500 <==> ActiveWithEmail(users, NormalizeEmail(email)) != {} && !mailSent
    ensures forall id :: id in users && r.users[id] != users[id] ==>
              && id in ActiveWithEmail(users, NormalizeEmail(email))
              && r.users[id].isDeleted == users[id].isDeleted
              && SameExceptReset(r.users[id].doc, users[id].doc)
              && (if mailSent
                  then r.users[id].doc.passwordResetToken == Some(Sha256Hex(raw))
                       && r.users[id].doc.passwordResetExpires == Some(now + ResetTokenLifetimeMs)
                  else r.users[id].doc.passwordResetToken.None?
                       && r.users[id].doc.passwordResetExpires.None?)
  {
    var e := NormalizeEmail(email);
    if ActiveWithEmail(users, e) == {} then Reply(200, users)
    else
      var id := UserWithEmail(users, e);
      var issued := CreatePasswordResetToken(users[id].doc, raw, now).user;
      if mailSent then Reply(200, users[id := users[id].(doc := issued)])
      else
        var cleared := issued.(passwordResetToken := None, passwordResetExpires := None);
        Reply(500, users[id := users[id].(doc := cleared)])
  }

  /** Ids of the users `findOne({passwordResetToken: hash(raw),
      passwordResetExpires: {$gt: now}})` can return. */
  function ResetMatches(users: Store<User>, raw: string, now: int): (ids: set<Id>)
    ensures forall id :: id in ids <==>
              && id in users && !users[id].isDeleted
              && users[id].doc.passwordResetToken == Some(Sha256Hex(raw))
              && users[id].doc.passwordResetExpires.Some?
              && users[id].doc.passwordResetExpires.value > now
  {
    Query(UserSchema, FindOne, users,
          (u: User) => u.passwordResetToken == Some(Sha256Hex(raw))
                       && u.passwordResetExpires.Some? && u.passwordResetExpires.value > now,
          Unmentioned)
  }

  /** The rest of `resetPassword` once `findOne` returned the user `id`: the
      body's password is assigned and the reset fields cleared, and the save
      validates the whole document (a missing password fails `required`, a
      short one `minlength`), which the handler reports as a 400. */
  function ApplyReset(users: Store<User>, id: Id, newPassword: Field): (r: Result<Store<User>>)
    requires id in users
    ensures r.Ok? <==> newPassword.Text? && ValidUser(users[id].doc.(password := Plain(newPassword.s)))
    ensures r.Err? ==> r.status == BadRequest
    ensures r.Ok? ==> && r.value.Keys == users.Keys
                      && r.value[id].isDeleted == users[id].isDeleted
                      && r.value[id].doc == users[id].doc.(password := Hashed(newPassword.s),
                                                           passwordResetToken := None,
                                                           passwordResetExpires := None)
                      && forall other :: other in users && other != id ==> r.value[other] == users[other]
  {
    var p: Password := if newPassword.Text? then Plain(newPassword.s) else Plain("");
    var u := users[id].doc.(password := p, passwordResetToken := None, passwordResetExpires := None);
    if !newPassword.Text? || !ValidUser(u) then Err(BadRequest)
    else Ok(users[id := users[id].(doc := u.(password := HashOnSave(u.password)))])
  }

  /** `resetPassword`. The lookup may match several users only if two tokens
      collide; the handler then takes whichever `findOne` returns, so this is a
      method choosing one. */
  method ResetPassword(users: Store<User>, raw: string, newPassword: Field, now: int)
    returns (r: Result<Store<User>>)
    ensures ResetMatches(users, raw, now) == {} ==> r == Err(BadRequest)
    ensures r.Err? ==> r.status == BadRequest
    ensures ResetMatches(users, raw, now) != {} ==>
              exists id :: id in ResetMatches(users, raw, now) && r == ApplyReset(users, id, newPassword)
    ensures forall id :: ResetMatches(users, raw, now) == {id} ==> r == ApplyReset(users, id, newPassword)
    ensures && ResetMatches(users, raw, now) != {} && newPassword.Text?
            && (forall id :: id in ResetMatches(users, raw, now) ==>
                  ValidUser(users[id].doc.(password := Plain(newPassword.s))))
            ==> r.Ok?
    ensures !(newPassword.Text? && |newPassword.s| >= 6) ==> r == Err(BadRequest)
    ensures r.Ok? ==> ResetMatches(r.value, raw, now) < ResetMatches(users, raw, now)
  {
    var ids := ResetMatches(users, raw, now);
    if ids == {} {
      return Err(BadRequest);
    }
    var id :| id in ids;
    r := ApplyReset(users, id, newPassword);
    if r.Ok? {
      assert id !in ResetMatches(r.value, raw, now);
      assert ResetMatches(r.value, raw, now) <= ids;
    }
  }

  /** A token issued and mailed at `issuedAt` opens the reset exactly while
      the clock is before `issuedAt + 600000`; a token whose mail failed never
      does. */
  lemma {:induction false} IssuedTokenLifetime(users: Store<User>, email: string, raw: string, issuedAt: int, mailSent: bool, now: int)
    requires EmailsUnique(users)
    requires ActiveWithEmail(users, NormalizeEmail(email)) != {}
    ensures var id := UserWithEmail(users, NormalizeEmail(email));
            var after := ForgotPassword(users, email, raw, issuedAt, mailSent).users;
            id in ResetMatches(after, raw, now) <==> mailSent && now < issuedAt + ResetTokenLifetimeMs
  {
    var id := UserWithEmail(users, NormalizeEmail(email));
    var after := ForgotPassword(users, email, raw, issuedAt, mailSent).users;
    var issued := CreatePasswordResetToken(users[id].doc, raw, issuedAt).user;
    if mailSent {
      assert after[id].doc == issued;
    } else {
      assert after[id].doc.passwordResetToken.None?;
    }
  }

  /** A failed mail leaves no user whose reset fields were set by this request. */
  lemma FailedMailLeavesNoToken(users: Store<User>, email: string, raw: string, now: int, later: int)
    requires EmailsUnique(users)
    requires forall id :: id in users ==> users[id].doc.passwordResetToken.None?
    ensures ResetMatches(ForgotPassword(users, email, raw, now, false).users, raw, later) == {}
  {
    var after := ForgotPassword(users, email, raw, now, false).users;
    forall id | id in after ensures after[id].doc.passwordResetToken.None? {
      if after[id] != users[id] {
      }
    }
  }

  /** Every stored user passed validation: every save but the reset-token
      saves validates, and those change only the reset fields. */
  predicate UsersValid(users: Store<User>) {
    forall id :: id in users ==> ValidUser(users[id].doc)
  }

  /** After a mailed reset request with a fresh token, the token matches
      exactly the requesting user until it expires. */
  lemma MailedTokenMatchesOnlyRequester(users: Store<User>, email: string, raw: string, issuedAt: int, now: int)
    requires EmailsUnique(users)
    requires ActiveWithEmail(users, NormalizeEmail(email)) != {}
    requires forall id :: id in users ==> users[id].doc.passwordResetToken != Some(Sha256Hex(raw))
    requires now < issuedAt + ResetTokenLifetimeMs
    ensures ResetMatches(ForgotPassword(users, email, raw, issuedAt, true).users, raw, now)
            == {UserWithEmail(users, NormalizeEmail(email))}
  {
    IssuedTokenLifetime(users, email, raw, issuedAt, true, now);
  }

  /** A reset changes no e-mail address and no deletion flag, so it keeps
      addresses unique and keeps the user's login lookup. */
  lemma ResetKeepsEmailsUnique(users: Store<User>, id: Id, newPassword: Field)
    requires id in users && EmailsUnique(users)
    requires ApplyReset(users, id, newPassword).Ok?
    ensures EmailsUnique(ApplyReset(users, id, newPassword).value)
  {
    var s := ApplyReset(users, id, newPassword).value;
    assert forall k :: k in s ==> s[k].doc.email == users[k].doc.email;
  }

  /** Login succeeds for an active user whose stored hash accepts the
      password. */
  lemma LoginOfMatchingUser(users: Store<User>, email: string, password: string, id: Id)
    requires EmailsUnique(users) && email != "" && password != ""
    requires id in ActiveWithEmail(users, NormalizeEmail(email)) && ComparePassword(users[id].doc, password)
    ensures Login(users, Text(email), Text(password)) == LoggedIn(id, users[id].doc.rol)
  {
    var r := Login(users, Text(email), Text(password));
    AtMostOneWithEmail(users, NormalizeEmail(email), r.id, id);
  }

  /** The user a mailed reset request picked keeps their address, role and
      deletion flag, and the store keeps unique, valid addresses. */
  lemma ForgotKeepsAccount(users: Store<User>, email: string, raw: string, issuedAt: int)
    requires EmailsUnique(users) && UsersValid(users)
    requires ActiveWithEmail(users, NormalizeEmail(email)) != {}
    ensures var id := UserWithEmail(users, NormalizeEmail(email));
            var after := ForgotPassword(users, email, raw, issuedAt, true).users;
            && id in after && id in ActiveWithEmail(after, NormalizeEmail(email))
            && after[id].doc.rol == users[id].doc.rol
            && EmailsUnique(after)
            && forall pw :: |pw| >= 6 ==> ValidUser(after[id].doc.(password := Plain(pw)))
  {
    var id := UserWithEmail(users, NormalizeEmail(email));
    var after := ForgotPassword(users, email, raw, issuedAt, true).users;
    assert forall k :: k in after ==> after[k].doc.email == users[k].doc.email;
    assert ValidUser(users[id].doc);
  }

  /** The whole reset flow: a user asks for a reset, the mail goes out, and
      within ten minutes the mailed token with a valid new password resets
      that user's password and only theirs, after which logging in with the
      new password succeeds. `raw` is fresh: no stored user holds its
      digest. */
  lemma {:induction false} ResetFlowLogsIn(users: Store<User>, email: string, raw: string, issuedAt: int, now: int,
                                           newPassword: string)
    requires EmailsUnique(users) && UsersValid(users)
    requires ActiveWithEmail(users, NormalizeEmail(email)) != {}
    requires forall id :: id in users ==> users[id].doc.passwordResetToken != Some(Sha256Hex(raw))
    requires |newPassword| >= 6 && now < issuedAt + ResetTokenLifetimeMs
    ensures var id := UserWithEmail(users, NormalizeEmail(email));
            var after := ForgotPassword(users, email, raw, issuedAt, true).users;
            && ResetMatches(after, raw, now) == {id}
            && ApplyReset(after, id, Text(newPassword)).Ok?
            && EmailsUnique(ApplyReset(after, id, Text(newPassword)).value)
            && Login(ApplyReset(after, id, Text(newPassword)).value, Text(email), Text(newPassword))
               == LoggedIn(id, users[id].doc.rol)
  {
    var e := NormalizeEmail(email);
    var id := UserWithEmail(users, e);
    var after := ForgotPassword(users, email, raw, issuedAt, true).users;
    MailedTokenMatchesOnlyRequester(users, email, raw, issuedAt, now);
    ForgotKeepsAccount(users, email, raw, issuedAt);
    var s := ApplyReset(after, id, Text(newPassword)).value;
    ResetKeepsEmailsUnique(after, id, Text(newPassword));
    assert email != "" by {
      assert Trim("") == "";
    }
    LoginOfMatchingUser(s, email, newPassword, id);
  }
}

=== FILE: auth_middleware.dfy ===
/** The two route guards: `protect`, which turns an `Authorization` header
    into the calling user, and `authorize`, the role allow-list. Token
    verification is a parameter: it decodes a user id, or reports a malformed
    or expired token. */
module AuthMiddleware {
  import opened Http
  import opened Text
  import opened SoftDelete
  import opened UserModel

  datatype TokenCheck = Decoded(id: Id) | Malformed | Expired

  predicate StartsWith(s: string, prefix: string) {
    |prefix| <= |s| && s[..|prefix|] == prefix
  }

  /** `header.split(' ')[1]` when the header starts with `Bearer`: the text
      between the first and the second space, if there is a first space. */
  function BearerToken(header: string): (t: Option<string>)
    ensures t.Some? ==> StartsWith(header, "Bearer") && ' ' !in t.value
    ensures t.Some? ==> |Split(header, ' ')| >= 2 && t.value == Split(header, ' ')[1]
    ensures StartsWith(header, "Bearer") && ' ' in header ==> t.Some?
  {
    if !StartsWith(header, "Bearer") then None
    else
      var parts := Split(header, ' ');
      if |parts| < 2 then
        assert ' ' !in header by {
          if ' ' in header {
            var k :| 0 <= k < |header| && header[k] == ' ';
            assert header == header[..k] + [' '] + header[k + 1..];
            SplitAtSeparator(header[..k], header[k + 1..], ' ');
          }
        }
        None
      else Some(parts[1])
  }

  /** `protect`: the caller, or 401 for a missing or non-Bearer header, an
      empty, malformed or expired token, a decoded id that is not an ObjectId,
      or a user that does not exist or is deleted. */
  function Protect(header: Option<string>, verify: string -> TokenCheck, users: Store<User>): (r: Result<Caller>)
    ensures r.Err? ==> r.status == Unauthorized
    ensures r.Ok? <==>
              && header.Some? && BearerToken(header.value).Some?
              && var t := BearerToken(header.value).value;
                 && t != "" && verify(t).Decoded? && IsObjectId(verify(t).id)
                 && verify(t).id in users && !users[verify(t).id].isDeleted
    ensures r.Ok? ==> && r.value.id in users && !users[r.value.id].isDeleted
                      && r.value.rol == users[r.value.id].doc.rol
  {
    if header.None? || header.value == "" then Err(Unauthorized)
    else
      match BearerToken(header.value)
      case None => Err(Unauthorized)
      case Some(t) =>
        if t == "" then Err(Unauthorized)
        else
          match verify(t)
          case Malformed => Err(Unauthorized)
          case Expired => Err(Unauthorized)
          case Decoded(id) =>
            if !IsObjectId(id) then Err(Unauthorized)
            else
              match FindById(UserSchema, users, id)
              case None => Err(Unauthorized)
              case Some(u) => Ok(Caller(id, u.rol))
  }

  /** `authorize(...roles)`: the request passes only with a caller whose role
      is listed; otherwise 403. */
  function Authorize(user: Option<Caller>, roles: seq<Role>): (r: Result<Caller>)
    ensures r.Ok? <==> user.Some? && user.value.rol in roles
    ensures r.Ok? ==> r.value == user.value
    ensures r.Err? ==> r.status == Forbidden
  {
    if user.None? || user.value.rol !in roles then Err(Forbidden) else Ok(user.value)
  }

  /** A route guarded by `protect` then `authorize(...roles)`. */
  function Guard(header: Option<string>, verify: string -> TokenCheck, users: Store<User>, roles: seq<Role>): Result<Caller>
  {
    var caller :- Protect(header, verify, users);
    Authorize(Some(caller), roles)
  }

  /** The well-formed header `Bearer <token>` yields the token. */
  lemma {:induction false} BearerTokenOfWellFormedHeader(t: string)
    requires ' ' !in t
    ensures BearerToken("Bearer " + t) == Some(t)
  {
    var h := "Bearer " + t;
    assert h[..6] == "Bearer";
    assert h == "Bearer" + [' '] + t;
    SplitAtSeparator("Bearer", t, ' ');
    SplitWithoutSeparator("Bearer", ' ');
    SplitWithoutSeparator(t, ' ');
  }

  /** A deleted account is locked out even with a token that still verifies. */
  lemma DeletedUserIsUnauthorized(header: Option<string>, verify: string -> TokenCheck, users: Store<User>, id: Id)
    requires header.Some? && BearerToken(header.value).Some?
    requires verify(BearerToken(header.value).value) == Decoded(id)
    requires id in users && users[id].isDeleted
    ensures Protect(header, verify, users) == Err(Unauthorized)
  {
  }

  /** Authentication is decided before the role: a bad token is a 401 whatever
      the allow-list, and a good token with an unlisted role is a 403. */
  lemma GuardOrder(header: Option<string>, verify: string -> TokenCheck, users: Store<User>, roles: seq<Role>)
    ensures Protect(header, verify, users).Err? ==> Guard(header, verify, users, roles) == Err(Unauthorized)
    ensures Protect(header, verify, users).Ok? ==>
              (Guard(header, verify, users, roles).Ok? <==> Protect(header, verify, users).value.rol in roles)
    ensures Guard(header, verify, users, roles).Err? ==>
              Guard(header, verify, users, roles).status in {Unauthorized, Forbidden}
  {
  }
}

=== FILE: create_session_page.dfy ===
/** The session-proposal page: an editable list of time slots that starts
    with one empty slot, the three list operations its buttons and inputs
    perform, and the completeness check before submitting. */
module CreateSessionPage {
  import opened Http
  import opened SessionModel
  import opened SessionController

  /** A slot as the two `datetime-local` inputs hold it; `""` is unset. */
  datatype SlotInput = SlotInput(startTime: string, endTime: string)

  datatype SlotField = StartTime | EndTime

  const EmptySlot: SlotInput := SlotInput("", "")

  const InitialSlots: seq<SlotInput> := [EmptySlot]

  /** `addDateTimeSlot`. */
  function AddSlot(slots: seq<SlotInput>): (r: seq<SlotInput>)
    ensures |r| == |slots| + 1 && r[..|slots|] == slots && r[|slots|] == EmptySlot
  {
    slots + [EmptySlot]
  }

  /** `removeDateTimeSlot(index)`: every slot but the one at `index`; an
      index past the end removes nothing. */
  function RemoveSlot(slots: seq<SlotInput>, index: nat): (r: seq<SlotInput>)
    ensures index < |slots| ==> |r| == |slots| - 1
    ensures index < |slots| ==> forall j :: 0 <= j < |r| ==> r[j] == slots[if j < index then j else j + 1]
    ensures index >= |slots| ==> r == slots
  {
    if index < |slots| then slots[..index] + slots[index + 1..] else slots
  }

  /** `handleDateTimeChange(index, field, value)`: the input at `index`
      exists, since the page renders one per slot. */
  function ChangeSlot(slots: seq<SlotInput>, index: nat, field: SlotField, value: string): (r: seq<SlotInput>)
    requires index < |slots|
    ensures |r| == |slots|
    ensures forall j :: 0 <= j < |r| && j != index ==> r[j] == slots[j]
    ensures field == StartTime ==> r[index] == slots[index].(startTime := value)
    ensures field == EndTime ==> r[index] == slots[index].(endTime := value)
  {
    slots[index := match field
      case StartTime => slots[index].(startTime := value)
      case EndTime => slots[index].(endTime := value)]
  }

  /** What the user can do: the remove button of slot `i` is rendered only
      while there is more than one slot. */
  datatype UiAction = Add | Remove(index: nat) | Change(index: nat, field: SlotField, value: string)

  predicate Enabled(slots: seq<SlotInput>, a: UiAction) {
    match a
    case Add => true
    case Remove(i) => |slots| > 1 && i < |slots|
    case Change(i, _, _) => i < |slots|
  }

  function Step(slots: seq<SlotInput>, a: UiAction): seq<SlotInput>
    requires Enabled(slots, a)
  {
    match a
    case Add => AddSlot(slots)
    case Remove(i) => RemoveSlot(slots, i)
    case Change(i, f, v) => ChangeSlot(slots, i, f, v)
  }

  /** Runs the enabled actions of a sequence of clicks and edits; a click on
      a button that is not rendered does nothing. */
  function Run(slots: seq<SlotInput>, actions: seq<UiAction>): seq<SlotInput>
    decreases |actions|
  {
    if |actions| == 0 then slots
    else Run(if Enabled(slots, actions[0]) then Step(slots, actions[0]) else slots, actions[1..])
  }

  /** The list never becomes empty, whatever the user does. */
  lemma {:induction false} RunKeepsSlots(slots: seq<SlotInput>, actions: seq<UiAction>)
    requires |slots| > 0
    ensures |Run(slots, actions)| > 0
    decreases |actions|
  {
    if |actions| > 0 {
      var next := if Enabled(slots, actions[0]) then Step(slots, actions[0]) else slots;
      assert |next| > 0;
      RunKeepsSlots(next, actions[1..]);
    }
  }

  /** Submitting is refused locally while any slot lacks a start or an end. */
  predicate Complete(slots: seq<SlotInput>) {
    forall i :: 0 <= i < |slots| ==> slots[i].startTime != "" && slots[i].endTime != ""
  }

  /** Every input value reads as a valid date; `new Date(x).toISOString()`
      throws a RangeError on one that does not. */
  predicate AllParse(slots: seq<SlotInput>, parse: string -> TimeArg) {
    forall i :: 0 <= i < |slots| ==> parse(slots[i].startTime).At? && parse(slots[i].endTime).At?
  }

  /** The body the page posts once the check passes; `parse` stands for the
      browser's reading of an input value as a date. Building the body turns
      each value into an ISO string, and an invalid date throws inside the
      `try`: the page shows the error and posts nothing. */
  function Submit(slots: seq<SlotInput>, requestId: string, location: string, parse: string -> TimeArg): (r: Option<CreateBody>)
    ensures r.Some? <==> Complete(slots) && AllParse(slots, parse)
    ensures r.Some? ==> && r.value.mentorshipRequestId == Text(requestId)
                        && r.value.locationOrLink == Text(location)
                        && r.value.proposedDateTimes.SlotList?
                        && |r.value.proposedDateTimes.args| == |slots|
                        && forall i :: 0 <= i < |slots| ==>
                             r.value.proposedDateTimes.args[i] == SlotArg(parse(slots[i].startTime), parse(slots[i].endTime))
  {
    if !Complete(slots) || !AllParse(slots, parse) then None
    else Some(CreateBody(Text(requestId),
                         SlotList(seq(|slots|, i requires 0 <= i < |slots| => SlotArg(parse(slots[i].startTime), parse(slots[i].endTime)))),
                         Text(location)))
  }

  /** Whatever the user did, a posted body carries at least one slot, so the
      handler's "at least one proposal" check never fires for it. It passes
      the handler's input checks exactly when the request id is non-empty
      and every slot starts before it ends: the page already guarantees two
      valid dates per slot, and leaves the order to the server. */
  lemma SubmittedBodyPassesInputChecks(actions: seq<UiAction>, requestId: string, location: string,
                                       parse: string -> TimeArg)
    requires Submit(Run(InitialSlots, actions), requestId, location, parse).Some?
    ensures Submit(Run(InitialSlots, actions), requestId, location, parse).value.proposedDateTimes.NonEmpty()
    ensures var slots := Run(InitialSlots, actions);
            ProposalBodyOk(Submit(slots, requestId, location, parse).value)
            <==> requestId != "" && forall i :: 0 <= i < |slots| ==>
                   parse(slots[i].startTime).ms < parse(slots[i].endTime).ms
  {
    RunKeepsSlots(InitialSlots, actions);
  }
}

=== FILE: help_type_controller.dfy ===
/** The admin-only help-type handlers. Names are unique among active help
    types by an explicit lookup, and among all stored help types by the
    schema's unique index; a clash the lookup misses (with a deleted help
    type) surfaces as a 500 from the save. */
module HelpTypeController {
  import opened Http
  import opened Text
  import opened SoftDelete
  import opened HelpTypeModel

  /** Saving `h` under `id`: validation failure is a 400, a name already held
      by another stored help type (deleted or not) is a 500. */
  function SaveHelpType(s: Store<HelpType>, id: Id, h: HelpType, isDeleted: bool): (r: Result<Store<HelpType>>)
    ensures r.Ok? <==> ValidHelpType(h) && forall other :: other in s && other != id ==> s[other].doc.name != h.name
    ensures r.Err? ==> r.status == (if ValidHelpType(h) then ServerError else BadRequest)
    ensures r.Ok? ==> r.value == s[id := Entry(h, isDeleted, if id in s then s[id].deletedAt else None)]
  {
    if !ValidHelpType(h) then Err(BadRequest)
    else if exists other :: other in s && other != id && s[other].doc.name == h.name then Err(ServerError)
    else Ok(s[id := Entry(h, isDeleted, if id in s then s[id].deletedAt else None)])
  }

  /** Saving keeps the unique-name invariant. */
  lemma SaveKeepsNamesUnique(s: Store<HelpType>, id: Id, h: HelpType, isDeleted: bool)
    requires NamesUnique(s)
    ensures SaveHelpType(s, id, h, isDeleted).Ok? ==> NamesUnique(SaveHelpType(s, id, h, isDeleted).value)
  {
  }

  /** `createHelpType`, with `newId` the id the database assigns. */
  function CreateHelpType(s: Store<HelpType>, name: Field, description: Field, newId: Id): (r: Result<Store<HelpType>>)
    requires newId !in s
    ensures !name.Truthy() ==> r == Err(BadRequest)
    ensures name.Truthy() && ActiveWithName(s, name.s) != {} ==> r == Err(BadRequest)
    ensures r.Ok? ==> && name.Truthy()
                      && r.value.Keys == s.Keys + {newId}
                      && (forall id :: id in s ==> r.value[id] == s[id])
                      && !r.value[newId].isDeleted
                      && r.value[newId].doc.name == Trim(name.s)
                      && r.value[newId].doc.name != ""
                      && r.value[newId].doc.description == Some(Trim(OrEmpty(description)))
    ensures r.Err? ==> r.status == BadRequest || r.status == ServerError
    ensures name.Truthy() && ActiveWithName(s, name.s) == {} ==>
              && (r.Ok? <==> !AllSpace(name.s) && !NameTaken(s, Trim(name.s)))
              && (r == Err(BadRequest) <==> AllSpace(name.s))
              && (r == Err(ServerError) <==> !AllSpace(name.s) && NameTaken(s, Trim(name.s)))
  {
    if !name.Truthy() then Err(BadRequest)
    else if ActiveWithName(s, name.s) != {} then Err(BadRequest)
    else SaveHelpType(s, newId, NewHelpType(name.s, OrEmpty(description)), false)
  }

  /** `getAllHelpTypes`. */
  function ListHelpTypes(s: Store<HelpType>): (ids: set<Id>)
    ensures ids <= s.Keys
    ensures forall id :: id in s ==> (id in ids <==> !s[id].isDeleted)
  {
    ActiveHelpTypes(s)
  }

  /** `getHelpTypeById`. */
  function GetHelpType(s: Store<HelpType>, id: Id): (r: Result<HelpType>)
    ensures !IsObjectId(id) ==> r == Err(BadRequest)
    ensures IsObjectId(id) ==> (r.Ok? <==> id in s && !s[id].isDeleted)
    ensures r.Ok? ==> r.value == s[id].doc
    ensures r.Err? ==> r.status == BadRequest || r.status == NotFound
  {
    if !IsObjectId(id) then Err(BadRequest)
    else match FindById(HelpTypeSchema, s, id)
      case None => Err(NotFound)
      case Some(h) => Ok(h)
  }

  /** The document after the update's assignments, before the save. */
  function UpdatedHelpType(h: HelpType, name: Field, description: Field): HelpType
  {
    var renamed := if name.Truthy() && name.s != h.name then Trim(name.s) else h.name;
    var described := match description
      case Absent => h.description
      case Null => None
      case Text(d) => Some(Trim(d));
    HelpType(renamed, described)
  }

  /** `updateHelpType`. A rename to a name held by another active help type
      is a 400; keeping the name (or sending none) never clashes. */
  function UpdateHelpType(s: Store<HelpType>, id: Id, name: Field, description: Field): (r: Result<Store<HelpType>>)
    ensures !IsObjectId(id) ==> r == Err(BadRequest)
    ensures IsObjectId(id) && !(id in s && !s[id].isDeleted) ==> r == Err(NotFound)
    ensures r.Ok? ==> && id in s && !s[id].isDeleted
                      && r.value.Keys == s.Keys
                      && (forall other :: other in s && other != id ==> r.value[other] == s[other])
                      && !r.value[id].isDeleted
    ensures r.Ok? && !description.Present() ==> r.value[id].doc.description == s[id].doc.description
    ensures r.Ok? && description.Null? ==> r.value[id].doc.description.None?
    ensures r.Ok? && description.Text? ==> r.value[id].doc.description == Some(Trim(description.s))
    ensures r.Ok? && !name.Truthy() ==> r.value[id].doc.name == s[id].doc.name
    ensures r.Ok? && name.Truthy() ==> r.value[id].doc.name == Trim(name.s) || name.s == s[id].doc.name
    ensures id in s && !s[id].isDeleted && name.Truthy() && name.s != s[id].doc.name
            && (exists other :: other in ActiveWithName(s, name.s) && other != id)
            ==> r == Err(BadRequest)
    ensures IsObjectId(id) && id in s && !s[id].isDeleted && name.Truthy() && name.s != s[id].doc.name
            && ActiveWithName(s, name.s) <= {id}
            ==> && (r.Ok? <==> !AllSpace(name.s) && forall other :: other in s && other != id ==> s[other].doc.name != Trim(name.s))
                && (r == Err(BadRequest) <==> AllSpace(name.s))
    ensures IsObjectId(id) && id in s && !s[id].isDeleted && !(name.Truthy() && name.s != s[id].doc.name)
            ==> (r.Ok? <==> ValidHelpType(s[id].doc) && forall other :: other in s && other != id ==> s[other].doc.name != s[id].doc.name)
  {
    if !IsObjectId(id) then Err(BadRequest)
    else match FindById(HelpTypeSchema, s, id)
      case None => Err(NotFound)
      case Some(h) =>
        if name.Truthy() && name.s != h.name
           && exists other :: other in ActiveWithName(s, name.s) && other != id
        then Err(BadRequest)
        else
          TrimEmptyIff(if name.Truthy() then name.s else "");
          SaveHelpType(s, id, UpdatedHelpType(h, name, description), false)
  }

  /** `deleteHelpType` at time `now`. */
  function DeleteHelpType(s: Store<HelpType>, id: Id, now: int): (r: Result<Store<HelpType>>)
    ensures !IsObjectId(id) ==> r == Err(BadRequest)
    ensures IsObjectId(id) ==> (r.Ok? <==> id in s && !s[id].isDeleted)
    ensures r.Err? ==> r.status == BadRequest || r.status == NotFound
    ensures r.Ok? ==> && r.value.Keys == s.Keys
                      && r.value[id] == Entry(s[id].doc, true, Some(now))
                      && forall other :: other in s && other != id ==> r.value[other] == s[other]
  {
    if !IsObjectId(id) then Err(BadRequest)
    else match FindById(HelpTypeSchema, s, id)
      case None => Err(NotFound)
      case Some(_) => Ok(MarkDeleted(s, id, now))
  }

  /** Every handler keeps the unique-name invariant. */
  lemma HandlersKeepNamesUnique(s: Store<HelpType>, id: Id, newId: Id, name: Field, description: Field, now: int)
    requires NamesUnique(s) && newId !in s
    ensures CreateHelpType(s, name, description, newId).Ok? ==> NamesUnique(CreateHelpType(s, name, description, newId).value)
    ensures UpdateHelpType(s, id, name, description).Ok? ==> NamesUnique(UpdateHelpType(s, id, name, description).value)
    ensures DeleteHelpType(s, id, now).Ok? ==> NamesUnique(DeleteHelpType(s, id, now).value)
  {
    if name.Truthy() {
      SaveKeepsNamesUnique(s, newId, NewHelpType(name.s, OrEmpty(description)), false);
    }
    if IsObjectId(id) && id in s && !s[id].isDeleted {
      SaveKeepsNamesUnique(s, id, UpdatedHelpType(s[id].doc, name, description), false);
    }
  }

  /** A second delete finds nothing: deletion is idempotent in effect. */
  lemma DeleteTwiceIsNotFound(s: Store<HelpType>, id: Id, now: int, later: int)
    requires DeleteHelpType(s, id, now).Ok?
    ensures DeleteHelpType(DeleteHelpType(s, id, now).value, id, later) == Err(NotFound)
  {
  }

  /** A deleted help type's name cannot be reused: the explicit lookup lets the
      request through, and the unique index refuses the save. */
  lemma DeletedNameBlocksCreate(s: Store<HelpType>, name: Field, description: Field, newId: Id, deleted: Id)
    requires newId !in s && name.Truthy() && Trim(name.s) != ""
    requires ActiveWithName(s, name.s) == {}
    requires deleted in s && s[deleted].doc.name == Trim(name.s)
    ensures CreateHelpType(s, name, description, newId) == Err(ServerError)
  {
    assert deleted != newId;
  }

  /** Sending back the current name is never a clash. */
  lemma KeepingTheNameNeverClashes(s: Store<HelpType>, id: Id, description: Field)
    requires IsObjectId(id) && id in s && !s[id].isDeleted && NamesUnique(s)
    requires ValidHelpType(s[id].doc)
    ensures UpdateHelpType(s, id, Text(s[id].doc.name), description).Ok?
  {
  }
}

=== FILE: help_type_model.dfy ===
/** The help-type schema: a required, trimmed, unique name and a trimmed
    description that defaults to the empty string. */
module HelpTypeModel {
  import opened Http
  import opened Text
  import opened SoftDelete

  /** `description` is `None` when it was explicitly set to `null`. */
  datatype HelpType = HelpType(name: string, description: Option<string>)

  /** A new document, after the schema's `trim` setters and defaults. */
  function NewHelpType(name: string, description: string): (h: HelpType)
    ensures IsTrimmed(h.name)
    ensures h.name == [] <==> AllSpace(name)
    ensures h.description.Some? && IsTrimmed(h.description.value)
  {
    TrimEmptyIff(name);
    HelpType(Trim(name), Some(Trim(description)))
  }

  /** Schema validation: the name is required. */
  predicate ValidHelpType(h: HelpType) {
    h.name != ""
  }

  /** Some help type, deleted or not, holds this name (the unique index). */
  predicate NameTaken(s: Store<HelpType>, name: string) {
    exists id :: id in s && s[id].doc.name == name
  }

  /** The unique index on `name` spans every stored help type. */
  predicate NamesUnique(s: Store<HelpType>) {
    forall a, b :: a in s && b in s && s[a].doc.name == s[b].doc.name ==> a == b
  }

  /** Ids of the help types `findOne({name})` can return: the filter value goes
      through the `trim` setter and the soft-delete hook. */
  function ActiveWithName(s: Store<HelpType>, name: string): (ids: set<Id>)
    ensures forall id :: id in ids <==> id in s && !s[id].isDeleted && s[id].doc.name == Trim(name)
  {
    Query(HelpTypeSchema, FindOne, s, (h: HelpType) => h.name == Trim(name), Unmentioned)
  }

  /** `HelpType.find({})`: the active help types. */
  function ActiveHelpTypes(s: Store<HelpType>): (ids: set<Id>)
    ensures forall id :: id in ids <==> id in s && !s[id].isDeleted
  {
    Query(HelpTypeSchema, Find, s, (h: HelpType) => true, Unmentioned)
  }
}

=== FILE: http.dfy ===
/** Shared vocabulary of the backend handlers: optional values, HTTP error
    statuses, handler results, and the shape of one field of a JSON body. */
module Http {

  datatype Option<+T> = None | Some(value: T)

  /** The error statuses the handlers answer with. */
  datatype Status = BadRequest | Unauthorized | Forbidden | NotFound | ServerError {
    function Code(): int {
      match this
      case BadRequest => 400
      case Unauthorized => 401
      case Forbidden => 403
      case NotFound => 404
      case ServerError => 500
    }
  }

  /** Either the new state a handler commits, or the error status it answers with. */
  datatype Result<+T> = Ok(value: T) | Err(status: Status) {
    predicate IsFailure() {
      Err?
    }

    function PropagateFailure<U>(): Result<U>
      requires Err?
    {
      Err(status)
    }

    function Extract(): T
      requires Ok?
    {
      value
    }
  }

  /** One string-valued field of a parsed JSON request body: missing from the
      body, explicitly `null`, or a string. */
  datatype Field = Absent | Null | Text(s: string) {
    /** JavaScript truthiness: only a non-empty string is truthy. */
    predicate Truthy() {
      Text? && s != ""
    }

    /** `field !== undefined`, equivalently `body.hasOwnProperty(name)`. */
    predicate Present() {
      !Absent?
    }
  }

  /** `x || ''` for a string field. */
  function OrEmpty(f: Field): string {
    if f.Truthy() then f.s else ""
  }
}

=== FILE: mentor_dashboard.dfy ===
/** The mentor's dashboard: which action buttons a request row shows, what
    clicking one sends, and how those requests fare against the request
    handler. The buttons are a superset of what the handler accepts: Complete
    is also offered on an accepted request, and Cancel names a status the
    request schema refuses. */
module MentorDashboard {
  import opened Http
  import opened SoftDelete
  import opened UserModel
  import opened RequestModel
  import opened RequestController

  datatype MentorAction = Accept | Reject | StartProgress | Complete | Cancel | Take {
    /** The status the button asks for. */
    function Target(): RequestStatus {
      match this
      case Accept => AceptadaMentor
      case Reject => RechazadaMentor
      case StartProgress => EnProgreso
      case Complete => Completada
      case Cancel => CanceladaMentor
      case Take => AceptadaMentor
    }
  }

  predicate CanAcceptOrReject(st: RequestStatus) {
    st == Pendiente
  }

  predicate CanStartProgress(st: RequestStatus) {
    st == AceptadaMentor
  }

  predicate CanCompleteOrCancel(st: RequestStatus) {
    st == EnProgreso || st == AceptadaMentor
  }

  /** The buttons of a row for the mentor `me`: the first three groups need
      the request to be assigned to `me`, Take needs it unassigned. */
  function Buttons(r: Request, me: Id): (bs: set<MentorAction>)
  {
    var mine := r.mentorUser == Some(me);
    (if mine && CanAcceptOrReject(r.status) then {Accept, Reject} else {})
    + (if mine && CanStartProgress(r.status) then {StartProgress} else {})
    + (if mine && CanCompleteOrCancel(r.status) then {Complete, Cancel} else {})
    + (if r.status == Pendiente && r.mentorUser.None? then {Take} else {})
  }

  /** A request row shows a button exactly when the request's status is one
      the button's group lists, and it is the mentor's own request (or, for
      Take, nobody's). */
  lemma ButtonsByStatus(r: Request, me: Id, a: MentorAction)
    ensures a in Buttons(r, me) <==>
              if a == Take then r.status == Pendiente && r.mentorUser.None?
              else && r.mentorUser == Some(me)
                   && r.status in (match a
                                   case Accept => {Pendiente}
                                   case Reject => {Pendiente}
                                   case StartProgress => {AceptadaMentor}
                                   case _ => {AceptadaMentor, EnProgreso})
  {
  }

  /** A click: accepting and rejecting (and Take, which also accepts) ask
      for confirmation first; the body sent is only the status. */
  function Click(a: MentorAction, confirmed: bool): (r: Option<UpdateBody>)
    ensures r.None? <==> !confirmed && a in {Accept, Reject, Take}
    ensures r.Some? ==> r.value.status == Text(a.Target().Name())
                        && !r.value.mentorUser.Present() && !r.value.internalNotes.Present()
                        && !r.value.hasMentorUserIdKey
  {
    if (a.Target() == AceptadaMentor || a.Target() == RechazadaMentor) && !confirmed then None
    else Some(UpdateBody(Text(a.Target().Name()), Absent, Absent, false))
  }

  /** Every button but the two mismatches is accepted by the handler and
      moves the request to the button's status. */
  lemma ShownButtonIsAccepted(schema: Schema, requests: Store<Request>, users: Store<User>, me: Id, id: Id, a: MentorAction)
    requires ValidStore(schema, requests)
    requires IsObjectId(id) && id in requests && !requests[id].isDeleted
    requires a in Buttons(requests[id].doc, me)
    requires IsActiveUser(users, me) && !OwnerGone(users, requests[id].doc)
    requires !(a == Complete && requests[id].doc.status == AceptadaMentor)
    requires !(a == Cancel && schema == Written)
    ensures var r := UpdateRequest(schema, requests, users, Caller(me, Mentor), id, Click(a, true).value);
            r.Ok? && r.value[id].doc.status == a.Target()
  {
    var req := requests[id].doc;
    var b := Click(a, true).value;
    if a == Take {
      MentorClaim(schema, requests, users, Caller(me, Mentor), id, Absent, false);
    } else {
      assert ParseStatus(a.Target().Name()) == Some(a.Target());
      MentorStepMatchesTransitions(req.status, a.Target().Name());
      assert (req.status, a.Target()) in MentorTransitions;
    }
  }

  /** Complete on an accepted request is offered but refused with a 400:
      the handler only completes a request in progress. */
  lemma CompleteOnAcceptedIsRefused(schema: Schema, requests: Store<Request>, users: Store<User>, me: Id, id: Id)
    requires IsObjectId(id) && id in requests && !requests[id].isDeleted
    requires Complete in Buttons(requests[id].doc, me) && requests[id].doc.status == AceptadaMentor
    requires IsActiveUser(users, me) && !OwnerGone(users, requests[id].doc)
    ensures UpdateRequest(schema, requests, users, Caller(me, Mentor), id, Click(Complete, true).value) == Err(BadRequest)
  {
    AssignedMentorFollowsTransitions(schema, requests, users, Caller(me, Mentor), id, Click(Complete, true).value);
  }

  /** Cancel is offered but, with the schema as written, always refused. */
  lemma CancelIsRefusedAsWritten(requests: Store<Request>, users: Store<User>, me: Id, id: Id)
    requires IsObjectId(id) && id in requests && !requests[id].isDeleted
    requires Cancel in Buttons(requests[id].doc, me)
    requires IsActiveUser(users, me) && !OwnerGone(users, requests[id].doc)
    ensures UpdateRequest(Written, requests, users, Caller(me, Mentor), id, Click(Cancel, true).value) == Err(BadRequest)
  {
    WrittenEnumRefusesMentorCancel(requests, users, Caller(me, Mentor), id, Absent, false);
  }
}

=== FILE: profile_page.dfy ===
/** The profile form's list fields (`especialidades`, `intereses`): a list is
    shown as its items joined with `", "`, and the text is read back by
    splitting on `,`, trimming each part and dropping the empty ones. */
module ProfilePage {
  import opened Http
  import opened Text

  const Comma: char := ','

  /** An item the text form can carry: non-empty, trimmed, comma-free. */
  predicate IsItem(x: string) {
    x != "" && IsTrimmed(x) && Comma !in x
  }

  /** Trims every part and keeps the non-empty ones, in order. */
  function Clean(parts: seq<string>): (r: seq<string>)
    ensures |r| <= |parts|
    ensures forall i :: 0 <= i < |r| ==> r[i] != "" && IsTrimmed(r[i])
  {
    if |parts| == 0 then []
    else
      var t := Trim(parts[0]);
      (if t == "" then [] else [t]) + Clean(parts[1..])
  }

  lemma {:induction false} CleanAppend(a: seq<string>, b: seq<string>)
    ensures Clean(a + b) == Clean(a) + Clean(b)
  {
    if |a| > 0 {
      assert (a + b)[0] == a[0];
      assert (a + b)[1..] == a[1..] + b;
      CleanAppend(a[1..], b);
      var first := if Trim(a[0]) == "" then [] else [Trim(a[0])];
      assert Clean(a + b) == first + Clean(a[1..] + b);
      assert Clean(a) == first + Clean(a[1..]);
      assert first + (Clean(a[1..]) + Clean(b)) == (first + Clean(a[1..])) + Clean(b);
    } else {
      assert a + b == b;
    }
  }

  /** Trimming never introduces a character. */
  lemma TrimKeepsCommaOut(s: string)
    requires Comma !in s
    ensures Comma !in Trim(s)
  {
    var i := TrimIsInfix(s);
    forall k | 0 <= k < |Trim(s)| ensures Trim(s)[k] != Comma {
      assert Trim(s)[k] == s[i + k];
    }
  }

  /** Parsing the text of a list field. */
  function ParseList(s: string): (r: seq<string>)
    ensures forall i :: 0 <= i < |r| ==> IsItem(r[i])
  {
    var parts := Split(s, Comma);
    forall i | 0 <= i < |parts| ensures Comma !in Trim(parts[i]) {
      TrimKeepsCommaOut(parts[i]);
    }
    CleanKeepsCommaOut(parts);
    if s == "" then [] else Clean(parts)
  }

  lemma {:induction false} CleanKeepsCommaOut(parts: seq<string>)
    requires forall i :: 0 <= i < |parts| ==> Comma !in Trim(parts[i])
    ensures forall i :: 0 <= i < |Clean(parts)| ==> Comma !in Clean(parts)[i]
  {
    if |parts| > 0 {
      CleanKeepsCommaOut(parts[1..]);
      var t := Trim(parts[0]);
      assert Clean(parts) == (if t == "" then [] else [t]) + Clean(parts[1..]);
    }
  }

  /** Showing a list field: `join(', ')`, and `''` for a missing list. */
  function FormatList(xs: Option<seq<string>>): string
  {
    if xs.None? then "" else Join(xs.value, ", ")
  }

  /** A part that starts with the space after a comma cleans like the part
      without it. */
  lemma CleanAfterSpace(t: string)
    ensures Clean(Split([' '] + t, Comma)) == Clean(Split(t, Comma))
  {
    var rest := Split(t, Comma);
    assert ([' '] + t)[1..] == t;
    assert Split([' '] + t, Comma) == [[' '] + rest[0]] + rest[1..];
    TrimSkipsLeadingSpace(' ', rest[0]);
    assert rest == [rest[0]] + rest[1..];
  }

  /** The core of the round trip, on the split text. */
  lemma {:induction false} CleanSplitJoin(xs: seq<string>)
    requires forall i :: 0 <= i < |xs| ==> IsItem(xs[i])
    ensures Clean(Split(Join(xs, ", "), Comma)) == xs
  {
    if |xs| == 0 {
    } else {
      var x := xs[0];
      SplitWithoutSeparator(x, Comma);
      TrimOfTrimmed(x);
      if |xs| == 1 {
        assert Join(xs, ", ") == x;
      } else {
        var j := Join(xs[1..], ", ");
        assert Join(xs, ", ") == x + [Comma] + ([' '] + j);
        SplitAtSeparator(x, [' '] + j, Comma);
        CleanAppend([x], Split([' '] + j, Comma));
        CleanAfterSpace(j);
        CleanSplitJoin(xs[1..]);
        assert xs == [x] + xs[1..];
      }
    }
  }

  /** Round trip: reading back the shown text of a list of items gives the
      list. */
  lemma FormatThenParse(xs: seq<string>)
    requires forall i :: 0 <= i < |xs| ==> IsItem(xs[i])
    ensures ParseList(FormatList(Some(xs))) == xs
  {
    CleanSplitJoin(xs);
  }

  /** Parsing normalises: what it yields shows and parses back to itself. */
  lemma ParseIsIdempotent(s: string)
    ensures ParseList(FormatList(Some(ParseList(s)))) == ParseList(s)
  {
    FormatThenParse(ParseList(s));
  }

  /** Text without commas parses to its trimmed self, or to nothing when it
      is blank. */
  lemma ParseSingle(s: string)
    requires Comma !in s
    ensures ParseList(s) == if Trim(s) == "" then [] else [Trim(s)]
  {
    SplitWithoutSeparator(s, Comma);
    assert Clean([s]) == (if Trim(s) == "" then [] else [Trim(s)]) + Clean([]);
  }
}

=== FILE: protected_route.dfy ===
/** The client-side route guard: a placeholder while the session loads, a
    redirect to the login page without a user, a redirect home for a role
    the route does not list, and otherwise the route's content. */
module ProtectedRoute {
  import opened Http
  import opened UserModel
  import opened AuthMiddleware

  datatype Render = LoadingPlaceholder | RedirectTo(path: string) | ShowChildren | ShowOutlet

  /** `rolesPermitidos`: absent, or a list of roles. */
  datatype Roles = AnyRole | Only(roles: seq<Role>)

  /** The role list restricts the route only when it is present and
      non-empty. */
  predicate Restricts(r: Roles) {
    r.Only? && |r.roles| > 0
  }

  function Guard(loading: bool, currentUser: Option<Role>, allowed: Roles, hasChildren: bool): (r: Render)
    ensures loading <==> r == LoadingPlaceholder
    ensures !loading && currentUser.None? <==> r == RedirectTo("/login")
    ensures r == RedirectTo("/") <==>
              !loading && currentUser.Some? && Restricts(allowed) && currentUser.value !in allowed.roles
    ensures r == ShowChildren || r == ShowOutlet <==>
              !loading && currentUser.Some? && (!Restricts(allowed) || currentUser.value in allowed.roles)
    ensures r == ShowChildren ==> hasChildren
    ensures r == ShowOutlet ==> !hasChildren
  {
    if loading then LoadingPlaceholder
    else if currentUser.None? then RedirectTo("/login")
    else if Restricts(allowed) && currentUser.value !in allowed.roles then RedirectTo("/")
    else if hasChildren then ShowChildren
    else ShowOutlet
  }

  /** For a route restricted to a non-empty role list, the client shows the
      content exactly to the callers the server's `authorize` with the same
      list lets through. */
  lemma GuardAgreesWithAuthorize(caller: Caller, roles: seq<Role>, hasChildren: bool)
    requires |roles| > 0
    ensures (Guard(false, Some(caller.rol), Only(roles), hasChildren) in {ShowChildren, ShowOutlet})
            <==> Authorize(Some(caller), roles).Ok?
  {
  }

  /** An empty role list opens the route to every signed-in user on the
      client, while the server's `authorize` with no roles refuses everyone. */
  lemma EmptyRoleListDiffers(caller: Caller, hasChildren: bool)
    ensures Guard(false, Some(caller.rol), Only([]), hasChildren) in {ShowChildren, ShowOutlet}
    ensures Authorize(Some(caller), []) == Err(Forbidden)
  {
  }
}

=== FILE: request_controller.dfy ===
/** The mentorship-request handlers: create, list, read, update and soft
    delete, each a role-gated decision table over the request store. */
module RequestController {
  import opened Http
  import opened Text
  import opened SoftDelete
  import opened UserModel
  import opened HelpTypeModel
  import opened RequestModel

  /** An active user with role `mentor`: what `User.findOne({_id, rol:
      'mentor', isDeleted: false})` finds. */
  predicate ActiveMentor(users: Store<User>, id: Id) {
    id in users && !users[id].isDeleted && users[id].doc.rol == Mentor
  }

  // ---------------------------------------------------------------- create

  datatype CreateBody = CreateBody(
    helpTypeId: Field, title: Field, description: Field,
    studentAvailability: Field, mentorUserId: Field)

  predicate HasRequiredCreateFields(b: CreateBody) {
    b.helpTypeId.Truthy() && b.title.Truthy() && b.description.Truthy()
  }

  /** The help type named by the body is a well-formed id of an active help
      type. */
  predicate HelpTypeUsable(helpTypes: Store<HelpType>, b: CreateBody)
    requires b.helpTypeId.Text?
  {
    IsObjectId(b.helpTypeId.s) && b.helpTypeId.s in helpTypes && !helpTypes[b.helpTypeId.s].isDeleted
  }

  /** No mentor is named, or the named one is a well-formed id of an active
      mentor. */
  predicate MentorUsable(users: Store<User>, b: CreateBody) {
    b.mentorUserId.Truthy() ==> IsObjectId(b.mentorUserId.s) && ActiveMentor(users, b.mentorUserId.s)
  }

  /** The trimmed title and description pass the schema's `required` and
      `maxlength` validators. */
  predicate TextFieldsValid(b: CreateBody)
    requires b.title.Text? && b.description.Text?
  {
    !AllSpace(b.title.s) && |Trim(b.title.s)| <= TitleMaxLength && !AllSpace(b.description.s)
  }

  /** `createMentorshipRequest`, with `newId` the id the database assigns.
      The checks come in the handler's order: required fields (400), role
      (403), help-type id (400), help type (404), mentor id (400), mentor
      (404), and schema validation (400). */
  function CreateRequest(schema: Schema, requests: Store<Request>, users: Store<User>, helpTypes: Store<HelpType>,
                         caller: Caller, b: CreateBody, newId: Id): (r: Result<Store<Request>>)
    requires newId !in requests
    ensures !HasRequiredCreateFields(b) ==> r == Err(BadRequest)
    ensures HasRequiredCreateFields(b) && caller.rol != Estudiante ==> r == Err(Forbidden)
    ensures HasRequiredCreateFields(b) && caller.rol == Estudiante ==>
              && (!IsObjectId(b.helpTypeId.s) ==> r == Err(BadRequest))
              && (IsObjectId(b.helpTypeId.s) && !HelpTypeUsable(helpTypes, b) ==> r == Err(NotFound))
              && (HelpTypeUsable(helpTypes, b) && b.mentorUserId.Truthy() && !IsObjectId(b.mentorUserId.s)
                  ==> r == Err(BadRequest))
              && ((HelpTypeUsable(helpTypes, b) && b.mentorUserId.Truthy() && IsObjectId(b.mentorUserId.s)
                   && !ActiveMentor(users, b.mentorUserId.s)) ==> r == Err(NotFound))
              && (HelpTypeUsable(helpTypes, b) && MentorUsable(users, b) ==>
                    (r.Ok? <==> TextFieldsValid(b)) && (r.Err? ==> r.status == BadRequest))
    ensures r.Ok? ==> && HasRequiredCreateFields(b) && caller.rol == Estudiante
                      && HelpTypeUsable(helpTypes, b) && MentorUsable(users, b) && TextFieldsValid(b)
    ensures r.Ok? ==> && r.value.Keys == requests.Keys + {newId}
                      && (forall id :: id in requests ==> r.value[id] == requests[id])
                      && !r.value[newId].isDeleted
                      && ValidRequest(schema, r.value[newId].doc)
                      && r.value[newId].doc.studentUser == caller.id
                      && r.value[newId].doc.status == Pendiente
                      && r.value[newId].doc.helpType == b.helpTypeId.s
                      && r.value[newId].doc.title == Trim(b.title.s)
                      && r.value[newId].doc.description == Trim(b.description.s)
                      && r.value[newId].doc.mentorUser
                         == (if b.mentorUserId.Truthy() then Some(b.mentorUserId.s) else None)
  {
    if !b.helpTypeId.Truthy() || !b.title.Truthy() || !b.description.Truthy() then Err(BadRequest)
    else if caller.rol != Estudiante then Err(Forbidden)
    else if !IsObjectId(b.helpTypeId.s) then Err(BadRequest)
    else if b.helpTypeId.s !in helpTypes || helpTypes[b.helpTypeId.s].isDeleted then Err(NotFound)
    else if b.mentorUserId.Truthy() && !IsObjectId(b.mentorUserId.s) then Err(BadRequest)
    else if b.mentorUserId.Truthy() && !ActiveMentor(users, b.mentorUserId.s) then Err(NotFound)
    else
      var mentor := if b.mentorUserId.Truthy() then Some(b.mentorUserId.s) else None;
      var doc := NewRequest(caller.id, mentor, b.helpTypeId.s, b.title.s, b.description.s,
                            OrEmpty(b.studentAvailability));
      TrimEmptyIff(b.description.s);
      if !ValidRequest(schema, doc) then Err(BadRequest)
      else Ok(requests[newId := Entry(doc, false, None)])
  }

  // ---------------------------------------------------------------- list and read

  /** The filter `getAllMentorshipRequests` builds for each role. */
  predicate ListedFor(caller: Caller, r: Request) {
    match caller.rol
    case Estudiante => r.studentUser == caller.id
    case Mentor => r.mentorUser == Some(caller.id) || (r.status == Pendiente && r.mentorUser.None?)
    case Admin => true
  }

  /** `getAllMentorshipRequests`: the ids of the active requests the caller's
      filter selects. */
  function ListRequests(requests: Store<Request>, caller: Caller): (ids: set<Id>)
    ensures forall id :: id in ids <==> id in requests && !requests[id].isDeleted && ListedFor(caller, requests[id].doc)
  {
    Query(RequestSchema, Find, requests, (r: Request) => ListedFor(caller, r), Unmentioned)
  }

  /** The owner and assigned mentor as the handlers see them after the
      model's autopopulate: the stored id of an active user, or `null` for a
      deleted one. */
  function OwnerView(users: Store<User>, req: Request): Option<Id> {
    PopulateUser(users, Some(req.studentUser))
  }

  function MentorView(users: Store<User>, req: Request): Option<Id> {
    PopulateUser(users, req.mentorUser)
  }

  /** `studentUser._id` of a `null` populate throws a TypeError before any
      role check, which the handlers' catch turns into a 500. */
  predicate OwnerGone(users: Store<User>, req: Request) {
    !IsActiveUser(users, req.studentUser)
  }

  /** Who may read one request: an admin, its student, or its assigned
      mentor while that mentor's account is active. */
  predicate MayRead(users: Store<User>, caller: Caller, r: Request) {
    || caller.rol == Admin
    || (caller.rol == Estudiante && r.studentUser == caller.id)
    || (caller.rol == Mentor && r.mentorUser == Some(caller.id) && IsActiveUser(users, caller.id))
  }

  /** `getMentorshipRequestById`. */
  function GetRequest(requests: Store<Request>, users: Store<User>, caller: Caller, id: Id): (r: Result<Request>)
    ensures !IsObjectId(id) ==> r == Err(BadRequest)
    ensures IsObjectId(id) && !(id in requests && !requests[id].isDeleted) ==> r == Err(NotFound)
    ensures IsObjectId(id) && id in requests && !requests[id].isDeleted ==>
              r == (if OwnerGone(users, requests[id].doc) then Err(ServerError)
                    else if MayRead(users, caller, requests[id].doc) then Ok(requests[id].doc)
                    else Err(Forbidden))
  {
    if !IsObjectId(id) then Err(BadRequest)
    else match FindById(RequestSchema, requests, id)
      case None => Err(NotFound)
      case Some(req) =>
        var owner := OwnerView(users, req);
        var mentor := MentorView(users, req);
        if owner.None? then Err(ServerError)
        else if caller.rol == Admin
           || (caller.rol == Estudiante && owner.value == caller.id)
           || (caller.rol == Mentor && mentor == Some(caller.id))
        then Ok(req)
        else Err(Forbidden)
  }

  /** A mentor is shown every unassigned pending request, but may not open
      one: the list filter and the read check disagree. */
  lemma ListedButNotReadable(requests: Store<Request>, users: Store<User>, caller: Caller, id: Id)
    requires caller.rol == Mentor && IsObjectId(id)
    requires id in requests && !requests[id].isDeleted
    requires requests[id].doc.status == Pendiente && requests[id].doc.mentorUser.None?
    requires !OwnerGone(users, requests[id].doc)
    ensures id in ListRequests(requests, caller)
    ensures GetRequest(requests, users, caller, id) == Err(Forbidden)
  {
  }

  /** Apart from that case, whatever a caller may read is listed for them. */
  lemma ReadableIsListed(requests: Store<Request>, users: Store<User>, caller: Caller, id: Id)
    requires GetRequest(requests, users, caller, id).Ok?
    ensures id in ListRequests(requests, caller)
  {
  }

  // ---------------------------------------------------------------- update

  /** The fields `updateMentorshipRequest` reads; the body's `mentorUserId`
      key matters only to the final "nothing to update" check. */
  datatype UpdateBody = UpdateBody(status: Field, mentorUser: Field, internalNotes: Field, hasMentorUserIdKey: bool)

  /** The `updates` object: a raw status string, a new mentor (`Some(None)`
      unassigns), and new notes (`Some(Null)` clears them). */
  datatype Changes = Changes(status: Option<string>, mentor: Option<Option<Id>>, notes: Option<Field>) {
    predicate IsEmpty() {
      status.None? && mentor.None? && notes.None?
    }
  }

  /** Whether the role branch granted the update, and what it collected. */
  datatype Permit = Permit(canUpdate: bool, changes: Changes)

  /** Statuses an assigned mentor may name at all. */
  const AssignedMentorStatuses: set<string> :=
    {"aceptada_mentor", "rechazada_mentor", "en_progreso", "completada", "cancelada_admin", "cancelada_mentor"}

  /** The transition test for the assigned mentor, on the raw target string. */
  predicate MentorStep(from: RequestStatus, to: string) {
    || (from == Pendiente && (to == "aceptada_mentor" || to == "rechazada_mentor"))
    || (from == AceptadaMentor && (to == "en_progreso" || to == "cancelada_mentor"))
    || (from == EnProgreso && (to == "completada" || to == "cancelada_mentor"))
  }

  /** The assigned mentor's transitions as a relation on statuses. */
  const MentorTransitions: set<(RequestStatus, RequestStatus)> := {
    (Pendiente, AceptadaMentor), (Pendiente, RechazadaMentor),
    (AceptadaMentor, EnProgreso), (AceptadaMentor, CanceladaMentor),
    (EnProgreso, Completada), (EnProgreso, CanceladaMentor)
  }

  /** The admin's `mentorUser` field: absent leaves the mentor alone; `null`,
      `"null"` or `""` unassigns; anything else must be the id of an active
      mentor. */
  function AdminMentorChange(users: Store<User>, f: Field): (r: Result<Option<Option<Id>>>)
    ensures f.Absent? ==> r == Ok(None)
    ensures f.Null? || f == Text("null") || f == Text("") ==> r == Ok(Some(None))
    ensures r.Ok? && r.value.Some? && r.value.value.Some? ==>
              f == Text(r.value.value.value) && ActiveMentor(users, r.value.value.value)
    ensures f.Text? && IsObjectId(f.s) && ActiveMentor(users, f.s) ==> r == Ok(Some(Some(f.s)))
    ensures r.Err? ==> && f.Text? && f.s != "null" && f.s != ""
                       && if IsObjectId(f.s) then r.status == NotFound && !ActiveMentor(users, f.s)
                          else r.status == BadRequest
  {
    match f
    case Absent => Ok(None)
    case Null => Ok(Some(None))
    case Text(s) =>
      if s == "null" || s == "" then Ok(Some(None))
      else if !IsObjectId(s) then Err(BadRequest)
      else if !ActiveMentor(users, s) then Err(NotFound)
      else Ok(Some(Some(s)))
  }

  function NotesChange(f: Field): Option<Field> {
    if f.Present() then Some(f) else None
  }

  /** The role branches of `updateMentorshipRequest`, up to the early
      returns: a 400, 403 or 404, or what the branch granted. `shownMentor` is
      the populated mentor, `null` when unassigned or when the assigned
      mentor's account was deleted. */
  function RolePermit(users: Store<User>, caller: Caller, req: Request, shownMentor: Option<Id>, b: UpdateBody): (r: Result<Permit>)
  {
    match caller.rol
    case Admin =>
      var mentor :- AdminMentorChange(users, b.mentorUser);
      var st := if b.status.Truthy() then Some(b.status.s) else None;
      Ok(Permit(true, Changes(st, mentor, NotesChange(b.internalNotes))))
    case Mentor =>
      if shownMentor == Some(caller.id) then
        if b.status.Truthy() && b.status.s !in AssignedMentorStatuses then Err(BadRequest)
        else if b.status.Truthy() && !MentorStep(req.status, b.status.s) then Err(BadRequest)
        else
          var st := if b.status.Truthy() then Some(b.status.s) else None;
          Ok(Permit(true, Changes(st, None, NotesChange(b.internalNotes))))
      else if shownMentor.None? && req.status == Pendiente && b.status == Text("aceptada_mentor") then
        Ok(Permit(true, Changes(Some("aceptada_mentor"), Some(Some(caller.id)), NotesChange(b.internalNotes))))
      else Err(Forbidden)
    case Estudiante =>
      if req.studentUser != caller.id then Ok(Permit(false, Changes(None, None, None)))
      else if b.status.Truthy() && b.status.s != "cancelada_estudiante" then Err(BadRequest)
      else if b.status.Truthy() && req.status != Pendiente && req.status != AceptadaMentor then Err(BadRequest)
      else
        var st := if b.status.Truthy() then Some(b.status.s) else None;
        Ok(Permit(true, Changes(st, None, None)))
  }

  /** `Object.assign(request, updates)` after the `trim` setter; a status
      string outside the status vocabulary cannot be assigned and is reported
      by validation, so it is a 400 here. */
  function ApplyChanges(req: Request, c: Changes): (r: Result<Request>)
  {
    var st :- match c.status
      case None => Ok(req.status)
      case Some(s) => if ParseStatus(s).Some? then Ok(ParseStatus(s).value) else Err(BadRequest);
    var mentor := if c.mentor.Some? then c.mentor.value else req.mentorUser;
    var notes := match c.notes
      case None => req.internalNotes
      case Some(Text(n)) => Some(Trim(n))
      case Some(_) => None;
    Ok(req.(status := st, mentorUser := mentor, internalNotes := notes))
  }

  /** `updateMentorshipRequest` against the given schema. */
  function UpdateRequest(schema: Schema, requests: Store<Request>, users: Store<User>, caller: Caller,
                         id: Id, b: UpdateBody): (r: Result<Store<Request>>)
    ensures !IsObjectId(id) ==> r == Err(BadRequest)
    ensures IsObjectId(id) && !(id in requests && !requests[id].isDeleted) ==> r == Err(NotFound)
    ensures IsObjectId(id) && id in requests && !requests[id].isDeleted ==>
              (r == Err(ServerError) <==> OwnerGone(users, requests[id].doc))
    ensures r.Ok? ==> && id in requests && !requests[id].isDeleted
                      && r.value.Keys == requests.Keys
                      && (forall other :: other in requests && other != id ==> r.value[other] == requests[other])
                      && !r.value[id].isDeleted
                      && ValidRequest(schema, r.value[id].doc)
                      && r.value[id].doc.studentUser == requests[id].doc.studentUser
                      && r.value[id].doc.helpType == requests[id].doc.helpType
                      && r.value[id].doc.title == requests[id].doc.title
    ensures r.Err? ==> r.status != Unauthorized
  {
    if !IsObjectId(id) then Err(BadRequest)
    else match FindById(RequestSchema, requests, id)
      case None => Err(NotFound)
      case Some(req) =>
        if OwnerView(users, req).None? then Err(ServerError)
        else
          var p :- RolePermit(users, caller, req, MentorView(users, req), b);
          if !p.canUpdate || p.changes.IsEmpty() then
            if p.canUpdate && (b.status.Present() || b.hasMentorUserIdKey || b.internalNotes.Present())
            then Err(BadRequest)
            else Err(Forbidden)
          else
            var updated :- ApplyChanges(req, p.changes);
            if !ValidRequest(schema, updated) then Err(BadRequest)
            else Ok(requests[id := requests[id].(doc := updated)])
  }

  /** The mentor's raw-string transition test agrees with the transition
      relation: the allow-list plus the three condition lines accept exactly
      the names of the pairs in `MentorTransitions`. */
  lemma MentorStepMatchesTransitions(from: RequestStatus, to: string)
    ensures (to in AssignedMentorStatuses && MentorStep(from, to)) <==>
            (ParseStatus(to).Some? && (from, ParseStatus(to).value) in MentorTransitions)
  {
  }

  /** The assigned mentor changes the status only along `MentorTransitions`,
      and any other status it names is a 400. */
  lemma AssignedMentorFollowsTransitions(schema: Schema, requests: Store<Request>, users: Store<User>,
                                         caller: Caller, id: Id, b: UpdateBody)
    requires caller.rol == Mentor && id in requests && !requests[id].isDeleted && IsObjectId(id)
    requires requests[id].doc.mentorUser == Some(caller.id) && IsActiveUser(users, caller.id)
    requires !OwnerGone(users, requests[id].doc)
    requires b.status.Truthy()
    ensures UpdateRequest(schema, requests, users, caller, id, b).Ok? ==>
              (requests[id].doc.status, UpdateRequest(schema, requests, users, caller, id, b).value[id].doc.status)
                in MentorTransitions
    ensures (ParseStatus(b.status.s).None?
             || (requests[id].doc.status, ParseStatus(b.status.s).value) !in MentorTransitions)
            ==> UpdateRequest(schema, requests, users, caller, id, b) == Err(BadRequest)
  {
    MentorStepMatchesTransitions(requests[id].doc.status, b.status.s);
  }

  /** Claim: a mentor naming `aceptada_mentor` on a pending request that
      shows no mentor becomes its mentor and accepts it in one step. A
      request whose assigned mentor's account was deleted shows none, so any
      mentor can take it over. */
  lemma MentorClaim(schema: Schema, requests: Store<Request>, users: Store<User>,
                    caller: Caller, id: Id, notes: Field, hasKey: bool)
    requires caller.rol == Mentor && id in requests && !requests[id].isDeleted && IsObjectId(id)
    requires ValidStore(schema, requests)
    requires !OwnerGone(users, requests[id].doc)
    requires MentorView(users, requests[id].doc).None? && requests[id].doc.status == Pendiente
    ensures var r := UpdateRequest(schema, requests, users, caller, id,
                                   UpdateBody(Text("aceptada_mentor"), Absent, notes, hasKey));
            && r.Ok?
            && r.value[id].doc.mentorUser == Some(caller.id)
            && r.value[id].doc.status == AceptadaMentor
  {
  }

  /** Any other update by a mentor who is not the populated assigned
      mentor is a 403. */
  lemma UnassignedMentorOtherwiseForbidden(schema: Schema, requests: Store<Request>, users: Store<User>,
                                           caller: Caller, id: Id, b: UpdateBody)
    requires caller.rol == Mentor && id in requests && !requests[id].isDeleted && IsObjectId(id)
    requires !OwnerGone(users, requests[id].doc)
    requires MentorView(users, requests[id].doc) != Some(caller.id)
    requires !(MentorView(users, requests[id].doc).None? && requests[id].doc.status == Pendiente
               && b.status == Text("aceptada_mentor"))
    ensures UpdateRequest(schema, requests, users, caller, id, b) == Err(Forbidden)
  {
  }

  /** The owning student can only cancel, and only a pending or accepted
      request; a student who does not own it is refused with 403. */
  lemma StudentMayOnlyCancel(schema: Schema, requests: Store<Request>, users: Store<User>,
                             caller: Caller, id: Id, b: UpdateBody)
    requires caller.rol == Estudiante && id in requests && !requests[id].isDeleted && IsObjectId(id)
    ensures requests[id].doc.studentUser != caller.id && !OwnerGone(users, requests[id].doc) ==>
              UpdateRequest(schema, requests, users, caller, id, b) == Err(Forbidden)
    ensures UpdateRequest(schema, requests, users, caller, id, b).Ok? ==>
              && requests[id].doc.status in {Pendiente, AceptadaMentor}
              && UpdateRequest(schema, requests, users, caller, id, b).value[id].doc
                 == requests[id].doc.(status := CanceladaEstudiante)
  {
  }

  /** The admin may put a request in any status the schema admits. */
  lemma AdminSetsAnyAdmittedStatus(schema: Schema, requests: Store<Request>, users: Store<User>,
                                   caller: Caller, id: Id, st: RequestStatus)
    requires caller.rol == Admin && id in requests && !requests[id].isDeleted && IsObjectId(id)
    requires ValidStore(schema, requests)
    ensures var r := UpdateRequest(schema, requests, users, caller, id, UpdateBody(Text(st.Name()), Absent, Absent, false));
            (r.Ok? <==> Admits(schema, st) && !OwnerGone(users, requests[id].doc))
            && (r.Ok? ==> r.value[id].doc == requests[id].doc.(status := st))
  {
    assert ParseStatus(st.Name()) == Some(st);
  }

  /** Every update keeps the store valid. */
  lemma UpdateKeepsStoreValid(schema: Schema, requests: Store<Request>, users: Store<User>,
                              caller: Caller, id: Id, b: UpdateBody)
    requires ValidStore(schema, requests)
    ensures UpdateRequest(schema, requests, users, caller, id, b).Ok? ==>
              ValidStore(schema, UpdateRequest(schema, requests, users, caller, id, b).value)
  {
  }

  // ---------------------------------------------------------------- delete

  /** Statuses in which the owning student may delete a request. */
  const StudentDeletable: set<RequestStatus> :=
    {Pendiente, AceptadaMentor, RechazadaMentor, RechazadaAdmin, CanceladaEstudiante, CanceladaAdmin}

  /** `deleteMentorshipRequest` at time `now`. The handler's "already
      deleted" 400 cannot happen: `findById` never returns a deleted request. */
  function DeleteRequest(requests: Store<Request>, users: Store<User>, caller: Caller, id: Id, now: int): (r: Result<Store<Request>>)
    ensures !IsObjectId(id) ==> r == Err(BadRequest)
    ensures IsObjectId(id) && !(id in requests && !requests[id].isDeleted) ==> r == Err(NotFound)
    ensures IsObjectId(id) && id in requests && !requests[id].isDeleted && OwnerGone(users, requests[id].doc)
            ==> r == Err(ServerError)
    ensures IsObjectId(id) && id in requests && !requests[id].isDeleted && !OwnerGone(users, requests[id].doc) ==>
              (r.Ok? <==> caller.rol == Admin
                          || (caller.rol == Estudiante && requests[id].doc.studentUser == caller.id
                              && requests[id].doc.status in StudentDeletable))
              && (r.Err? ==> r.status == Forbidden)
    ensures r.Ok? ==> && r.value.Keys == requests.Keys
                      && r.value[id] == Entry(requests[id].doc, true, Some(now))
                      && forall other :: other in requests && other != id ==> r.value[other] == requests[other]
  {
    if !IsObjectId(id) then Err(BadRequest)
    else match FindById(RequestSchema, requests, id)
      case None => Err(NotFound)
      case Some(req) =>
        var owner := OwnerView(users, req);
        if owner.None? then Err(ServerError)
        else if caller.rol == Admin then Ok(MarkDeleted(requests, id, now))
        else if caller.rol == Estudiante && owner.value == caller.id then
          if req.status in StudentDeletable then Ok(MarkDeleted(requests, id, now)) else Err(Forbidden)
        else Err(Forbidden)
  }

  /** Deleting an already deleted request is a 404, never the handler's 400. */
  lemma DeleteTwiceIsNotFound(requests: Store<Request>, users: Store<User>, caller: Caller, other: Caller,
                               id: Id, now: int, later: int)
    requires DeleteRequest(requests, users, caller, id, now).Ok?
    ensures DeleteRequest(DeleteRequest(requests, users, caller, id, now).value, users, other, id, later) == Err(NotFound)
  {
  }

  /** A deleted request disappears from every list and every read. */
  lemma DeletedRequestIsGone(requests: Store<Request>, users: Store<User>, caller: Caller, viewer: Caller,
                             id: Id, now: int)
    requires DeleteRequest(requests, users, caller, id, now).Ok?
    ensures id !in ListRequests(DeleteRequest(requests, users, caller, id, now).value, viewer)
    ensures GetRequest(DeleteRequest(requests, users, caller, id, now).value, users, viewer, id) == Err(NotFound)
  {
  }

  /** A live request whose owning student's account was deleted cannot be
      read, updated or deleted by anyone: each handler dereferences the
      `null` populated owner before its role checks and answers 500. */
  lemma DeletedOwnerIsServerError(schema: Schema, requests: Store<Request>, users: Store<User>,
                                  caller: Caller, id: Id, b: UpdateBody, now: int)
    requires IsObjectId(id) && id in requests && !requests[id].isDeleted
    requires !IsActiveUser(users, requests[id].doc.studentUser)
    ensures GetRequest(requests, users, caller, id) == Err(ServerError)
    ensures UpdateRequest(schema, requests, users, caller, id, b) == Err(ServerError)
    ensures DeleteRequest(requests, users, caller, id, now) == Err(ServerError)
  {
  }

  // ---------------------------------------------------------------- the schema finding

  /** As written, the enum refuses `cancelada_mentor`: an assigned mentor's
      cancel passes the controller's transition test and then always fails
      validation with a 400. */
  lemma WrittenEnumRefusesMentorCancel(requests: Store<Request>, users: Store<User>, caller: Caller, id: Id,
                                       notes: Field, hasKey: bool)
    requires caller.rol == Mentor && id in requests && !requests[id].isDeleted && IsObjectId(id)
    requires requests[id].doc.mentorUser == Some(caller.id) && IsActiveUser(users, caller.id)
    requires !OwnerGone(users, requests[id].doc)
    ensures UpdateRequest(Written, requests, users, caller, id,
                          UpdateBody(Text("cancelada_mentor"), Absent, notes, hasKey)) == Err(BadRequest)
  {
    assert ParseStatus("cancelada_mentor") == Some(CanceladaMentor);
  }

  /** With `cancelada_mentor` in the enum, the assigned mentor can cancel an
      accepted or in-progress request, as the transition table promises. */
  lemma IntendedEnumAllowsMentorCancel(requests: Store<Request>, users: Store<User>, caller: Caller, id: Id,
                                       notes: Field, hasKey: bool)
    requires caller.rol == Mentor && id in requests && !requests[id].isDeleted && IsObjectId(id)
    requires ValidStore(Intended, requests)
    requires requests[id].doc.mentorUser == Some(caller.id) && IsActiveUser(users, caller.id)
    requires !OwnerGone(users, requests[id].doc)
    requires requests[id].doc.status in {AceptadaMentor, EnProgreso}
    ensures var r := UpdateRequest(Intended, requests, users, caller, id,
                                   UpdateBody(Text("cancelada_mentor"), Absent, notes, hasKey));
            r.Ok? && r.value[id].doc.status == CanceladaMentor
  {
    assert ParseStatus("cancelada_mentor") == Some(CanceladaMentor);
  }
}

=== FILE: request_form.dfy ===
/** The request form shared by the create and edit pages: the help-type
    options, the prefill from an existing request, the required-field check
    and the body handed to the submit callback. */
module RequestForm {
  import opened Http
  import opened Text
  import opened SoftDelete
  import opened UserModel
  import opened HelpTypeModel
  import opened RequestModel
  import opened RequestController

  datatype FormData = FormData(helpTypeId: string, title: string, description: string,
                               studentAvailability: string, mentorUserId: string)

  const EmptyForm: FormData := FormData("", "", "", "", "")

  /** A help type as the list endpoint returns it. */
  datatype HelpTypeRow = HelpTypeRow(id: Id, name: string, isDeleted: bool)

  /** The options of the help-type selector: the non-deleted rows, in order. */
  function HelpTypeOptions(rows: seq<HelpTypeRow>): (r: seq<HelpTypeRow>)
    ensures |r| <= |rows|
    ensures forall x :: x in r <==> x in rows && !x.isDeleted
    ensures (forall i :: 0 <= i < |rows| ==> !rows[i].isDeleted) ==> r == rows
  {
    if |rows| == 0 then []
    else (if rows[0].isDeleted then [] else [rows[0]]) + HelpTypeOptions(rows[1..])
  }

  /** The order is kept: the options of two lists one after the other are
      the options of the first followed by those of the second. */
  lemma {:induction false} HelpTypeOptionsAppend(a: seq<HelpTypeRow>, b: seq<HelpTypeRow>)
    ensures HelpTypeOptions(a + b) == HelpTypeOptions(a) + HelpTypeOptions(b)
    decreases |a|
  {
    if |a| > 0 {
      assert (a + b)[1..] == a[1..] + b;
      HelpTypeOptionsAppend(a[1..], b);
    } else {
      assert a + b == b;
    }
  }

  /** A reference field of the request being edited: missing, a bare id, or
      a populated document (of which the form takes the id). */
  datatype Ref = NoRef | Bare(id: Id) | Populated(id: Id)

  function RefId(r: Ref): string {
    match r
    case NoRef => ""
    case Bare(id) => id
    case Populated(id) => id
  }

  /** The fields of the request being edited, as the page passes them. */
  datatype InitialData = InitialData(helpType: Ref, title: Option<string>, description: Option<string>,
                                     studentAvailability: Option<string>, mentorUser: Ref)

  function OrBlank(s: Option<string>): string {
    if s.Some? then s.value else ""
  }

  /** The prefill effect: edit mode with data copies it in, create mode
      clears the form, edit mode without data leaves it alone. */
  function Prefill(isEditMode: bool, initial: Option<InitialData>, current: FormData): (f: FormData)
    ensures !isEditMode ==> f == EmptyForm
    ensures isEditMode && initial.None? ==> f == current
    ensures isEditMode && initial.Some? ==> && f.helpTypeId == RefId(initial.value.helpType)
                                            && f.mentorUserId == RefId(initial.value.mentorUser)
                                            && f.title == OrBlank(initial.value.title)
                                            && f.description == OrBlank(initial.value.description)
                                            && f.studentAvailability == OrBlank(initial.value.studentAvailability)
  {
    if isEditMode && initial.Some? then
      var d := initial.value;
      FormData(RefId(d.helpType), OrBlank(d.title), OrBlank(d.description),
               OrBlank(d.studentAvailability), RefId(d.mentorUser))
    else if !isEditMode then EmptyForm
    else current
  }

  /** A populated reference and a bare one with the same id prefill alike. */
  lemma PrefillIgnoresPopulation(d: InitialData, id: Id, m: Id, current: FormData)
    ensures Prefill(true, Some(d.(helpType := Populated(id), mentorUser := Populated(m))), current)
         == Prefill(true, Some(d.(helpType := Bare(id), mentorUser := Bare(m))), current)
  {
  }

  /** `handleSubmit`: refused while the help type, title or description is
      empty; otherwise every field goes out as typed, except an empty
      mentor, which is left out. */
  function Submit(f: FormData): (r: Option<CreateBody>)
    ensures r.None? <==> f.helpTypeId == "" || f.title == "" || f.description == ""
    ensures r.Some? ==> && r.value.helpTypeId == Text(f.helpTypeId)
                        && r.value.title == Text(f.title)
                        && r.value.description == Text(f.description)
                        && r.value.studentAvailability == Text(f.studentAvailability)
                        && (r.value.mentorUserId.Absent? <==> f.mentorUserId == "")
                        && (f.mentorUserId != "" ==> r.value.mentorUserId == Text(f.mentorUserId))
  {
    if f.helpTypeId == "" || f.title == "" || f.description == "" then None
    else Some(CreateBody(Text(f.helpTypeId), Text(f.title), Text(f.description), Text(f.studentAvailability),
                         if f.mentorUserId == "" then Absent else Text(f.mentorUserId)))
  }

  /** The local check is the handler's first check: a body the form sends
      never meets the handler's missing-field 400, and a form it refuses
      would have. */
  lemma LocalCheckMatchesHandler(f: FormData)
    ensures Submit(f).Some? <==> Text(f.helpTypeId).Truthy() && Text(f.title).Truthy() && Text(f.description).Truthy()
  {
  }

  /** The local check does not trim: a blank title passes it, and the
      handler then refuses the request. */
  lemma BlankTitlePassesFormOnly(schema: Schema, requests: Store<Request>, users: Store<User>, helpTypes: Store<HelpType>,
                                 caller: Caller, f: FormData, newId: Id)
    requires newId !in requests
    requires f.helpTypeId != "" && f.description != "" && f.title != "" && AllSpace(f.title)
    ensures Submit(f).Some?
    ensures CreateRequest(schema, requests, users, helpTypes, caller, Submit(f).value, newId).Err?
  {
    TrimEmptyIff(f.title);
  }

  /** A form a student submits creates a request exactly when its help type
      is an active one, its mentor is empty or an active mentor, and its
      trimmed title and description pass validation; the new request is
      pending, belongs to the student and carries the form's choices. */
  lemma SubmittedFormIsCreated(schema: Schema, requests: Store<Request>, users: Store<User>, helpTypes: Store<HelpType>,
                               caller: Caller, f: FormData, newId: Id)
    requires newId !in requests
    requires Submit(f).Some? && caller.rol == Estudiante
    ensures var r := CreateRequest(schema, requests, users, helpTypes, caller, Submit(f).value, newId);
            && (r.Ok? <==> && IsObjectId(f.helpTypeId) && f.helpTypeId in helpTypes && !helpTypes[f.helpTypeId].isDeleted
                           && (f.mentorUserId == "" || (IsObjectId(f.mentorUserId) && ActiveMentor(users, f.mentorUserId)))
                           && !AllSpace(f.title) && |Trim(f.title)| <= TitleMaxLength && !AllSpace(f.description))
            && (r.Ok? ==> && r.value[newId].doc.studentUser == caller.id
                          && r.value[newId].doc.status == Pendiente
                          && r.value[newId].doc.helpType == f.helpTypeId
                          && r.value[newId].doc.title == Trim(f.title)
                          && r.value[newId].doc.mentorUser == (if f.mentorUserId == "" then None else Some(f.mentorUserId)))
  {
  }
}

=== FILE: request_model.dfy ===
/** The mentorship-request schema: its status vocabulary, the status enum the
    schema validates against, required fields and defaults.

    The controller speaks of nine statuses, but the schema's enum lists only
    eight: `cancelada_mentor` is missing. `Schema.Written` is the enum as it
    stands; `Schema.Intended` adds `cancelada_mentor`, which the controller's
    mentor transitions evidently expect. */
module RequestModel {
  import opened Http
  import opened Text
  import opened SoftDelete

  datatype RequestStatus =
    | Pendiente
    | AceptadaMentor
    | RechazadaMentor
    | RechazadaAdmin
    | EnProgreso
    | Completada
    | CanceladaEstudiante
    | CanceladaAdmin
    | CanceladaMentor
  {
    function Name(): string {
      match this
      case Pendiente => "pendiente"
      case AceptadaMentor => "aceptada_mentor"
      case RechazadaMentor => "rechazada_mentor"
      case RechazadaAdmin => "rechazada_admin"
      case EnProgreso => "en_progreso"
      case Completada => "completada"
      case CanceladaEstudiante => "cancelada_estudiante"
      case CanceladaAdmin => "cancelada_admin"
      case CanceladaMentor => "cancelada_mentor"
    }
  }

  /** The status a string names, if it names one. */
  function ParseStatus(s: string): (r: Option<RequestStatus>)
    ensures r.Some? ==> r.value.Name() == s
    ensures r.None? ==> forall st: RequestStatus :: st.Name() != s
  {
    if s == "pendiente" then Some(Pendiente)
    else if s == "aceptada_mentor" then Some(AceptadaMentor)
    else if s == "rechazada_mentor" then Some(RechazadaMentor)
    else if s == "rechazada_admin" then Some(RechazadaAdmin)
    else if s == "en_progreso" then Some(EnProgreso)
    else if s == "completada" then Some(Completada)
    else if s == "cancelada_estudiante" then Some(CanceladaEstudiante)
    else if s == "cancelada_admin" then Some(CanceladaAdmin)
    else if s == "cancelada_mentor" then Some(CanceladaMentor)
    else None
  }

  datatype Schema = Written | Intended

  /** The `enum` validator of `status`. */
  predicate Admits(schema: Schema, st: RequestStatus) {
    st != CanceladaMentor || schema == Intended
  }

  const DefaultStatus: RequestStatus := Pendiente

  /** A request document. `mentorUser` is `None` when unassigned (`null`);
      `internalNotes` is `None` when explicitly set to `null`. */
  datatype Request = Request(
    studentUser: Id,
    mentorUser: Option<Id>,
    helpType: Id,
    title: string,
    description: string,
    status: RequestStatus,
    studentAvailability: string,
    internalNotes: Option<string>)

  const TitleMaxLength: nat := 150

  /** Schema validation of a document whose string fields already went
      through the `trim` setters. */
  predicate ValidRequest(schema: Schema, r: Request) {
    && r.title != "" && |r.title| <= TitleMaxLength
    && r.description != ""
    && Admits(schema, r.status)
  }

  /** Every stored request passed validation. */
  predicate ValidStore(schema: Schema, s: Store<Request>) {
    forall id :: id in s ==> ValidRequest(schema, s[id].doc)
  }

  /** The document `MentorshipRequest.create` builds: setters applied and the
      defaults filled in. */
  function NewRequest(student: Id, mentor: Option<Id>, helpType: Id, title: string, description: string, availability: string): (r: Request)
    ensures r.status == DefaultStatus && r.internalNotes == Some("")
    ensures r.studentUser == student && r.mentorUser == mentor && r.helpType == helpType
    ensures IsTrimmed(r.title) && IsTrimmed(r.description) && IsTrimmed(r.studentAvailability)
    ensures r.title == "" <==> AllSpace(title)
  {
    TrimEmptyIff(title);
    Request(student, mentor, helpType, Trim(title), Trim(description), DefaultStatus, Trim(availability), Some(""))
  }
}

=== FILE: session_controller.dfy ===
/** The mentorship-session handlers: proposing a session for an accepted
    request, listing a request's sessions, and the one update handler that
    confirms, completes, cancels, reschedules and annotates a session
    depending on who asks and what the session's status is. */
module SessionController {
  import opened Http
  import opened Text
  import opened SoftDelete
  import opened UserModel
  import Req = RequestModel
  import opened SessionModel

  /** A `proposedDateTimes` body field: absent or `null`, or an array. */
  datatype SlotsArg = NoSlots | SlotList(args: seq<SlotArg>) {
    predicate NonEmpty() {
      SlotList? && |args| > 0
    }
  }

  /** The creation-time check of one proposed slot: both times given and
      valid, and the start strictly before the end. */
  predicate ValidProposal(a: SlotArg) {
    a.startTime.At? && a.endTime.At? && a.startTime.ms < a.endTime.ms
  }

  /** The statuses the parent request may be in, spelled as the handler
      spells them: two of the four are session statuses, which no request
      can have. */
  const AllowedParentStatusNames: seq<string> :=
    ["aceptada_mentor", "en_progreso", "reprogramar_mentor", "reprogramar_estudiante"]

  datatype CreateBody = CreateBody(mentorshipRequestId: Field, proposedDateTimes: SlotsArg, locationOrLink: Field)

  /** The slots of a creation body that passed the per-slot checks. */
  function ProposedSlots(args: seq<SlotArg>): (r: seq<Slot>)
    requires forall i :: 0 <= i < |args| ==> ValidProposal(args[i])
    ensures |r| == |args|
    ensures forall i :: 0 <= i < |args| ==> ValidProposal(args[i]) && r[i] == Slot(args[i].startTime.ms, args[i].endTime.ms)
    ensures forall i :: 0 <= i < |r| ==> r[i].startTime < r[i].endTime
  {
    assert forall i :: 0 <= i < |args| ==> args[i].startTime.At? && args[i].endTime.At? by {
      forall i | 0 <= i < |args| ensures args[i].startTime.At? && args[i].endTime.At? {
        assert ValidProposal(args[i]);
      }
    }
    CastSlots(args).value
  }

  /** The body passes the handler's input checks: a request id, and a
      non-empty list of slots each with two valid dates in order. */
  predicate ProposalBodyOk(b: CreateBody) {
    && b.mentorshipRequestId.Truthy() && b.proposedDateTimes.NonEmpty()
    && forall i :: 0 <= i < |b.proposedDateTimes.args| ==> ValidProposal(b.proposedDateTimes.args[i])
  }

  /** The permission test on the populated parent: the owning student or
      the assigned mentor, each while their account is active. */
  predicate MayPropose(users: Store<User>, caller: Caller, parent: Req.Request) {
    || (caller.rol == Estudiante && PopulateUser(users, Some(parent.studentUser)) == Some(caller.id))
    || (caller.rol == Mentor && PopulateUser(users, parent.mentorUser) == Some(caller.id))
  }

  /** `createMentorshipSession`, with `newId` the id the database assigns. */
  function CreateSession(requests: Store<Req.Request>, users: Store<User>, sessions: Store<Session>,
                         caller: Caller, b: CreateBody, newId: Id): (r: Result<Store<Session>>)
    requires newId !in sessions
    ensures !b.mentorshipRequestId.Truthy() || !b.proposedDateTimes.NonEmpty() ==> r == Err(BadRequest)
    ensures b.proposedDateTimes.SlotList?
            && (exists i :: 0 <= i < |b.proposedDateTimes.args| && !ValidProposal(b.proposedDateTimes.args[i]))
            ==> r == Err(BadRequest)
    ensures ProposalBodyOk(b) && !IsObjectId(b.mentorshipRequestId.s) ==> r == Err(BadRequest)
    ensures ProposalBodyOk(b) && IsObjectId(b.mentorshipRequestId.s) ==>
              var rid := b.mentorshipRequestId.s;
              if !(rid in requests && !requests[rid].isDeleted) then r == Err(NotFound)
              else
                var parent := requests[rid].doc;
                if parent.status !in {Req.AceptadaMentor, Req.EnProgreso} then r == Err(BadRequest)
                else if !MayPropose(users, caller, parent) then r == Err(Forbidden)
                else if !IsActiveUser(users, parent.studentUser) then r == Err(ServerError)
                else (r.Ok? <==> PopulateUser(users, parent.mentorUser).Some?) && (r.Err? ==> r.status == BadRequest)
    ensures r.Ok? ==> && b.mentorshipRequestId.Truthy() && IsObjectId(b.mentorshipRequestId.s)
                      && b.mentorshipRequestId.s in requests && !requests[b.mentorshipRequestId.s].isDeleted
                      && r.value.Keys == sessions.Keys + {newId}
                      && (forall id :: id in sessions ==> r.value[id] == sessions[id])
                      && !r.value[newId].isDeleted
    ensures r.Ok? ==> var s := r.value[newId].doc;
                      && s.mentorshipRequest == b.mentorshipRequestId.s
                      && s.status == Propuesta
                      && s.proposedBy == caller.id
                      && s.confirmedDateTime.None?
                      && s.student == requests[b.mentorshipRequestId.s].doc.studentUser
                      && s.mentor == requests[b.mentorshipRequestId.s].doc.mentorUser
                      && s.mentor.Some?
                      && ProposalBodyOk(b)
                      && s.proposedDateTimes == ProposedSlots(b.proposedDateTimes.args)
                      && |s.proposedDateTimes| > 0
                      && (forall i :: 0 <= i < |s.proposedDateTimes| ==>
                            s.proposedDateTimes[i].startTime < s.proposedDateTimes[i].endTime)
                      && s.locationOrLink == Some(Trim(OrEmpty(b.locationOrLink)))
    ensures r.Err? ==> r.status in {BadRequest, Forbidden, NotFound, ServerError}
  {
    if !b.mentorshipRequestId.Truthy() || !b.proposedDateTimes.NonEmpty() then Err(BadRequest)
    else if exists i :: 0 <= i < |b.proposedDateTimes.args| && !ValidProposal(b.proposedDateTimes.args[i]) then Err(BadRequest)
    else
      var rid := b.mentorshipRequestId.s;
      if !IsObjectId(rid) then Err(BadRequest)
      else match FindById(RequestSchema, requests, rid)
        case None => Err(NotFound)
        case Some(parent) =>
          ParentStatusGate(parent.status);
          if parent.status.Name() !in AllowedParentStatusNames then Err(BadRequest)
          else
            var studentOwner := PopulateUser(users, Some(parent.studentUser));
            var mentorAssigned := PopulateUser(users, parent.mentorUser);
            if !((caller.rol == Estudiante && studentOwner == Some(caller.id))
                 || (caller.rol == Mentor && mentorAssigned == Some(caller.id)))
            then Err(Forbidden)
            // `parentRequest.studentUser._id` on a null populate throws a TypeError
            else if studentOwner.None? then Err(ServerError)
            else
              var s := Session(rid, mentorAssigned, studentOwner.value, caller.id,
                               ProposedSlots(b.proposedDateTimes.args), None, Propuesta,
                               Some(Trim(OrEmpty(b.locationOrLink))), None, None);
              if !ValidSession(s) then Err(BadRequest)
              else Ok(sessions[newId := Entry(s, false, None)])
  }

  /** Of the four names the handler accepts, exactly the request statuses
      `aceptada_mentor` and `en_progreso` can occur. */
  lemma ParentStatusGate(st: Req.RequestStatus)
    ensures st.Name() in AllowedParentStatusNames <==> st == Req.AceptadaMentor || st == Req.EnProgreso
  {
    match st
    case AceptadaMentor =>
    case EnProgreso =>
    case _ =>
      assert st.Name() != AllowedParentStatusNames[0] && st.Name() != AllowedParentStatusNames[1];
      assert st.Name() != AllowedParentStatusNames[2] && st.Name() != AllowedParentStatusNames[3];
  }

  /** Who may propose: the owning student or the assigned mentor, and only
      while the parent request is accepted or in progress. An admin never
      may. */
  lemma ProposalNeedsParticipantAndAcceptedRequest(requests: Store<Req.Request>, users: Store<User>, sessions: Store<Session>,
                                                   caller: Caller, b: CreateBody, newId: Id)
    requires newId !in sessions
    requires CreateSession(requests, users, sessions, caller, b, newId).Ok?
    ensures var parent := requests[b.mentorshipRequestId.s].doc;
            && (parent.status == Req.AceptadaMentor || parent.status == Req.EnProgreso)
            && ((caller.rol == Estudiante && parent.studentUser == caller.id)
                || (caller.rol == Mentor && parent.mentorUser == Some(caller.id)))
            && IsActiveUser(users, parent.studentUser)
            && parent.mentorUser.Some? && IsActiveUser(users, parent.mentorUser.value)
            && caller.rol != Admin
  {
    ParentStatusGate(requests[b.mentorshipRequestId.s].doc.status);
  }

  /** A request without an active assigned mentor cannot get sessions: the
      owning student passes every check of the handler and the schema
      refuses the missing mentor. */
  lemma UnassignedRequestRefusesSessions(requests: Store<Req.Request>, users: Store<User>, sessions: Store<Session>,
                                         caller: Caller, b: CreateBody, newId: Id)
    requires newId !in sessions
    requires b.mentorshipRequestId.Text? && IsObjectId(b.mentorshipRequestId.s)
    requires b.proposedDateTimes.NonEmpty()
    requires forall i :: 0 <= i < |b.proposedDateTimes.args| ==> ValidProposal(b.proposedDateTimes.args[i])
    requires var rid := b.mentorshipRequestId.s;
             && rid in requests && !requests[rid].isDeleted
             && requests[rid].doc.status == Req.AceptadaMentor
             && requests[rid].doc.studentUser == caller.id && caller.rol == Estudiante
             && caller.id in users && !users[caller.id].isDeleted
             && PopulateUser(users, requests[rid].doc.mentorUser).None?
    ensures CreateSession(requests, users, sessions, caller, b, newId) == Err(BadRequest)
  {
    ParentStatusGate(Req.AceptadaMentor);
  }

  /** A new session keeps the store invariant: valid, and nothing confirmed. */
  lemma CreateKeepsInvariant(requests: Store<Req.Request>, users: Store<User>, sessions: Store<Session>,
                             caller: Caller, b: CreateBody, newId: Id)
    requires newId !in sessions && SessionStoreInvariant(sessions)
    ensures CreateSession(requests, users, sessions, caller, b, newId).Ok? ==>
              SessionStoreInvariant(CreateSession(requests, users, sessions, caller, b, newId).value)
  {
  }

  /** Who may list a request's sessions: an admin, the owning student or the
      assigned mentor. */
  predicate MayListSessions(caller: Caller, parent: Req.Request) {
    || caller.rol == Admin
    || (caller.rol == Estudiante && parent.studentUser == caller.id)
    || (caller.rol == Mentor && parent.mentorUser == Some(caller.id))
  }

  /** `getSessionsForRequest`: the active sessions of an active request, for
      an admin, the owning student or the assigned mentor. */
  function ListSessions(requests: Store<Req.Request>, sessions: Store<Session>, caller: Caller, requestId: Id): (r: Result<set<Id>>)
    ensures !IsObjectId(requestId) ==> r == Err(BadRequest)
    ensures IsObjectId(requestId) && !(requestId in requests && !requests[requestId].isDeleted) ==> r == Err(NotFound)
    ensures IsObjectId(requestId) && requestId in requests && !requests[requestId].isDeleted ==>
              (r.Ok? <==> MayListSessions(caller, requests[requestId].doc))
              && (r.Err? ==> r.status == Forbidden)
    ensures r.Ok? ==> forall id :: id in r.value <==>
              id in sessions && !sessions[id].isDeleted && sessions[id].doc.mentorshipRequest == requestId
    ensures r.Err? ==> r.status in {BadRequest, Forbidden, NotFound}
  {
    if !IsObjectId(requestId) then Err(BadRequest)
    else match FindById(RequestSchema, requests, requestId)
      case None => Err(NotFound)
      case Some(parent) =>
        if caller.rol == Admin
           || (caller.rol == Estudiante && parent.studentUser == caller.id)
           || (caller.rol == Mentor && parent.mentorUser == Some(caller.id))
        then Ok(Query(SessionSchema, Find, sessions, (s: Session) => s.mentorshipRequest == requestId, Unmentioned))
        else Err(Forbidden)
  }

  /** A deleted request's sessions can no longer be listed by anyone, and a
      deleted session is never listed. */
  lemma ListingHidesDeleted(requests: Store<Req.Request>, sessions: Store<Session>, caller: Caller, requestId: Id, sid: Id, now: int)
    requires IsObjectId(requestId) && requestId in requests
    requires sid in sessions
    ensures ListSessions(MarkDeleted(requests, requestId, now), sessions, caller, requestId) == Err(NotFound)
    ensures var r := ListSessions(requests, MarkDeleted(sessions, sid, now), caller, requestId);
            r.Ok? ==> sid !in r.value
  {
  }

  // ---------------------------------------------------------------------
  // Updating a session

  /** A `confirmedDateTime` body field: falsy (absent or `null`), or an
      object whose two times may each be missing or invalid. */
  datatype ConfirmArg = NoConfirmation | Confirmation(startTime: TimeArg, endTime: TimeArg)

  /** What a body field of the update may be. `otherKeys` records whether the
      body has keys the handler does not read. */
  datatype UpdateBody = UpdateBody(
    status: Field,
    confirmedDateTime: ConfirmArg,
    summaryMentor: Field,
    feedbackStudent: Field,
    locationOrLink: Field,
    proposedDateTimes: SlotsArg,
    otherKeys: bool)
  {
    /** `Object.keys(req.body).length > 0`. A null `confirmedDateTime` or
        `proposedDateTimes` is a key too, recorded in `otherKeys`. */
    predicate HasKeys() {
      status.Present() || confirmedDateTime.Confirmation? || summaryMentor.Present()
      || feedbackStudent.Present() || locationOrLink.Present() || proposedDateTimes.SlotList? || otherKeys
    }
  }

  /** The `updates` object the handler builds; `None` is a key not set. */
  datatype Updates = Updates(
    status: Option<string>,
    confirmedDateTime: Option<Option<Slot>>,
    proposedDateTimes: Option<seq<SlotArg>>,
    proposedBy: Option<Id>,
    summaryMentor: Option<Field>,
    feedbackStudent: Option<Field>,
    locationOrLink: Option<Field>)
  {
    predicate IsEmpty() {
      status.None? && confirmedDateTime.None? && proposedDateTimes.None? && proposedBy.None?
      && summaryMentor.None? && feedbackStudent.None? && locationOrLink.None?
    }
  }

  const NoUpdates: Updates := Updates(None, None, None, None, None, None, None)

  /** The handler's two running variables. */
  datatype Pending = Pending(canUpdate: bool, updates: Updates)

  /** `session.proposedDateTimes.some(...)`, comparing ISO strings: an
      invalid confirmed start throws as soon as there is a slot to compare
      with, an invalid confirmed end as soon as a slot's start matches. */
  function MatchProposal(proposed: seq<Slot>, start: TimeArg, end: TimeArg): (r: Result<bool>)
    ensures r.Err? ==> r.status == ServerError
    ensures r.Err? <==>
              |proposed| > 0
              && (start.NoTime? || (end.NoTime? && exists i :: 0 <= i < |proposed| && proposed[i].startTime == start.ms))
    ensures r.Ok? ==> (r.value <==> start.At? && end.At? && Slot(start.ms, end.ms) in proposed)
  {
    if |proposed| == 0 then Ok(false)
    else if start.NoTime? then Err(ServerError)
    else if proposed[0].startTime == start.ms then
      if end.NoTime? then Err(ServerError)
      else if proposed[0].endTime == end.ms then Ok(true)
      else
        var rest := MatchProposal(proposed[1..], start, end);
        assert proposed == [proposed[0]] + proposed[1..];
        rest
    else
      var rest := MatchProposal(proposed[1..], start, end);
      assert proposed == [proposed[0]] + proposed[1..];
      rest
  }

  /** The confirmation step: the non-proposer confirms a proposed session by
      naming one of its slots. Whether they may is decided here, from their
      role in the session. */
  function ConfirmStep(s: Session, caller: Caller, b: UpdateBody): (r: Result<Pending>)
  {
    if b.confirmedDateTime.Confirmation? && b.status == Text("confirmada")
       && s.status == Propuesta && caller.id != s.proposedBy
    then
      var c := b.confirmedDateTime;
      var found :- MatchProposal(s.proposedDateTimes, c.startTime, c.endTime);
      if !found then Err(BadRequest)
      else
        var slot := Slot(c.startTime.ms, c.endTime.ms);
        Ok(Pending(
          (caller.rol == Estudiante && s.student == caller.id) || (caller.rol == Mentor && s.mentor == Some(caller.id)),
          NoUpdates.(confirmedDateTime := Some(Some(slot)), status := Some("confirmada"))))
    else Ok(Pending(false, NoUpdates))
  }

  /** A reschedule: new proposals, no confirmation, and the caller as the
      proposer. An absent or empty list of proposals is a 400. */
  function Reschedule(p: Pending, caller: Caller, b: UpdateBody, to: SessionStatus): (r: Result<Pending>)
    ensures r.Err? <==> !b.proposedDateTimes.NonEmpty()
    ensures r.Err? ==> r.status == BadRequest
  {
    if !b.proposedDateTimes.NonEmpty() then Err(BadRequest)
    else Ok(Pending(true, p.updates.(status := Some(to.Name()), proposedDateTimes := Some(b.proposedDateTimes.args),
                                     confirmedDateTime := Some(None), proposedBy := Some(caller.id))))
  }

  /** No cancellation once the session took place or was cancelled. */
  predicate Cancellable(st: SessionStatus) {
    st !in {Realizada, CanceladaEstudiante, CanceladaMentor, CanceladaAdmin}
  }

  /** The assigned mentor's actions. */
  function MentorActions(s: Session, caller: Caller, b: UpdateBody, p: Pending): (r: Result<Pending>)
  {
    if !(caller.rol == Mentor && s.mentor == Some(caller.id)) then Ok(p)
    else
      var p1 :-
        if !b.status.Truthy() then Ok(p)
        else if b.status.s == "realizada" && s.status in {Confirmada, EnProgreso} then
          Ok(Pending(true, p.updates.(status := Some("realizada"))))
        else if b.status.s == "cancelada_mentor" && Cancellable(s.status) then
          Ok(Pending(true, p.updates.(status := Some("cancelada_mentor"))))
        else if b.status.s == "reprogramar_mentor" && s.status in {Confirmada, CanceladaEstudiante} then
          Reschedule(p, caller, b, ReprogramarMentor)
        else Ok(p);
      var p2 := if b.summaryMentor.Present() && s.status == Realizada
                then Pending(true, p1.updates.(summaryMentor := Some(b.summaryMentor))) else p1;
      Ok(if b.locationOrLink.Present()
         then Pending(true, p2.updates.(locationOrLink := Some(b.locationOrLink))) else p2)
  }

  /** The session's student's actions. */
  function StudentActions(s: Session, caller: Caller, b: UpdateBody, p: Pending): (r: Result<Pending>)
  {
    if !(caller.rol == Estudiante && s.student == caller.id) then Ok(p)
    else
      var p1 :-
        if !b.status.Truthy() then Ok(p)
        else if b.status.s == "cancelada_estudiante" && Cancellable(s.status) then
          Ok(Pending(true, p.updates.(status := Some("cancelada_estudiante"))))
        else if b.status.s == "reprogramar_estudiante" && s.status in {Confirmada, CanceladaMentor} then
          Reschedule(p, caller, b, ReprogramarEstudiante)
        else Ok(p);
      Ok(if b.feedbackStudent.Present() && s.status == Realizada
         then Pending(true, p1.updates.(feedbackStudent := Some(b.feedbackStudent))) else p1)
  }

  /** An admin sets any status string and the location. */
  function AdminActions(caller: Caller, b: UpdateBody, p: Pending): (r: Pending)
  {
    if caller.rol != Admin then p
    else
      var p1 := if b.status.Truthy() then Pending(true, p.updates.(status := Some(b.status.s))) else p;
      if b.locationOrLink.Present() then Pending(true, p1.updates.(locationOrLink := Some(b.locationOrLink))) else p1
  }

  /** A string field after assignment and the `trim` setter. */
  function AssignText(current: Option<string>, f: Option<Field>): Option<string> {
    match f
    case None => current
    case Some(Text(t)) => Some(Trim(t))
    case Some(_) => None
  }

  /** A string field the update set is stored trimmed, or cleared when it was
      set to `null`. */
  predicate TrimmedOrCleared(f: Option<Field>, stored: Option<string>) {
    f.Some? ==> if f.value.Text? then stored == Some(Trim(f.value.s)) && IsTrimmed(stored.value)
                else stored.None?
  }

  /** `Object.assign(session, updates)` followed by the schema validation of
      `save()`: an unknown or unlisted status, or a proposed slot without two
      valid dates, is a ValidationError. */
  function Assign(s: Session, u: Updates): (r: Result<Session>)
    ensures r.Ok? <==> && (u.status.Some? ==> var st := ParseSessionStatus(u.status.value);
                                              st.Some? && InSessionEnum(st.value))
                       && (u.proposedDateTimes.Some? ==> CastSlots(u.proposedDateTimes.value).Some?)
    ensures r.Err? ==> r.status == BadRequest
    ensures r.Ok? ==> && r.value.mentor == s.mentor && r.value.student == s.student
                      && r.value.mentorshipRequest == s.mentorshipRequest
                      && (u.status.None? ==> r.value.status == s.status)
                      && (u.status.Some? ==> r.value.status.Name() == u.status.value && InSessionEnum(r.value.status))
                      && (u.proposedDateTimes.None? ==> r.value.proposedDateTimes == s.proposedDateTimes)
                      && (u.confirmedDateTime.None? ==> r.value.confirmedDateTime == s.confirmedDateTime)
                      && (u.confirmedDateTime.Some? ==> r.value.confirmedDateTime == u.confirmedDateTime.value)
                      && (u.proposedBy.None? ==> r.value.proposedBy == s.proposedBy)
                      && (u.proposedBy.Some? ==> r.value.proposedBy == u.proposedBy.value)
                      && (u.summaryMentor.None? ==> r.value.summaryMentor == s.summaryMentor)
                      && (u.feedbackStudent.None? ==> r.value.feedbackStudent == s.feedbackStudent)
                      && (u.locationOrLink.None? ==> r.value.locationOrLink == s.locationOrLink)
                      && (u.proposedDateTimes.Some? ==> r.value.proposedDateTimes == CastSlots(u.proposedDateTimes.value).value)
    ensures r.Ok? ==> && TrimmedOrCleared(u.summaryMentor, r.value.summaryMentor)
                      && TrimmedOrCleared(u.feedbackStudent, r.value.feedbackStudent)
                      && TrimmedOrCleared(u.locationOrLink, r.value.locationOrLink)
  {
    var status :- match u.status
      case None => Ok(s.status)
      case Some(name) =>
        match ParseSessionStatus(name)
        case Some(st) => if InSessionEnum(st) then Ok(st) else Err(BadRequest)
        case None => Err(BadRequest);
    var proposed :- match u.proposedDateTimes
      case None => Ok(s.proposedDateTimes)
      case Some(args) =>
        match CastSlots(args)
        case Some(slots) => Ok(slots)
        case None => Err(BadRequest);
    Ok(s.(status := status,
          proposedDateTimes := proposed,
          confirmedDateTime := if u.confirmedDateTime.Some? then u.confirmedDateTime.value else s.confirmedDateTime,
          proposedBy := if u.proposedBy.Some? then u.proposedBy.value else s.proposedBy,
          summaryMentor := AssignText(s.summaryMentor, u.summaryMentor),
          feedbackStudent := AssignText(s.feedbackStudent, u.feedbackStudent),
          locationOrLink := AssignText(s.locationOrLink, u.locationOrLink)))
  }

  /** The handler's decision after every role block ran. */
  function Collect(s: Session, caller: Caller, b: UpdateBody): (r: Result<Pending>)
  {
    var p0 :- ConfirmStep(s, caller, b);
    var p1 :- MentorActions(s, caller, b, p0);
    var p2 :- StudentActions(s, caller, b, p1);
    Ok(AdminActions(caller, b, p2))
  }

  /** `updateMentorshipSession`. Nothing to change, or changes the caller
      may not make, is a 403, except that a non-empty body that produced no
      change at all and no permission is a 400. */
  function UpdateSession(sessions: Store<Session>, caller: Caller, id: Id, b: UpdateBody): (r: Result<Store<Session>>)
    ensures !IsObjectId(id) ==> r == Err(BadRequest)
    ensures IsObjectId(id) && !(id in sessions && !sessions[id].isDeleted) ==> r == Err(NotFound)
    ensures r.Ok? ==> && id in sessions && !sessions[id].isDeleted
                      && r.value.Keys == sessions.Keys
                      && (forall other :: other in sessions && other != id ==> r.value[other] == sessions[other])
                      && !r.value[id].isDeleted
    ensures r.Err? ==> r.status in {BadRequest, Forbidden, NotFound, ServerError}
  {
    if !IsObjectId(id) then Err(BadRequest)
    else match FindById(SessionSchema, sessions, id)
      case None => Err(NotFound)
      case Some(s) =>
        var p :- Collect(s, caller, b);
        if !p.canUpdate || p.updates.IsEmpty() then
          if b.HasKeys() && p.updates.IsEmpty() && !p.canUpdate then Err(BadRequest) else Err(Forbidden)
        else
          var s' :- Assign(s, p.updates);
          Ok(sessions[id := Entry(s', false, sessions[id].deletedAt)])
  }

  /** Whether the confirmation step applies to this body and session. */
  predicate ConfirmAttempt(s: Session, caller: Caller, b: UpdateBody) {
    b.confirmedDateTime.Confirmation? && b.status == Text("confirmada")
    && s.status == Propuesta && caller.id != s.proposedBy
  }

  /** What the role blocks can put in `updates`: a confirmation only names a
      proposed slot of a proposed session and comes without new proposals;
      new proposals always come with the confirmation cleared, from the
      caller as the new proposer, and only from the session's own mentor or
      student. */
  lemma CollectShape(s: Session, caller: Caller, b: UpdateBody)
    requires Collect(s, caller, b).Ok?
    ensures var u := Collect(s, caller, b).value.updates;
            && (u.confirmedDateTime.Some? && u.confirmedDateTime.value.Some? ==>
                  && ConfirmAttempt(s, caller, b)
                  && u.confirmedDateTime.value.value in s.proposedDateTimes
                  && u.proposedDateTimes.None?
                  && u.status == Some("confirmada"))
            && (u.proposedDateTimes.Some? ==>
                  && u.confirmedDateTime == Some(None)
                  && u.proposedBy == Some(caller.id)
                  && ((caller.rol == Mentor && s.mentor == Some(caller.id) && u.status == Some("reprogramar_mentor")
                       && s.status in {Confirmada, CanceladaEstudiante})
                      || (caller.rol == Estudiante && s.student == caller.id && u.status == Some("reprogramar_estudiante")
                          && s.status in {Confirmada, CanceladaMentor})))
            && (u.proposedBy.Some? ==> u.proposedDateTimes.Some?)
            && (u.summaryMentor.Some? ==> s.status == Realizada && caller.rol == Mentor && s.mentor == Some(caller.id)
                                          && u.summaryMentor.value == b.summaryMentor)
            && (u.feedbackStudent.Some? ==> s.status == Realizada && caller.rol == Estudiante && s.student == caller.id
                                            && u.feedbackStudent.value == b.feedbackStudent)
  {
  }

  /** Every successful update keeps the store invariant: the status stays in
      the schema's enum, the mentor stays set, and a confirmed slot is one of
      the proposed slots. */
  lemma UpdateKeepsInvariant(sessions: Store<Session>, caller: Caller, id: Id, b: UpdateBody)
    requires SessionStoreInvariant(sessions)
    ensures UpdateSession(sessions, caller, id, b).Ok? ==> SessionStoreInvariant(UpdateSession(sessions, caller, id, b).value)
  {
    if UpdateSession(sessions, caller, id, b).Ok? {
      var s := sessions[id].doc;
      CollectShape(s, caller, b);
    }
  }

  /** A confirmation is made by someone other than the proposer, on a
      proposed session, and picks one of its proposed slots. */
  lemma ConfirmedByNonProposer(sessions: Store<Session>, caller: Caller, id: Id, b: UpdateBody)
    requires UpdateSession(sessions, caller, id, b).Ok?
    requires var after := UpdateSession(sessions, caller, id, b).value[id].doc;
             after.confirmedDateTime.Some? && after.confirmedDateTime != sessions[id].doc.confirmedDateTime
    ensures var before := sessions[id].doc;
            var after := UpdateSession(sessions, caller, id, b).value[id].doc;
            && before.status == Propuesta
            && caller.id != before.proposedBy
            && after.status == Confirmada
            && after.confirmedDateTime.value in before.proposedDateTimes
            && after.proposedDateTimes == before.proposedDateTimes
  {
    CollectShape(sessions[id].doc, caller, b);
  }

  /** A mentor's summary is only recorded by the session's mentor on a held
      session, and a student's feedback only by its student. */
  lemma NotesOnlyAfterSession(sessions: Store<Session>, caller: Caller, id: Id, b: UpdateBody)
    requires UpdateSession(sessions, caller, id, b).Ok?
    ensures var before := sessions[id].doc;
            var after := UpdateSession(sessions, caller, id, b).value[id].doc;
            && (after.summaryMentor != before.summaryMentor ==>
                  before.status == Realizada && caller.rol == Mentor && before.mentor == Some(caller.id))
            && (after.feedbackStudent != before.feedbackStudent ==>
                  before.status == Realizada && caller.rol == Estudiante && before.student == caller.id)
  {
    CollectShape(sessions[id].doc, caller, b);
  }

  /** New proposals clear the confirmation and make the caller, the
      session's own mentor or student, the proposer. */
  lemma RescheduleResetsConfirmation(sessions: Store<Session>, caller: Caller, id: Id, b: UpdateBody)
    requires UpdateSession(sessions, caller, id, b).Ok?
    requires UpdateSession(sessions, caller, id, b).value[id].doc.proposedDateTimes != sessions[id].doc.proposedDateTimes
    ensures var before := sessions[id].doc;
            var after := UpdateSession(sessions, caller, id, b).value[id].doc;
            && after.confirmedDateTime.None?
            && after.proposedBy == caller.id
            && ((caller.rol == Mentor && before.mentor == Some(caller.id) && after.status == ReprogramarMentor)
                || (caller.rol == Estudiante && before.student == caller.id && after.status == ReprogramarEstudiante))
  {
    CollectShape(sessions[id].doc, caller, b);
  }

  /** The status moves a session's own participants may make, as the
      handler's role blocks describe them. */
  predicate ParticipantStep(rol: Role, from: SessionStatus, to: SessionStatus) {
    || (to == Confirmada && from == Propuesta)
    || (rol == Mentor && to == Realizada && from in {Confirmada, EnProgreso})
    || (rol == Mentor && to == CanceladaMentor && Cancellable(from))
    || (rol == Mentor && to == ReprogramarMentor && from in {Confirmada, CanceladaEstudiante})
    || (rol == Estudiante && to == CanceladaEstudiante && Cancellable(from))
    || (rol == Estudiante && to == ReprogramarEstudiante && from in {Confirmada, CanceladaMentor})
  }

  /** Apart from an admin, nobody changes a session's status except along
      a participant step. */
  lemma ParticipantStatusFollowsSteps(sessions: Store<Session>, caller: Caller, id: Id, b: UpdateBody)
    requires caller.rol != Admin
    requires UpdateSession(sessions, caller, id, b).Ok?
    requires UpdateSession(sessions, caller, id, b).value[id].doc.status != sessions[id].doc.status
    ensures ParticipantStep(caller.rol, sessions[id].doc.status, UpdateSession(sessions, caller, id, b).value[id].doc.status)
  {
    var s := sessions[id].doc;
    var u := Collect(s, caller, b).value.updates;
    assert u.status.Some?;
    CollectShape(s, caller, b);
  }

  /** Consequently a rescheduled session can never be confirmed again by its
      participants: confirmation needs the status `propuesta`, and nothing
      but an admin leads back there. */
  lemma RescheduledIsNeverConfirmed(sessions: Store<Session>, caller: Caller, id: Id, b: UpdateBody)
    requires caller.rol != Admin
    requires id in sessions && sessions[id].doc.status in {ReprogramarMentor, ReprogramarEstudiante}
    requires UpdateSession(sessions, caller, id, b).Ok?
    ensures UpdateSession(sessions, caller, id, b).value[id].doc.status !in {Confirmada, Propuesta}
  {
    if UpdateSession(sessions, caller, id, b).value[id].doc.status != sessions[id].doc.status {
      ParticipantStatusFollowsSteps(sessions, caller, id, b);
    }
  }

  /** An admin sets exactly the statuses the schema's enum lists; the two
      the handlers also use, `en_progreso` and `cancelada_admin`, are 400s. */
  lemma AdminSetsEnumStatuses(sessions: Store<Session>, caller: Caller, id: Id, name: string)
    requires caller.rol == Admin && name != ""
    requires IsObjectId(id) && id in sessions && !sessions[id].isDeleted
    ensures var r := UpdateSession(sessions, caller, id, UpdateBody(Text(name), NoConfirmation, Absent, Absent, Absent, NoSlots, false));
            && (r.Ok? <==> ParseSessionStatus(name).Some? && InSessionEnum(ParseSessionStatus(name).value))
            && (r.Ok? ==> r.value[id].doc.status.Name() == name)
            && (name in {"en_progreso", "cancelada_admin"} ==> r == Err(BadRequest))
  {
    var b := UpdateBody(Text(name), NoConfirmation, Absent, Absent, Absent, NoSlots, false);
    var p := Collect(sessions[id].doc, caller, b).value;
    assert p.canUpdate && p.updates == NoUpdates.(status := Some(name));
  }

  /** Someone who is neither an admin nor the session's mentor or student
      changes nothing: without a confirmation attempt a non-empty body is a
      400 and an empty one a 403; a confirmation attempt is at best a 403. */
  lemma OutsiderIsRefused(sessions: Store<Session>, caller: Caller, id: Id, b: UpdateBody)
    requires caller.rol != Admin
    requires IsObjectId(id) && id in sessions && !sessions[id].isDeleted
    requires !(caller.rol == Mentor && sessions[id].doc.mentor == Some(caller.id))
    requires !(caller.rol == Estudiante && sessions[id].doc.student == caller.id)
    ensures var r := UpdateSession(sessions, caller, id, b);
            && r.Err?
            && (!ConfirmAttempt(sessions[id].doc, caller, b) ==> r == Err(if b.HasKeys() then BadRequest else Forbidden))
            && (ConfirmAttempt(sessions[id].doc, caller, b) ==> r.status in {BadRequest, Forbidden, ServerError})
  {
  }

  /** The converse of `ConfirmedByNonProposer`: the session's student or
      mentor who did not propose confirms any proposed slot. */
  lemma NonProposerCanConfirm(sessions: Store<Session>, caller: Caller, id: Id, slot: Slot)
    requires IsObjectId(id) && id in sessions && !sessions[id].isDeleted
    requires var s := sessions[id].doc;
             && s.status == Propuesta && caller.id != s.proposedBy && slot in s.proposedDateTimes
             && ((caller.rol == Estudiante && s.student == caller.id) || (caller.rol == Mentor && s.mentor == Some(caller.id)))
    ensures var r := UpdateSession(sessions, caller, id,
                       UpdateBody(Text("confirmada"), Confirmation(At(slot.startTime), At(slot.endTime)), Absent, Absent, Absent, NoSlots, false));
            && r.Ok?
            && r.value[id].doc.status == Confirmada
            && r.value[id].doc.confirmedDateTime == Some(slot)
  {
    var b := UpdateBody(Text("confirmada"), Confirmation(At(slot.startTime), At(slot.endTime)), Absent, Absent, Absent, NoSlots, false);
    var s := sessions[id].doc;
    assert MatchProposal(s.proposedDateTimes, At(slot.startTime), At(slot.endTime)) == Ok(true);
    assert ParseSessionStatus("confirmada") == Some(Confirmada);
  }

  /** A reschedule status, which needs new proposals to go with it. */
  predicate IsReschedule(st: SessionStatus) {
    st == ReprogramarMentor || st == ReprogramarEstudiante
  }

  /** The body asking for the step to `to`: the status alone, with the
      proposals for a reschedule. */
  function StepBody(to: SessionStatus, slots: seq<SlotArg>): UpdateBody {
    UpdateBody(Text(to.Name()), NoConfirmation, Absent, Absent, Absent,
               if IsReschedule(to) then SlotList(slots) else NoSlots, false)
  }

  /** The updates the role blocks collect for a participant's step. */
  function StepUpdates(caller: Caller, to: SessionStatus, slots: seq<SlotArg>): Updates {
    if IsReschedule(to)
    then NoUpdates.(status := Some(to.Name()), proposedDateTimes := Some(slots),
                    confirmedDateTime := Some(None), proposedBy := Some(caller.id))
    else NoUpdates.(status := Some(to.Name()))
  }

  lemma MentorStepCollects(s: Session, caller: Caller, to: SessionStatus, slots: seq<SlotArg>)
    requires caller.rol == Mentor && s.mentor == Some(caller.id)
    requires to != Confirmada && ParticipantStep(Mentor, s.status, to)
    requires IsReschedule(to) ==> |slots| > 0
    ensures Collect(s, caller, StepBody(to, slots)) == Ok(Pending(true, StepUpdates(caller, to, slots)))
  {
    var b := StepBody(to, slots);
    assert ConfirmStep(s, caller, b) == Ok(Pending(false, NoUpdates));
    assert MentorActions(s, caller, b, Pending(false, NoUpdates)) == Ok(Pending(true, StepUpdates(caller, to, slots)));
  }

  lemma StudentStepCollects(s: Session, caller: Caller, to: SessionStatus, slots: seq<SlotArg>)
    requires caller.rol == Estudiante && s.student == caller.id
    requires to != Confirmada && ParticipantStep(Estudiante, s.status, to)
    requires IsReschedule(to) ==> |slots| > 0
    ensures Collect(s, caller, StepBody(to, slots)) == Ok(Pending(true, StepUpdates(caller, to, slots)))
  {
    var b := StepBody(to, slots);
    assert ConfirmStep(s, caller, b) == Ok(Pending(false, NoUpdates));
    assert MentorActions(s, caller, b, Pending(false, NoUpdates)) == Ok(Pending(false, NoUpdates));
    assert StudentActions(s, caller, b, Pending(false, NoUpdates)) == Ok(Pending(true, StepUpdates(caller, to, slots)));
  }

  lemma StepAssigns(s: Session, caller: Caller, to: SessionStatus, slots: seq<SlotArg>)
    requires InSessionEnum(to)
    requires IsReschedule(to) ==> CastSlots(slots).Some?
    ensures var r := Assign(s, StepUpdates(caller, to, slots));
            && r.Ok?
            && r.value.status == to
            && (IsReschedule(to) ==> && r.value.proposedDateTimes == CastSlots(slots).value
                                     && r.value.confirmedDateTime.None?
                                     && r.value.proposedBy == caller.id)
            && (!IsReschedule(to) ==> r.value.proposedDateTimes == s.proposedDateTimes)
  {
    assert ParseSessionStatus(to.Name()) == Some(to);
  }

  /** The converse of `ParticipantStatusFollowsSteps` for every step but the
      confirmation (which `NonProposerCanConfirm` covers): the session's own
      mentor or student who asks for a step allowed to their role from the
      current status gets it. The body carries only the target status, and
      for a reschedule a non-empty list of castable proposals as well. */
  lemma ParticipantCanTakeStep(sessions: Store<Session>, caller: Caller, id: Id, to: SessionStatus, slots: seq<SlotArg>)
    requires IsObjectId(id) && id in sessions && !sessions[id].isDeleted
    requires var s := sessions[id].doc;
             (caller.rol == Mentor && s.mentor == Some(caller.id)) || (caller.rol == Estudiante && s.student == caller.id)
    requires to != Confirmada && ParticipantStep(caller.rol, sessions[id].doc.status, to)
    requires IsReschedule(to) ==> |slots| > 0 && CastSlots(slots).Some?
    ensures var r := UpdateSession(sessions, caller, id, StepBody(to, slots));
            && r.Ok?
            && r.value[id].doc.status == to
            && (IsReschedule(to) ==> && r.value[id].doc.proposedDateTimes == CastSlots(slots).value
                                     && r.value[id].doc.confirmedDateTime.None?
                                     && r.value[id].doc.proposedBy == caller.id)
            && (!IsReschedule(to) ==> r.value[id].doc.proposedDateTimes == sessions[id].doc.proposedDateTimes)
  {
    var s := sessions[id].doc;
    if caller.rol == Mentor {
      MentorStepCollects(s, caller, to, slots);
    } else {
      StudentStepCollects(s, caller, to, slots);
    }
    StepAssigns(s, caller, to, slots);
    assert FindById(SessionSchema, sessions, id) == Some(s);
    var s' := Assign(s, StepUpdates(caller, to, slots)).value;
    assert UpdateSession(sessions, caller, id, StepBody(to, slots)) == Ok(sessions[id := Entry(s', false, sessions[id].deletedAt)]);
  }
}

=== FILE: session_model.dfy ===
/** The mentorship-session schema: its status vocabulary and enum, the
    required references, and the proposed and confirmed time slots.

    The controller speaks of nine session statuses; the schema's enum lists
    seven, without `en_progreso` and `cancelada_admin`, so neither can ever be
    stored. Times are milliseconds since the epoch. */
module SessionModel {
  import opened Http
  import opened Text
  import opened SoftDelete

  datatype SessionStatus =
    | Propuesta
    | Confirmada
    | Realizada
    | CanceladaMentor
    | CanceladaEstudiante
    | ReprogramarMentor
    | ReprogramarEstudiante
    | EnProgreso
    | CanceladaAdmin
  {
    function Name(): string {
      match this
      case Propuesta => "propuesta"
      case Confirmada => "confirmada"
      case Realizada => "realizada"
      case CanceladaMentor => "cancelada_mentor"
      case CanceladaEstudiante => "cancelada_estudiante"
      case ReprogramarMentor => "reprogramar_mentor"
      case ReprogramarEstudiante => "reprogramar_estudiante"
      case EnProgreso => "en_progreso"
      case CanceladaAdmin => "cancelada_admin"
    }
  }

  /** The session status a string names, if it names one. */
  function ParseSessionStatus(s: string): (r: Option<SessionStatus>)
    ensures r.Some? ==> r.value.Name() == s
    ensures r.None? ==> forall st: SessionStatus :: st.Name() != s
  {
    if s == "propuesta" then Some(Propuesta)
    else if s == "confirmada" then Some(Confirmada)
    else if s == "realizada" then Some(Realizada)
    else if s == "cancelada_mentor" then Some(CanceladaMentor)
    else if s == "cancelada_estudiante" then Some(CanceladaEstudiante)
    else if s == "reprogramar_mentor" then Some(ReprogramarMentor)
    else if s == "reprogramar_estudiante" then Some(ReprogramarEstudiante)
    else if s == "en_progreso" then Some(EnProgreso)
    else if s == "cancelada_admin" then Some(CanceladaAdmin)
    else None
  }

  /** The `enum` validator of `status`. */
  predicate InSessionEnum(st: SessionStatus) {
    st != EnProgreso && st != CanceladaAdmin
  }

  /** A stored time slot; both times are required by the schema. */
  datatype Slot = Slot(startTime: int, endTime: int)

  /** A date-valued field of a request body: missing or unparsable (an
      Invalid Date), or a valid instant. */
  datatype TimeArg = NoTime | At(ms: int)

  /** One element of a `proposedDateTimes` array in a request body. */
  datatype SlotArg = SlotArg(startTime: TimeArg, endTime: TimeArg)

  /** A session document. `mentor` is `None` when the controller copied a
      missing mentor; the location and the two notes are `None` when unset or
      `null`. */
  datatype Session = Session(
    mentorshipRequest: Id,
    mentor: Option<Id>,
    student: Id,
    proposedBy: Id,
    proposedDateTimes: seq<Slot>,
    confirmedDateTime: Option<Slot>,
    status: SessionStatus,
    locationOrLink: Option<string>,
    summaryMentor: Option<string>,
    feedbackStudent: Option<string>)

  /** Schema validation: the required references and the status enum. */
  predicate ValidSession(s: Session) {
    s.mentor.Some? && InSessionEnum(s.status)
  }

  /** Casting body slots to stored slots, as validation does: every slot needs
      two valid dates, and nothing more (no ordering). */
  function CastSlots(args: seq<SlotArg>): (r: Option<seq<Slot>>)
    ensures r.Some? <==> forall i :: 0 <= i < |args| ==> args[i].startTime.At? && args[i].endTime.At?
    ensures r.Some? ==> |r.value| == |args|
    ensures r.Some? ==> forall i :: 0 <= i < |args| ==>
              r.value[i] == Slot(args[i].startTime.ms, args[i].endTime.ms)
  {
    if |args| == 0 then Some([])
    else
      match CastSlots(args[1..])
      case None => None
      case Some(rest) =>
        if args[0].startTime.At? && args[0].endTime.At? then
          Some([Slot(args[0].startTime.ms, args[0].endTime.ms)] + rest)
        else None
  }

  /** Every stored session is valid and its confirmed slot, if any, is one of
      its proposed slots. */
  predicate SessionInvariant(s: Session) {
    ValidSession(s) && (s.confirmedDateTime.Some? ==> s.confirmedDateTime.value in s.proposedDateTimes)
  }

  predicate SessionStoreInvariant(store: Store<Session>) {
    forall id :: id in store ==> SessionInvariant(store[id].doc)
  }
}

=== FILE: soft_delete.dfy ===
/** The persistence layer as the controllers see it: one collection per model,
    a map from ids to documents carrying the soft-delete flag, and the
    pre-query hook every model installs, which adds `isDeleted: false` to a
    filter that does not mention `isDeleted`. */
module SoftDelete {
  import opened Http

  type Id = string

  predicate IsHexDigit(c: char) {
    ('0' <= c <= '9') || ('a' <= c <= 'f') || ('A' <= c <= 'F')
  }

  /** `mongoose.Types.ObjectId.isValid` on a string: 24 hexadecimal digits. */
  predicate IsObjectId(s: string) {
    |s| == 24 && forall i :: 0 <= i < |s| ==> IsHexDigit(s[i])
  }

  /** A stored document with the two soft-delete fields every schema declares. */
  datatype Entry<T> = Entry(doc: T, isDeleted: bool, deletedAt: Option<int>)

  type Store<T> = map<Id, Entry<T>>

  datatype Model = UserSchema | HelpTypeSchema | RequestSchema | SessionSchema

  datatype QueryOp = Find | FindOne | FindOneAndUpdate | CountDocuments | Count

  /** Which query kinds carry the soft-delete hook: all five for users, help
      types and requests, only `find` and `findOne` for sessions. */
  predicate Hooked(m: Model, op: QueryOp) {
    if m == SessionSchema then op == Find || op == FindOne else true
  }

  /** What a filter says about `isDeleted`. */
  datatype DeletedCond = Unmentioned | Equals(value: bool)

  /** The filter after the pre-query hook ran. */
  function EffectiveCond(m: Model, op: QueryOp, c: DeletedCond): DeletedCond {
    if Hooked(m, op) && c == Unmentioned then Equals(false) else c
  }

  predicate Matches<T>(c: DeletedCond, e: Entry<T>) {
    c.Unmentioned? || e.isDeleted == c.value
  }

  /** Ids of the documents a query returns (or counts): those matching the
      caller's condition and the effective `isDeleted` condition. */
  function Query<T>(m: Model, op: QueryOp, s: Store<T>, where: T -> bool, c: DeletedCond): set<Id>
  {
    set id | id in s && where(s[id].doc) && Matches(EffectiveCond(m, op, c), s[id])
  }

  /** `Model.findById(id)`, which mongoose runs as `findOne({_id: id})`. */
  function FindById<T>(m: Model, s: Store<T>, id: Id): (r: Option<T>)
    ensures r.Some? <==> id in s && !s[id].isDeleted
    ensures r.Some? ==> r.value == s[id].doc
  {
    if id in s && Matches(EffectiveCond(m, FindOne, Unmentioned), s[id]) then Some(s[id].doc) else None
  }

  /** Marks a stored document deleted, stamping the deletion time. */
  function MarkDeleted<T>(s: Store<T>, id: Id, now: int): (r: Store<T>)
    requires id in s
    ensures r.Keys == s.Keys
    ensures r[id] == Entry(s[id].doc, true, Some(now))
    ensures forall k :: k in s && k != id ==> r[k] == s[k]
  {
    s[id := Entry(s[id].doc, true, Some(now))]
  }

  /** No hooked query returns or counts a deleted document unless its filter
      names `isDeleted`. */
  lemma HookedQueryHidesDeleted<T>(m: Model, op: QueryOp, s: Store<T>, where: T -> bool)
    requires Hooked(m, op)
    ensures forall id :: id in Query(m, op, s, where, Unmentioned) ==> !s[id].isDeleted
  {
  }

  /** A filter that names `isDeleted` is left as it is. */
  lemma ExplicitConditionBypassesHook<T>(m: Model, op: QueryOp, s: Store<T>, where: T -> bool)
    ensures Query(m, op, s, where, Equals(true))
         == set id | id in s && where(s[id].doc) && s[id].isDeleted
  {
  }

  /** The session model does not hook `countDocuments`: a count over sessions
      includes the deleted ones. */
  lemma SessionCountIncludesDeleted<T>(s: Store<T>, where: T -> bool, id: Id)
    requires id in s && s[id].isDeleted && where(s[id].doc)
    ensures id in Query(SessionSchema, CountDocuments, s, where, Unmentioned)
    ensures id !in Query(RequestSchema, CountDocuments, s, where, Unmentioned)
  {
  }

  /** Once deleted, a document is invisible to `findById`. */
  lemma DeletedIsNotFound<T>(m: Model, s: Store<T>, id: Id, now: int)
    requires id in s
    ensures FindById(m, MarkDeleted(s, id, now), id).None?
  {
  }
}

=== FILE: student_dashboard.dfy ===
/** The student's dashboard: the Cancel button of a request row, the local
    check the click handler repeats on the loaded list, and the request it
    sends. */
module StudentDashboard {
  import opened Http
  import opened SoftDelete
  import opened UserModel
  import opened RequestModel
  import opened RequestController

  /** What the page keeps of a listed request. */
  datatype Row = Row(id: Id, status: RequestStatus, isDeleted: bool)

  /** The statuses a student may cancel from, as the page lists them. */
  const CancellableStatuses: set<RequestStatus> := {Pendiente, AceptadaMentor}

  /** The Cancel button of a row. */
  predicate CancelShown(r: Row) {
    r.status in CancellableStatuses && !r.isDeleted
  }

  /** `requests.find(req => req._id === id)`, as the index of the first
      match. */
  function FindRow(rows: seq<Row>, id: Id): (r: Option<nat>)
    ensures r.None? <==> forall i :: 0 <= i < |rows| ==> rows[i].id != id
    ensures r.Some? ==> r.value < |rows| && rows[r.value].id == id
                        && forall j :: 0 <= j < r.value ==> rows[j].id != id
  {
    if |rows| == 0 then None
    else if rows[0].id == id then Some(0)
    else match FindRow(rows[1..], id)
      case None => None
      case Some(k) => Some(k + 1)
  }

  datatype CancelOutcome = RefusedLocally | Dismissed | Sent(body: UpdateBody)

  /** `handleCancelRequest`: a request missing from the list, or in another
      status, is refused without a call; otherwise, once confirmed, the body
      `{status: 'cancelada_estudiante'}` is sent. The local check does not
      look at `isDeleted`. */
  function HandleCancel(rows: seq<Row>, id: Id, confirmed: bool): (r: CancelOutcome)
    ensures r == RefusedLocally <==> FindRow(rows, id).None? || rows[FindRow(rows, id).value].status !in CancellableStatuses
    ensures r == Dismissed <==> !confirmed && !(FindRow(rows, id).None? || rows[FindRow(rows, id).value].status !in CancellableStatuses)
    ensures r.Sent? ==> r.body == UpdateBody(Text("cancelada_estudiante"), Absent, Absent, false)
  {
    match FindRow(rows, id)
    case None => RefusedLocally
    case Some(i) =>
      if rows[i].status !in CancellableStatuses then RefusedLocally
      else if !confirmed then Dismissed
      else Sent(UpdateBody(Text("cancelada_estudiante"), Absent, Absent, false))
  }

  /** A shown button on a row whose id is unique in the list sends the
      cancel once confirmed. */
  lemma ShownCancelIsSent(rows: seq<Row>, i: nat)
    requires i < |rows| && CancelShown(rows[i])
    requires forall j :: 0 <= j < |rows| && j != i ==> rows[j].id != rows[i].id
    ensures HandleCancel(rows, rows[i].id, true).Sent?
  {
    var k := FindRow(rows, rows[i].id);
    assert k.Some?;
    assert k.value == i;
  }

  /** The sent cancel succeeds for the owner of a request that is, as the
      list shows it, pending or accepted, and only changes its status. */
  lemma SentCancelSucceeds(schema: Schema, requests: Store<Request>, users: Store<User>, me: Id, id: Id, rows: seq<Row>)
    requires ValidStore(schema, requests)
    requires IsObjectId(id) && id in requests && !requests[id].isDeleted
    requires requests[id].doc.studentUser == me && IsActiveUser(users, me)
    requires FindRow(rows, id).Some? && rows[FindRow(rows, id).value].status == requests[id].doc.status
    requires HandleCancel(rows, id, true).Sent?
    ensures var r := UpdateRequest(schema, requests, users, Caller(me, Estudiante), id, HandleCancel(rows, id, true).body);
            r.Ok? && r.value[id].doc == requests[id].doc.(status := CanceladaEstudiante)
  {
    assert ParseStatus("cancelada_estudiante") == Some(CanceladaEstudiante);
  }
}

=== FILE: text.dfy ===
/** String helpers with JavaScript semantics: `trim`, `split` on one
    character, and `join`. */
module Text {

  /** The characters `String.prototype.trim` removes: ECMAScript WhiteSpace
      and LineTerminator. */
  const SpaceChars: set<char> := {
    ' ', '\t', '\n', '\r', '\U{000B}', '\U{000C}', '\U{00A0}', '\U{1680}',
    '\U{2000}', '\U{2001}', '\U{2002}', '\U{2003}', '\U{2004}', '\U{2005}',
    '\U{2006}', '\U{2007}', '\U{2008}', '\U{2009}', '\U{200A}',
    '\U{2028}', '\U{2029}', '\U{202F}', '\U{205F}', '\U{3000}', '\U{FEFF}'
  }

  predicate IsSpace(c: char) {
    c in SpaceChars
  }

  predicate AllSpace(s: string) {
    forall i :: 0 <= i < |s| ==> IsSpace(s[i])
  }

  /** Neither end of `s` is a space character. */
  predicate IsTrimmed(s: string) {
    s == [] || (!IsSpace(s[0]) && !IsSpace(s[|s| - 1]))
  }

  /** `s.trim()`: `s` without the space characters at either end. */
  function Trim(s: string): (r: string)
    ensures IsTrimmed(r)
    ensures |r| <= |s|
    decreases |s|
  {
    if |s| > 0 && IsSpace(s[0]) then Trim(s[1..])
    else if |s| > 0 && IsSpace(s[|s| - 1]) then Trim(s[..|s| - 1])
    else s
  }

  lemma AllSpaceConcat(a: string, b: string)
    ensures AllSpace(a + b) <==> AllSpace(a) && AllSpace(b)
  {
    if AllSpace(a + b) {
      forall k | 0 <= k < |a| ensures IsSpace(a[k]) {
        assert (a + b)[k] == a[k];
      }
      forall k | 0 <= k < |b| ensures IsSpace(b[k]) {
        assert (a + b)[|a| + k] == b[k];
      }
    }
  }

  /** `t` sits in `s` at `i`, between an all-space prefix and an all-space suffix. */
  predicate InfixAt(s: string, t: string, i: nat) {
    && i + |t| <= |s|
    && t == s[i..i + |t|]
    && AllSpace(s[..i]) && AllSpace(s[i + |t|..])
  }

  /** A space in front moves the infix one place to the right. */
  lemma InfixAfterSpace(c: char, u: string, t: string, j: nat)
    requires IsSpace(c) && InfixAt(u, t, j)
    ensures InfixAt([c] + u, t, j + 1)
  {
    var s := [c] + u;
    assert s[j + 1..j + 1 + |t|] == u[j..j + |t|];
    assert s[..j + 1] == [c] + u[..j];
    AllSpaceConcat([c], u[..j]);
    assert s[j + 1 + |t|..] == u[j + |t|..];
  }

  /** A space at the end keeps the infix where it is. */
  lemma InfixBeforeSpace(p: string, c: char, t: string, i: nat)
    requires IsSpace(c) && InfixAt(p, t, i)
    ensures InfixAt(p + [c], t, i)
  {
    var s := p + [c];
    assert s[i..i + |t|] == p[i..i + |t|];
    assert s[..i] == p[..i];
    assert s[i + |t|..] == p[i + |t|..] + [c];
    AllSpaceConcat(p[i + |t|..], [c]);
  }

  /** `trim` removes only space characters: the result is the middle of `s`
      between an all-space prefix of length `i` and an all-space suffix. */
  lemma {:induction false} TrimIsInfix(s: string) returns (i: nat)
    ensures InfixAt(s, Trim(s), i)
    decreases |s|
  {
    if |s| > 0 && IsSpace(s[0]) {
      assert Trim(s) == Trim(s[1..]);
      var j := TrimIsInfix(s[1..]);
      InfixAfterSpace(s[0], s[1..], Trim(s), j);
      assert [s[0]] + s[1..] == s;
      i := j + 1;
    } else if |s| > 0 && IsSpace(s[|s| - 1]) {
      assert Trim(s) == Trim(s[..|s| - 1]);
      i := TrimIsInfix(s[..|s| - 1]);
      InfixBeforeSpace(s[..|s| - 1], s[|s| - 1], Trim(s), i);
      assert s[..|s| - 1] + [s[|s| - 1]] == s;
    } else {
      i := 0;
      assert Trim(s) == s;
    }
  }

  /** `trim` yields the empty string exactly for all-space input. */
  lemma {:induction false} TrimEmptyIff(s: string)
    ensures Trim(s) == [] <==> AllSpace(s)
    decreases |s|
  {
    var i := TrimIsInfix(s);
    if Trim(s) == [] {
      assert s == s[..i] + s[i..];
    } else {
      assert !IsSpace(s[i]);
    }
  }

  lemma TrimOfTrimmed(s: string)
    requires IsTrimmed(s)
    ensures Trim(s) == s
  {
  }

  /** A leading space never survives `trim`. */
  lemma TrimSkipsLeadingSpace(c: char, s: string)
    requires IsSpace(c)
    ensures Trim([c] + s) == Trim(s)
  {
    assert ([c] + s)[1..] == s;
  }

  /** `s.split(sep)` for a one-character separator: the maximal runs of `s`
      between occurrences of `sep`, always at least one (possibly empty) part. */
  function Split(s: string, sep: char): (parts: seq<string>)
    ensures |parts| >= 1
    ensures forall i :: 0 <= i < |parts| ==> sep !in parts[i]
  {
    if |s| == 0 then [""]
    else if s[0] == sep then [""] + Split(s[1..], sep)
    else
      var rest := Split(s[1..], sep);
      [[s[0]] + rest[0]] + rest[1..]
  }

  /** `xs.join(sep)`. */
  function Join(xs: seq<string>, sep: string): string
  {
    if |xs| == 0 then ""
    else if |xs| == 1 then xs[0]
    else xs[0] + sep + Join(xs[1..], sep)
  }

  lemma JoinCons(x: string, xs: seq<string>, sep: string)
    requires |xs| >= 1
    ensures Join([x] + xs, sep) == x + sep + Join(xs, sep)
  {
    assert ([x] + xs)[1..] == xs;
  }

  /** A string with no separator splits into itself. */
  lemma {:induction false} SplitWithoutSeparator(s: string, sep: char)
    requires sep !in s
    ensures Split(s, sep) == [s]
  {
    if |s| > 0 {
      assert sep !in s[1..] by {
        forall k | 0 <= k < |s[1..]| ensures s[1..][k] != sep {
          assert s[1..][k] == s[k + 1];
        }
      }
      SplitWithoutSeparator(s[1..], sep);
      assert [s[0]] + s[1..] == s;
    }
  }

  /** Splitting distributes over a separator occurrence. */
  lemma {:induction false} SplitAtSeparator(a: string, b: string, sep: char)
    ensures Split(a + [sep] + b, sep) == Split(a, sep) + Split(b, sep)
  {
    var s := a + [sep] + b;
    if |a| == 0 {
      assert s[0] == sep && s[1..] == b;
    } else {
      assert s[0] == a[0];
      assert s[1..] == a[1..] + [sep] + b;
      SplitAtSeparator(a[1..], b, sep);
    }
  }

  /** Round trip one way: joining the parts of a split restores the string. */
  lemma {:induction false} JoinSplit(s: string, sep: char)
    ensures Join(Split(s, sep), [sep]) == s
  {
    if |s| == 0 {
    } else if s[0] == sep {
      JoinSplit(s[1..], sep);
      JoinCons("", Split(s[1..], sep), [sep]);
      assert s == [sep] + s[1..];
    } else {
      var rest := Split(s[1..], sep);
      JoinSplit(s[1..], sep);
      if |rest| == 1 {
        assert s == [s[0]] + s[1..];
      } else {
        assert rest == [rest[0]] + rest[1..];
        JoinCons(rest[0], rest[1..], [sep]);
        JoinCons([s[0]] + rest[0], rest[1..], [sep]);
        assert s == [s[0]] + s[1..];
      }
    }
  }

  /** Round trip the other way: separator-free parts survive join then split. */
  lemma {:induction false} SplitJoin(xs: seq<string>, sep: char)
    requires |xs| >= 1
    requires forall i :: 0 <= i < |xs| ==> sep !in xs[i]
    ensures Split(Join(xs, [sep]), sep) == xs
  {
    SplitWithoutSeparator(xs[0], sep);
    if |xs| > 1 {
      SplitJoin(xs[1..], sep);
      SplitAtSeparator(xs[0], Join(xs[1..], [sep]), sep);
      assert xs == [xs[0]] + xs[1..];
    }
  }
}

=== FILE: user_model.dfy ===
/** The user schema: roles, the stored credential, the e-mail constraints, the
    password-reset fields, and the save-time hashing hook. bcrypt and SHA-256
    are abstracted as injective constructors. */
module UserModel {
  import opened Http
  import opened Text
  import opened SoftDelete

  datatype Role = Estudiante | Mentor | Admin {
    function Name(): string {
      match this
      case Estudiante => "estudiante"
      case Mentor => "mentor"
      case Admin => "admin"
    }
  }

  /** The role a user document gets when none is given. */
  const DefaultRole: Role := Estudiante

  /** The password field: a value just assigned (`Plain`, so "modified"), or a
      bcrypt hash of a password (`Hashed`), which the save hook produced. */
  datatype Password = Plain(text: string) | Hashed(of: string)

  /** The hex SHA-256 digest of a raw reset token. */
  datatype Digest = Sha256Hex(raw: string)

  /** Reset tokens expire ten minutes after they are issued (milliseconds). */
  const ResetTokenLifetimeMs: int := 10 * 60 * 1000

  datatype User = User(
    nombre: string,
    apellido: string,
    email: string,
    password: Password,
    rol: Role,
    carrera: string,
    cicloActual: string,
    isVerified: bool,
    passwordResetToken: Option<Digest>,
    passwordResetExpires: Option<int>)

  /** The authenticated caller a handler sees as `req.user`. */
  datatype Caller = Caller(id: Id, rol: Role)

  /** A stored, non-deleted user. */
  predicate IsActiveUser(users: Store<User>, id: Id) {
    id in users && !users[id].isDeleted
  }

  /** A user reference as the request and session models' autopopulate
      hands it to a controller. The populate query runs through the user
      model's `find` hook, so a reference to a deleted or missing user comes
      back `null`. */
  function PopulateUser(users: Store<User>, ref: Option<Id>): (r: Option<Id>)
    ensures r.Some? <==> ref.Some? && IsActiveUser(users, ref.value)
    ensures r.Some? ==> r == ref
  {
    if ref.Some? && ref.value in Query(UserSchema, Find, users, (u: User) => true, Unmentioned)
    then ref else None
  }

  predicate IsLineTerminator(c: char) {
    c == '\n' || c == '\r' || c == '\U{2028}' || c == '\U{2029}'
  }

  predicate NoLineTerminator(s: string) {
    forall k :: 0 <= k < |s| ==> !IsLineTerminator(s[k])
  }

  /** The pattern `.+@.+\..+` matches with its `@` at `i` and its dot at `j`. */
  predicate EmailMatchesAt(s: string, i: int, j: int) {
    && 1 <= i && i + 2 <= j < |s| - 1
    && s[i] == '@' && s[j] == '.'
    && !IsLineTerminator(s[i - 1]) && !IsLineTerminator(s[j + 1])
    && NoLineTerminator(s[i + 1..j])
  }

  /** `/.+\@.+\..+/.test(s)`: somewhere in `s`, at least one character, an
      `@`, at least one character, a dot, and at least one character, none of
      the "any" characters being a line terminator. */
  predicate EmailMatches(s: string) {
    exists i, j | 0 <= i < |s| && 0 <= j < |s| :: EmailMatchesAt(s, i, j)
  }

  /** `toLowerCase` on one character, restricted to the ASCII letters: every
      other character, including the non-ASCII capitals JavaScript would
      fold, is left alone. */
  function LowerChar(c: char): (r: char)
    ensures 'A' <= c <= 'Z' ==> 'a' <= r <= 'z' && r as int == c as int + 32
    ensures !('A' <= c <= 'Z') ==> r == c
  {
    if 'A' <= c <= 'Z' then (c as int + 32) as char else c
  }

  /** The `lowercase` setter as this model folds: character by character,
      so the length never changes (JavaScript's full case mapping can
      lengthen a string, as it does for U+0130). */
  function LowerAscii(s: string): (r: string)
    ensures |r| == |s|
    ensures forall i :: 0 <= i < |s| ==> r[i] == LowerChar(s[i])
  {
    if |s| == 0 then ""
    else [LowerChar(s[0])] + LowerAscii(s[1..])
  }

  /** The stored form of an e-mail address: lower-cased and trimmed. */
  function NormalizeEmail(s: string): string {
    LowerAscii(Trim(s))
  }

  /** The save-time schema validation of a user document. */
  predicate ValidUser(u: User) {
    && u.nombre != "" && u.apellido != ""
    && u.email != "" && EmailMatches(u.email)
    && (u.password.Plain? ==> |u.password.text| >= 6)
  }

  /** The pre-save hook: a modified password is hashed, a stored hash is
      left alone. */
  function HashOnSave(p: Password): (r: Password)
    ensures r.Hashed?
    ensures p.Hashed? ==> r == p
    ensures p.Plain? ==> r == Hashed(p.text)
  {
    match p
    case Plain(t) => Hashed(t)
    case Hashed(_) => p
  }

  /** `user.comparePassword(candidate)`. */
  predicate ComparePassword(u: User, candidate: string) {
    u.password == Hashed(candidate)
  }

  /** The user document with a fresh reset token, and the raw token to mail. */
  datatype IssuedToken = IssuedToken(user: User, raw: string)

  /** `a` and `b` agree on every field but the two reset fields. */
  predicate SameExceptReset(a: User, b: User) {
    && a.nombre == b.nombre && a.apellido == b.apellido && a.email == b.email
    && a.password == b.password && a.rol == b.rol && a.carrera == b.carrera
    && a.cicloActual == b.cicloActual && a.isVerified == b.isVerified
  }

  /** `user.createPasswordResetToken()` with the random token `raw` and the
      clock `now`: returns the raw token and stores only its digest. */
  function CreatePasswordResetToken(u: User, raw: string, now: int): (r: IssuedToken)
    ensures r.raw == raw
    ensures r.user.passwordResetToken == Some(Sha256Hex(raw))
    ensures r.user.passwordResetExpires == Some(now + 600000)
    ensures SameExceptReset(r.user, u)
  {
    IssuedToken(u.(passwordResetToken := Some(Sha256Hex(raw)),
                   passwordResetExpires := Some(now + ResetTokenLifetimeMs)), raw)
  }

  /** The unique index on `email` spans every stored user, deleted or not. */
  predicate EmailsUnique(users: Store<User>) {
    forall a, b :: a in users && b in users && users[a].doc.email == users[b].doc.email ==> a == b
  }

  /** Ids of the users `User.findOne({email})` can return. */
  function ActiveWithEmail(users: Store<User>, email: string): (ids: set<Id>)
    ensures forall id :: id in ids <==> id in users && !users[id].isDeleted && users[id].doc.email == email
  {
    Query(UserSchema, FindOne, users, (u: User) => u.email == email, Unmentioned)
  }

  /** Some user, deleted or not, already stores this e-mail address. */
  predicate EmailTaken(users: Store<User>, email: string) {
    exists id :: id in users && users[id].doc.email == email
  }

  /** `User.create(u)` under the fresh id `newId`: schema validation, then
      the unique index on `email` (which sees deleted users too), then the
      pre-save hook. Either failure is thrown to the caller, modelled as a 500. */
  function CreateUser(users: Store<User>, u: User, newId: Id): (r: Result<Store<User>>)
    requires newId !in users
    ensures r.Ok? <==> ValidUser(u) && !EmailTaken(users, u.email)
    ensures r.Err? ==> r.status == ServerError
    ensures r.Ok? ==> && r.value.Keys == users.Keys + {newId}
                      && (forall id :: id in users ==> r.value[id] == users[id])
                      && r.value[newId] == Entry(u.(password := HashOnSave(u.password)), false, None)
  {
    if !ValidUser(u) || EmailTaken(users, u.email) then Err(ServerError)
    else Ok(users[newId := Entry(u.(password := HashOnSave(u.password)), false, None)])
  }

  /** Creating a user keeps the unique-email invariant. */
  lemma CreateUserKeepsEmailsUnique(users: Store<User>, u: User, newId: Id)
    requires newId !in users && EmailsUnique(users)
    requires CreateUser(users, u, newId).Ok?
    ensures EmailsUnique(CreateUser(users, u, newId).value)
  {
  }

  /** Saving twice hashes once: the hook is idempotent. */
  lemma HashOnSaveIdempotent(p: Password)
    ensures HashOnSave(HashOnSave(p)) == HashOnSave(p)
  {
  }

  /** After a save, the stored credential accepts exactly the password that
      was last assigned. */
  lemma SavedPasswordAcceptsOnlyItself(u: User, pw: string, candidate: string)
    ensures ComparePassword(u.(password := HashOnSave(Plain(pw))), candidate) <==> candidate == pw
  {
  }

  lemma LowerCharKeepsSpaces(c: char)
    ensures !('A' <= LowerChar(c) <= 'Z')
    ensures IsSpace(LowerChar(c)) <==> IsSpace(c)
  {
  }

  /** A stored address has no upper-case ASCII letter and no space at either end. */
  lemma NormalizedEmailIsLowerAndTrimmed(s: string)
    ensures forall i :: 0 <= i < |NormalizeEmail(s)| ==> !('A' <= NormalizeEmail(s)[i] <= 'Z')
    ensures IsTrimmed(NormalizeEmail(s))
  {
    var t := Trim(s);
    forall i | 0 <= i < |t| ensures !('A' <= NormalizeEmail(s)[i] <= 'Z') {
      LowerCharKeepsSpaces(t[i]);
    }
    if t != "" {
      LowerCharKeepsSpaces(t[0]);
      LowerCharKeepsSpaces(t[|t| - 1]);
    }
  }

  /** The pattern accepts any address made of a non-empty local part, an
      `@`, a non-empty domain, a dot and a non-empty suffix, none of them
      holding a line terminator. */
  lemma EmailPatternAcceptsAddresses(a: string, b: string, c: string)
    requires a != "" && b != "" && c != ""
    requires NoLineTerminator(a) && NoLineTerminator(b) && NoLineTerminator(c)
    ensures EmailMatches(a + "@" + b + "." + c)
  {
    var s := a + "@" + b + "." + c;
    var i, j := |a|, |a| + 1 + |b|;
    assert s[i - 1] == a[|a| - 1];
    assert s[j + 1] == c[0];
    assert s[i + 1..j] == b;
    assert EmailMatchesAt(s, i, j);
  }

  /** Whatever the pattern accepts holds an `@` followed, later, by a dot,
      with at least one character before the `@` and after the dot. */
  lemma EmailPatternNeedsAtAndDot(s: string)
    requires EmailMatches(s)
    ensures exists i, j | 0 < i && i + 2 <= j < |s| - 1 :: s[i] == '@' && s[j] == '.'
  {
    var i, j :| 0 <= i < |s| && 0 <= j < |s| && EmailMatchesAt(s, i, j);
    assert s[i] == '@' && s[j] == '.';
  }
}
